=== FILE: README.md ===
# OpenInference instrumentation for smolagents, modelled in Dafny

This project models the core of the OpenInference instrumentation for the
smolagents agent framework. It covers the four wrappers that trace
smolagents' calls and the helpers that build the wrappers' span attributes.
The wrappers trace an agent's `run`, each agent step, each model call and each
tool call. The helpers flatten nested mappings into dotted attribute keys,
normalise a call's arguments into the JSON input value, and build the LLM
message, invocation-parameter and tool attributes.

A Python value is the datatype `Values.Value`: None, str, int, bool, an enum
member, a dict, a list, or an object the code only passes along. A dict is an
ordered list of entries in which the last entry for a key wins. A wrapped call
becomes an `Interception`, which holds three things:
- the span events the wrapper emits: start, set attribute(s), set status,
  record exception, end;
- whether the wrapped function was called;
- what the wrapper's caller gets back, a value or an exception.

An exception carries whether its class derives from `Exception`. The wrappers
open their spans with `record_exception=False` and
`set_status_on_exception=False` and catch only `Exception`, so a
`KeyboardInterrupt` or `SystemExit` leaves its span with no status and no
recorded exception.

The attributes a span ends up holding are computed by replaying its events into
a last-write-wins store. A `None` value is dropped there. The status is the
last one set. Each wrapper takes the same inputs:
- the suppression flag and the context attributes (`Wrapping.Context`);
- the outcome of the wrapped call;
- the objects the wrapper reads after the call: the agent's monitor, the step
  log, the model's token counts and the output message.

The files follow the structure of the source:

| file | models |
|---|---|
| `values.dfy`, `results.dfy`, `dicts.dfy`, `text.dfy` | values, `Option`/`Result`, dict lookup, update and deletion, decimal rendering of indices |
| `flatten.dfy`, `flatten_properties.dfy` | `_flatten` |
| `binding.dfy`, `binding_properties.dfy`, `input_properties.dfy` | `Signature.bind` as the wrappers use it, `_bind_arguments`, `_get_input_value` |
| `semconv.dfy` | the semantic-convention names the wrappers write |
| `llm_attributes.dfy`, `llm_properties.dfy` | `_llm_input_messages`, `_llm_output_messages`, `_llm_invocation_parameters`, `_llm_tools`, `_input_value_and_mime_type`, `_output_value_and_mime_type` |
| `spans.dfy`, `span_properties.dfy` | span events, the attribute store, the final status |
| `wrapping.dfy` | what all wrappers share: the serialisers, the context, the intercepted call, the exceptions raised |
| `run_wrapper.dfy`, `run_properties.dfy` | `_RunWrapper` |
| `step_wrapper.dfy`, `step_properties.dfy` | `_StepWrapper` |
| `model_wrapper.dfy`, `model_properties.dfy` | `_ModelWrapper` |
| `tool_wrapper.dfy`, `tool_properties.dfy` | `_ToolCallWrapper` |

`_get_input_value` does not treat a call `f(kwargs={...})` like `f(**{...})`.
For a function with a `**kwargs` parameter, the keyword argument literally
named `kwargs` lands in the `**kwargs` dictionary. The merge at line 83 then
puts it back at the top level under the key `"kwargs"`, so the inner entries
stay nested. The model follows the code (`InputProperties.KwargsKeywordNested`).
As a consequence, the input value can contain the key `"kwargs"`, although the
names `self` and `kwargs` are dropped from the bound arguments.

## Model

| member | source | states |
|---|---|---|
| Dicts.Update | python/instrumentation/openinference-instrumentation-smolagents/src/openinference/instrumentation/smolagents/_wrappers.py:76-84 | `{**a, **b}`: a key of `b` reads as in `b`, any other key as in `a`, and the keys are the union of both |
| Dicts.Without | python/instrumentation/openinference-instrumentation-smolagents/src/openinference/instrumentation/smolagents/_wrappers.py:78-82 | dropping the names `self` and `kwargs` removes exactly those keys and leaves every other lookup unchanged |
| Text.NatToString | python/instrumentation/openinference-instrumentation-smolagents/src/openinference/instrumentation/smolagents/_wrappers.py:47 | a list index renders as a non-empty string of decimal digits without a leading zero |
| Text.ParseNatToString | python/instrumentation/openinference-instrumentation-smolagents/src/openinference/instrumentation/smolagents/_wrappers.py:47 | the rendered index reads back as the index it came from |
| Text.NumberDotInjective | python/instrumentation/openinference-instrumentation-smolagents/src/openinference/instrumentation/smolagents/_wrappers.py:47 | `"<i>.<x>"` determines both `i` and `x`, so keys of different list elements never collide |
| Flatten.FlattenValue | python/instrumentation/openinference-instrumentation-smolagents/src/openinference/instrumentation/smolagents/_wrappers.py:35-51 | every value it emits is a flat attribute value: never None, a mapping, an enum member, or a list holding a mapping |
| FlattenProperties.ValueSucceedsIff | python/instrumentation/openinference-instrumentation-smolagents/src/openinference/instrumentation/smolagents/_wrappers.py:35-51 | flattening succeeds exactly when every element it reaches inside a list of mappings is falsy or a mapping |
| FlattenProperties.EntriesSucceedIff | python/instrumentation/openinference-instrumentation-smolagents/src/openinference/instrumentation/smolagents/_wrappers.py:38-51 | the same condition, for the entries of a mapping |
| FlattenProperties.EntrySucceedsIff | python/instrumentation/openinference-instrumentation-smolagents/src/openinference/instrumentation/smolagents/_wrappers.py:39-51 | the same condition, for one entry |
| FlattenProperties.ItemsSucceedIff | python/instrumentation/openinference-instrumentation-smolagents/src/openinference/instrumentation/smolagents/_wrappers.py:45-47 | the same condition, for the elements of a list |
| FlattenProperties.FlattenEntriesAppend | python/instrumentation/openinference-instrumentation-smolagents/src/openinference/instrumentation/smolagents/_wrappers.py:38-51 | the pairs for a mapping are the pairs of each entry in order, and the first failure stops the rest |
| FlattenProperties.NoneEntrySkipped | python/instrumentation/openinference-instrumentation-smolagents/src/openinference/instrumentation/smolagents/_wrappers.py:39-40 | an entry whose value is None contributes nothing, wherever it sits |
| FlattenProperties.NestedMappingPrefixed | python/instrumentation/openinference-instrumentation-smolagents/src/openinference/instrumentation/smolagents/_wrappers.py:41-43 | a nested mapping under `k` contributes exactly its own flattening, in order, each key prefixed `k.`, at its place |
| FlattenProperties.FlattenItemsAppend | python/instrumentation/openinference-instrumentation-smolagents/src/openinference/instrumentation/smolagents/_wrappers.py:44-47 | splitting a list keeps each element's numbering at its original position |
| FlattenProperties.ListElementAtOriginalIndex | python/instrumentation/openinference-instrumentation-smolagents/src/openinference/instrumentation/smolagents/_wrappers.py:44-47 | element `i` of a list holding a mapping contributes its own flattening under `k.<i>.`, between the elements before and after it |
| FlattenProperties.ListElementShapes | python/instrumentation/openinference-instrumentation-smolagents/src/openinference/instrumentation/smolagents/_wrappers.py:36-38 | a falsy argument (None, `{}`, …) yields nothing; a truthy non-mapping fails on `.items()` |
| FlattenProperties.FlatMappingKept | python/instrumentation/openinference-instrumentation-smolagents/src/openinference/instrumentation/smolagents/_wrappers.py:38-51 | a mapping with nothing nested keeps every entry in order under its own key, drops the None ones and replaces enum members by their values |
| Wrapping.FlattenStrings | python/instrumentation/openinference-instrumentation-smolagents/src/openinference/instrumentation/smolagents/_wrappers.py:35-51 | a mapping whose values are all strings flattens to itself |
| Wrapping.KindAndInput | python/instrumentation/openinference-instrumentation-smolagents/src/openinference/instrumentation/smolagents/_wrappers.py:107-118 | the agent and tool spans start with exactly the span kind and the input JSON |
| Wrapping.InputValueOf | python/instrumentation/openinference-instrumentation-smolagents/src/openinference/instrumentation/smolagents/_wrappers.py:54-58 | `_get_input_value(wrapped, *args, **kwargs)` raises `TypeError` "_get_input_value() got multiple values for argument 'method'" whenever a keyword argument is named `method` |
| Wrapping.CollisionMessage | python/instrumentation/openinference-instrumentation-smolagents/src/openinference/instrumentation/smolagents/_wrappers.py:228 | the text of that `TypeError`: the helper's name, then "() got multiple values for argument 'method'" |
| Binding.BindPositional | python/instrumentation/openinference-instrumentation-smolagents/src/openinference/instrumentation/smolagents/_wrappers.py:228-232 | positional binding succeeds iff there are no more arguments than parameters and none of them is also passed by keyword; argument `i` goes to parameter `i` |
| BindingProperties.BindKeywordsSucceedsIff | python/instrumentation/openinference-instrumentation-smolagents/src/openinference/instrumentation/smolagents/_wrappers.py:228-232 | keyword binding of the remaining parameters succeeds iff each is named or has a default |
| BindingProperties.BindKeywordsMissing | python/instrumentation/openinference-instrumentation-smolagents/src/openinference/instrumentation/smolagents/_wrappers.py:228-232 | a keyword-binding failure names a parameter that is neither passed nor defaulted |
| BindingProperties.BindKeywordsLeftover | python/instrumentation/openinference-instrumentation-smolagents/src/openinference/instrumentation/smolagents/_wrappers.py:228-232 | the keywords left over are exactly those that name no parameter |
| BindingProperties.BindKeywordsValues | python/instrumentation/openinference-instrumentation-smolagents/src/openinference/instrumentation/smolagents/_wrappers.py:228-232 | each parameter bound by keyword holds the value passed under its name, and nothing else is bound |
| BindingProperties.PositionalErrorJustified | python/instrumentation/openinference-instrumentation-smolagents/src/openinference/instrumentation/smolagents/_wrappers.py:228-232 | a positional-binding error is too many arguments, or a parameter given both positionally and by keyword |
| BindingProperties.BindSucceedsIff | python/instrumentation/openinference-instrumentation-smolagents/src/openinference/instrumentation/smolagents/_wrappers.py:228-232 | binding succeeds iff the call fits the signature: not too many positionals, no duplicate, every other parameter named or defaulted, and no unknown keyword without `**kwargs` |
| BindingProperties.BindErrorJustified | python/instrumentation/openinference-instrumentation-smolagents/src/openinference/instrumentation/smolagents/_wrappers.py:228-232 | every binding `TypeError` names a genuine mismatch between the call and the signature |
| BindingProperties.BindLookupParam | python/instrumentation/openinference-instrumentation-smolagents/src/openinference/instrumentation/smolagents/_wrappers.py:228-232 | a parameter holds its positional argument, otherwise the keyword argument of its name |
| BindingProperties.BindLookupVarKeyword | python/instrumentation/openinference-instrumentation-smolagents/src/openinference/instrumentation/smolagents/_wrappers.py:228-232 | `**kwargs` holds exactly the keywords no parameter takes, and is absent when there are none |
| BindingProperties.BindValues | python/instrumentation/openinference-instrumentation-smolagents/src/openinference/instrumentation/smolagents/_wrappers.py:228-232 | the whole binding: every parameter's value, the `**kwargs` dictionary, and nothing else |
| BindingProperties.BindAgree | python/instrumentation/openinference-instrumentation-smolagents/src/openinference/instrumentation/smolagents/_wrappers.py:228-232 | binding sees the keyword arguments only through the value each parameter is passed and the leftover keywords in order, so two keyword dicts that agree on those bind alike, whatever the order of the rest |
| BindingProperties.KeywordsInAnyOrder | python/instrumentation/openinference-instrumentation-smolagents/src/openinference/instrumentation/smolagents/_wrappers.py:228-232 | binding, with or without defaults, is the same whether the trailing parameters are passed positionally or by keyword in any order, interleaved with the extra keywords, which reach `**kwargs` in their own order; `_bind_arguments` agrees too, unless a keyword is named `method`, which makes it raise its own `TypeError` |
| BindingProperties.InputKeywordsInAnyOrder | python/instrumentation/openinference-instrumentation-smolagents/src/openinference/instrumentation/smolagents/_wrappers.py:54-86 | the input dictionary is the same however and in whatever order the trailing parameters are passed, `self` aside; `_get_input_value` agrees too, unless a keyword is named `method`, which makes it raise its own `TypeError` |
| BindingProperties.InputFromBind | python/instrumentation/openinference-instrumentation-smolagents/src/openinference/instrumentation/smolagents/_wrappers.py:67-86 | the input dictionary depends only on the binding |
| InputProperties.DefaultsAppliedLookup | python/instrumentation/openinference-instrumentation-smolagents/src/openinference/instrumentation/smolagents/_wrappers.py:231 | applying defaults gives each parameter its bound value, otherwise its default, and adds no other name |
| InputProperties.KwargsEntry | python/instrumentation/openinference-instrumentation-smolagents/src/openinference/instrumentation/smolagents/_wrappers.py:83 | `arguments.get("kwargs", {})` is the dictionary of the keywords no parameter takes |
| InputProperties.BindArgumentsValues | python/instrumentation/openinference-instrumentation-smolagents/src/openinference/instrumentation/smolagents/_wrappers.py:228-232 | every parameter is present, holding its positional argument, else its keyword argument, else its default; `kwargs` holds the leftovers; there are no other keys |
| InputProperties.InputArgumentsSucceedsIff | python/instrumentation/openinference-instrumentation-smolagents/src/openinference/instrumentation/smolagents/_wrappers.py:54-75 | the input value exists iff no keyword argument is named `method` and the call, with `None` put first for a leading `self`, fits the signature; the dictionary built after the helper is entered exists iff the call fits |
| InputProperties.BindArgumentsSucceedsIff | python/instrumentation/openinference-instrumentation-smolagents/src/openinference/instrumentation/smolagents/_wrappers.py:228-232 | `_bind_arguments` returns iff no keyword argument is named `method` and the call fits the signature; with such a keyword it raises its own multiple-values `TypeError` |
| InputProperties.MethodKeywordRejected | python/instrumentation/openinference-instrumentation-smolagents/src/openinference/instrumentation/smolagents/_wrappers.py:54-58 | a tool with a parameter `method`, called as `method="GET"`: both helpers raise, although `Signature.bind` accepts the call, and passing `"GET"` positionally binds |
| InputProperties.PlaceholderAligns | python/instrumentation/openinference-instrumentation-smolagents/src/openinference/instrumentation/smolagents/_wrappers.py:65-73 | with the `None` for `self` in front, the caller's argument `i` meets declared parameter `i`, so `self` does not shift binding |
| InputProperties.InputArgumentsContents | python/instrumentation/openinference-instrumentation-smolagents/src/openinference/instrumentation/smolagents/_wrappers.py:54-86 | a keyword named `method` raises the multiple-values `TypeError`; otherwise each declared parameter holds its argument; when the signature has a `self` parameter, `self` never appears; every non-parameter key reads as the caller's keyword of that name, merged at top level |
| InputProperties.KwargsKeywordNested | python/instrumentation/openinference-instrumentation-smolagents/src/openinference/instrumentation/smolagents/_wrappers.py:76-86 | a keyword literally named `kwargs` stays nested under `"kwargs"` and is not merged at top level |
| LlmProperties.InputMessagesPrompt | python/instrumentation/openinference-instrumentation-smolagents/src/openinference/instrumentation/smolagents/_wrappers.py:236-238 | a `str` prompt gives exactly a `user` role and the prompt as content, at index 0 |
| LlmProperties.PromptWins | python/instrumentation/openinference-instrumentation-smolagents/src/openinference/instrumentation/smolagents/_wrappers.py:236-239 | with a `str` prompt, the `messages` argument is ignored |
| LlmProperties.InputMessagesFromList | python/instrumentation/openinference-instrumentation-smolagents/src/openinference/instrumentation/smolagents/_wrappers.py:239-252 | message `i`'s role and content appear at index `i`, each only when the message is a dict with that field not None |
| LlmProperties.InputMessagesOnlyFields | python/instrumentation/openinference-instrumentation-smolagents/src/openinference/instrumentation/smolagents/_wrappers.py:239-252 | every key written is the role or content key of a dict message at its own index |
| LlmProperties.MessageFieldsLookup | python/instrumentation/openinference-instrumentation-smolagents/src/openinference/instrumentation/smolagents/_wrappers.py:241-252 | one message yields at most its role and content, each when not None, and nothing for a non-dict |
| LlmProperties.InputMessagesNothing | python/instrumentation/openinference-instrumentation-smolagents/src/openinference/instrumentation/smolagents/_wrappers.py:235-252 | with neither a `str` prompt nor a `messages` list, nothing is yielded |
| LlmProperties.IndexPrefixInjective | python/instrumentation/openinference-instrumentation-smolagents/src/openinference/instrumentation/smolagents/_wrappers.py:245-251 | keys of different indices or fields never coincide |
| LlmProperties.OutputIsMessageZero | python/instrumentation/openinference-instrumentation-smolagents/src/openinference/instrumentation/smolagents/_wrappers.py:255-265 | the output message's attributes are what a dict input message with the same role and content yields, at index 0 of the output messages |
| LlmProperties.InvocationParametersUnion | python/instrumentation/openinference-instrumentation-smolagents/src/openinference/instrumentation/smolagents/_wrappers.py:273-278 | exactly one attribute: the JSON of the model's `kwargs` united with the call's `kwargs`, with the call winning and a non-dict counting as empty |
| LlmProperties.ToolsLookup | python/instrumentation/openinference-instrumentation-smolagents/src/openinference/instrumentation/smolagents/_wrappers.py:281-292 | nothing for a non-list; tool `i` has its schema JSON at index `i` iff it is a `Tool` |
| LlmProperties.InputMessagesUnder | python/instrumentation/openinference-instrumentation-smolagents/src/openinference/instrumentation/smolagents/_wrappers.py:235-252 | every input-message key lies under `llm.input_messages.` |
| LlmProperties.OutputMessagesUnder | python/instrumentation/openinference-instrumentation-smolagents/src/openinference/instrumentation/smolagents/_wrappers.py:255-265 | every output-message key lies under `llm.output_messages.` |
| LlmProperties.ToolsUnder | python/instrumentation/openinference-instrumentation-smolagents/src/openinference/instrumentation/smolagents/_wrappers.py:281-292 | every tool key lies under `llm.tools.` |
| RunWrapper.Run | python/instrumentation/openinference-instrumentation-smolagents/src/openinference/instrumentation/smolagents/_wrappers.py:89-177 | suppressed: the call is made and nothing recorded; a keyword named `method`: `_get_input_value`'s multiple-values `TypeError` before any span, call not made; any other arguments that do not bind: raised before any span, call not made; otherwise the call is made, the caller gets what it raised, and gets its result iff the monitor's counts can be added |
| SpanProperties.SpanHandled | python/instrumentation/openinference-instrumentation-smolagents/src/openinference/instrumentation/smolagents/_wrappers.py:166-169 | a span whose call raised: an `Exception` ends it with ERROR carrying `str(exception)`, the exception recorded just before the end, never OK; any other `BaseException` leaves it with no status and nothing recorded, since `record_exception` and `set_status_on_exception` are off |
| RunWrapper.AfterCall | python/instrumentation/openinference-instrumentation-smolagents/src/openinference/instrumentation/smolagents/_wrappers.py:158-176 | after the description: the call's exception is re-raised, recorded as ERROR only when it is an `Exception` (another `BaseException` adds no event); on return, counts that cannot be added raise that `TypeError` inside the `try`, which is recorded and raised instead of the result; otherwise the result is returned |
| RunProperties.RunLifecycle | python/instrumentation/openinference-instrumentation-smolagents/src/openinference/instrumentation/smolagents/_wrappers.py:102-176 | one span `<class>.run`, started with kind AGENT and the input JSON; when the caller gets an `Exception`, from the call or from adding the counts, ERROR with `str(exception)`, the exception recorded, never OK; when the call raised another `BaseException`, no status and nothing recorded; when it gets the result, OK |
| RunProperties.RunInputIsTask | python/instrumentation/openinference-instrumentation-smolagents/src/openinference/instrumentation/smolagents/_wrappers.py:111-125 | the span's input value ends up as the agent's task, not the argument JSON it started with |
| RunProperties.RunTokenCounts | python/instrumentation/openinference-instrumentation-smolagents/src/openinference/instrumentation/smolagents/_wrappers.py:159-168 | on return with `int` (or `bool`) counts, the caller gets the result and the span holds the monitor's prompt and completion counts and their sum as the total |
| RunProperties.RunTokensUnsummable | python/instrumentation/openinference-instrumentation-smolagents/src/openinference/instrumentation/smolagents/_wrappers.py:159-172 | on return with counts that cannot be added, such as a `None`: the caller gets that `TypeError`, the span ends with it as ERROR, holds the counts that are not `None`, and has no total |
| RunProperties.RunContextLast | python/instrumentation/openinference-instrumentation-smolagents/src/openinference/instrumentation/smolagents/_wrappers.py:176 | on a return whose counts add up, every context attribute with a value overrides what the wrapper set |
| RunProperties.RunAdditionalArgsOnce | python/instrumentation/openinference-instrumentation-smolagents/src/openinference/instrumentation/smolagents/_wrappers.py:128-133 | `additional_args` is written twice with the same value, and the second write changes nothing |
| RunProperties.AsWrittenDropsModelType | python/instrumentation/openinference-instrumentation-smolagents/src/openinference/instrumentation/smolagents/_wrappers.py:148-151 | as written, a managed agent's model without `model_id` is summarised as `""` instead of its type name |
| RunProperties.AsWrittenListsParentTools | python/instrumentation/openinference-instrumentation-smolagents/src/openinference/instrumentation/smolagents/_wrappers.py:153 | as written, a managed agent's `tools_names` are those of the agent being run |
| RunProperties.AsWrittenExample | python/instrumentation/openinference-instrumentation-smolagents/src/openinference/instrumentation/smolagents/_wrappers.py:144-154 | a concrete managed agent whose summary shows both defects |
| RunProperties.CorrectedExample | python/instrumentation/openinference-instrumentation-smolagents/src/openinference/instrumentation/smolagents/_wrappers.py:144-154 | the same managed agent, summarised with its model type and its own tools |
| RunProperties.CorrectedAgreesWhenDefectsAbsent | python/instrumentation/openinference-instrumentation-smolagents/src/openinference/instrumentation/smolagents/_wrappers.py:144-154 | with a `model_id` and the same tools, the corrected summary equals the as-written one |
| RunProperties.RunManagedAgents | python/instrumentation/openinference-instrumentation-smolagents/src/openinference/instrumentation/smolagents/_wrappers.py:140-157 | unless the context overrides the key, the run span holds under `managed_agents` the JSON of one summary per managed agent, in order, each built as the source builds it |
| RunProperties.SummaryMatchesOwnRun | python/instrumentation/openinference-instrumentation-smolagents/src/openinference/instrumentation/smolagents/_wrappers.py:134-154 | a managed agent's corrected summary reports the `model` and `tools_names` its own run span records |
| StepWrapper.Step | python/instrumentation/openinference-instrumentation-smolagents/src/openinference/instrumentation/smolagents/_wrappers.py:180-225 | the step always runs; the span starts as `Step <n>` with kind CHAIN; an exception passes through unchanged; a step with a complete log returns its result |
| StepProperties.StepLifecycle | python/instrumentation/openinference-instrumentation-smolagents/src/openinference/instrumentation/smolagents/_wrappers.py:194-224 | one span; on an `Exception`, ERROR with `str(exception)` and never OK; on another `BaseException`, no status and nothing recorded; on return with a step log that has both fields, OK |
| StepProperties.StepWithoutArguments | python/instrumentation/openinference-instrumentation-smolagents/src/openinference/instrumentation/smolagents/_wrappers.py:203-217 | a step called without arguments runs, then `args[0]` raises `IndexError` inside the `try`, which sets ERROR and reaches the caller |
| StepProperties.StepIncompleteLog | python/instrumentation/openinference-instrumentation-smolagents/src/openinference/instrumentation/smolagents/_wrappers.py:219-221 | a log lacking `error` or `observations` raises `AttributeError` after the `try`, leaving the span with no status |
| StepProperties.StepErrorIsAttribute | python/instrumentation/openinference-instrumentation-smolagents/src/openinference/instrumentation/smolagents/_wrappers.py:208-222 | a step-log error is only an `Error` attribute: the status is OK and the result is returned |
| StepProperties.StepOutputIsObservations | python/instrumentation/openinference-instrumentation-smolagents/src/openinference/instrumentation/smolagents/_wrappers.py:221-223 | the span's output value is the step log's observations, not the result |
| StepProperties.StepFinalAnswer | python/instrumentation/openinference-instrumentation-smolagents/src/openinference/instrumentation/smolagents/_wrappers.py:205-206 | a non-None result is recorded as `Final answer` |
| StepProperties.StepContextLast | python/instrumentation/openinference-instrumentation-smolagents/src/openinference/instrumentation/smolagents/_wrappers.py:224 | every context attribute with a value overrides what the wrapper set |
| Wrapping.TokenSum | python/instrumentation/openinference-instrumentation-smolagents/src/openinference/instrumentation/smolagents/_wrappers.py:340-342 | Python's `+` on the token counts, as the model and run wrappers add them: a `None` count always fails, every failure is a `TypeError`, and a sum has its operands' type (`bool` promoted to `int`) |
| ModelWrapper.AfterReturn | python/instrumentation/openinference-instrumentation-smolagents/src/openinference/instrumentation/smolagents/_wrappers.py:337-348 | after the model returns, the caller gets its output iff Python can add the token counts and the output has `model_dump_json`; counts `+` rejects raise its `TypeError` |
| ModelWrapper.Model | python/instrumentation/openinference-instrumentation-smolagents/src/openinference/instrumentation/smolagents/_wrappers.py:300-348 | suppressed: direct call; a keyword named `method`: `_bind_arguments`'s multiple-values `TypeError` before any span, model not called; any other arguments that do not bind: `TypeError` before any span, model not called; otherwise the model is called once, the span starts with the merged start attributes, and the caller never gets a value the model did not return |
| ModelProperties.ModelLifecycle | python/instrumentation/openinference-instrumentation-smolagents/src/openinference/instrumentation/smolagents/_wrappers.py:319-343 | one span; on an `Exception`, ERROR with `str(exception)` and never OK; on another `BaseException`, no status and nothing recorded; on return with summable counts, OK |
| ModelProperties.ModelOkYetRaises | python/instrumentation/openinference-instrumentation-smolagents/src/openinference/instrumentation/smolagents/_wrappers.py:343-347 | an output without `model_dump_json` leaves an OK span yet raises `AttributeError` to the caller |
| ModelProperties.ModelUnbound | python/instrumentation/openinference-instrumentation-smolagents/src/openinference/instrumentation/smolagents/_wrappers.py:314-337 | with no instance, the call runs and then reading the token count raises `AttributeError`; the span has no status |
| ModelProperties.ModelTokensUnsummable | python/instrumentation/openinference-instrumentation-smolagents/src/openinference/instrumentation/smolagents/_wrappers.py:340-342 | a token count still `None` makes the total raise `TypeError`, leaving the span with no status |
| ModelProperties.ModelTokenCounts | python/instrumentation/openinference-instrumentation-smolagents/src/openinference/instrumentation/smolagents/_wrappers.py:337-342 | with `int` or `bool` counts, the prompt and completion counts are the model's, and the total is their integer sum, even when the context set those keys at the start |
| ModelProperties.ModelOutputIsJson | python/instrumentation/openinference-instrumentation-smolagents/src/openinference/instrumentation/smolagents/_wrappers.py:344-347 | the output value ends up as the output's JSON dump with mime type JSON, replacing the raw output |
| ModelProperties.OutputJsonKeys | python/instrumentation/openinference-instrumentation-smolagents/src/openinference/instrumentation/smolagents/_wrappers.py:268-270 | the output attributes are exactly the mime type JSON and the dump |
| ModelProperties.StartContextWins | python/instrumentation/openinference-instrumentation-smolagents/src/openinference/instrumentation/smolagents/_wrappers.py:319-327 | a context attribute overrides every other start attribute of the same key |
| ModelProperties.StartOwnAttributes | python/instrumentation/openinference-instrumentation-smolagents/src/openinference/instrumentation/smolagents/_wrappers.py:319-327 | unless the context overrides them, the span starts with kind LLM, the JSON input value and mime type, and the invocation parameters |
| ModelProperties.MessagesAvoidStartKeys | python/instrumentation/openinference-instrumentation-smolagents/src/openinference/instrumentation/smolagents/_wrappers.py:321-325 | the input messages never override the kind, input or invocation-parameter keys |
| ToolWrapper.Described | python/instrumentation/openinference-instrumentation-smolagents/src/openinference/instrumentation/smolagents/_wrappers.py:385-386 | the tool's name and argument JSON are recorded before it runs, iff its class has a `name`; otherwise `AttributeError` and nothing recorded |
| ToolWrapper.ToolCall | python/instrumentation/openinference-instrumentation-smolagents/src/openinference/instrumentation/smolagents/_wrappers.py:351-396 | suppressed: direct call; a keyword named `method`: `_get_input_value`'s multiple-values `TypeError` before any span, tool not run; any other arguments that do not bind: raised before any span; otherwise the span starts with kind TOOL and the input JSON, and the tool runs iff its class has a `name`, passing its outcome through unchanged |
| ToolProperties.ToolLifecycle | python/instrumentation/openinference-instrumentation-smolagents/src/openinference/instrumentation/smolagents/_wrappers.py:364-395 | one span; a nameless tool never runs and leaves no status; a named one that raises an `Exception` gets ERROR and never OK; one that raises another `BaseException` gets no status and nothing recorded; one that returns gets OK |
| ToolProperties.ToolCallRecorded | python/instrumentation/openinference-instrumentation-smolagents/src/openinference/instrumentation/smolagents/_wrappers.py:385-386 | a named tool's span records its name and the JSON of the keyword arguments, whether or not it raises |
| ToolProperties.ToolOutput | python/instrumentation/openinference-instrumentation-smolagents/src/openinference/instrumentation/smolagents/_wrappers.py:393-395 | the response becomes the output value, and every context attribute with a value overrides it |

## Left out

- The OpenTelemetry tracer, span and context objects. A span is its event log. Suppression and the context attributes are inputs.
- `safe_json_dumps`, `json.dumps` and `str` are total functions supplied as inputs. The `SafeJSONEncoder` fallback chain (lines 21-32) is not modelled. Neither is `json.dumps` raising on a value it cannot encode, so `additional_args`, the tool arguments and the managed-agent list always serialise.
- OpenTelemetry's validation of attribute values is modelled only as dropping `None`. Its dropping of every other value that is not a str, bool, int, float or a homogeneous list of those is not modelled: a dict, a mixed list, an enum member, or an arbitrary object such as the raw message the model wrapper writes as `output.value` (line 344) or a step result written as the final answer (line 206). The model records such a value as written.
- Wrapping.TokenSum: Python's `+` is modelled for `None`, `bool`, `int`, `str` and `list` operands. An enum member or another object is treated as not addable, because a class's own `__add__` and `__radd__` are not modelled; its error message names the type `Enum` or `object`, not the class.
- `Enum` members carry a scalar value. Enum mixins and nested enum values are not modelled.
- `inspect.signature` is modelled only for positional-or-keyword parameters with optional defaults plus a `**kwargs` named `kwargs`. Positional-only and keyword-only parameters, `*args`, a `**kwargs` under another name, and an ordinary parameter named `kwargs` are out of scope.
- InputProperties.InputArgumentsSucceedsIff and InputProperties.InputArgumentsContents assume no ordinary parameter is named `kwargs`. `Binding.InputArguments` itself still models that case: a non-dict value there raises `TypeError`.
- Instance truthiness: the wrappers test `if instance:`, and the model takes an instance that is present or `None`. A present but falsy instance is not modelled.
- Attribute reads that can fail but are given as plain fields: `agent.step_number`, `agent.task`, `agent.tools`, `agent.monitor` and `model.model_id`. `model.model_id` can raise `AttributeError` in the source; the model does not.
- The smolagents calls `get_json_schema`, `isinstance(tool, Tool)` and `model_dump_json` are inputs: a schema function, a predicate, and an optional string.
- The `managed_agents` attribute is the JSON of the list of managed-agent summaries, through the uninterpreted serialiser. The model states that list, not the JSON text.
- The constants `LLM_PROMPTS`, `TEXT` and the message function-call and tool-call constants are imported but never written. They have no model.
- The semantic-convention names (`semconv.dfy`) are the published OpenInference values. `openinference.semconv.trace` is not part of this model.
- RunProperties.RunLifecycle, StepProperties.StepLifecycle, ModelProperties.ModelLifecycle and ToolProperties.ToolLifecycle say nothing about what the caller gets. That is stated by `Run`, `Step`, `Model` and `ToolCall` themselves.

## Findings

| source | as written | input that shows it | evidently intended | confidence | as-written member | corrected member |
|---|---|---|---|---|---|---|
| python/instrumentation/openinference-instrumentation-smolagents/src/openinference/instrumentation/smolagents/_wrappers.py:148-151 | the conditional expression binds looser than `+`, so the `model` string is `""` when the managed agent's model has no `model_id` | a managed agent whose model is a `TransformersModel` without `model_id` | `TransformersModel`, as the run span's own `model` attribute at lines 134-136 describes it | high; not executed | RunWrapper.ManagedSummaryAsWritten, RunProperties.RunManagedAgents, RunProperties.AsWrittenDropsModelType, RunProperties.AsWrittenExample | RunWrapper.ManagedSummary, RunProperties.CorrectedExample, RunProperties.SummaryMatchesOwnRun |
| python/instrumentation/openinference-instrumentation-smolagents/src/openinference/instrumentation/smolagents/_wrappers.py:153 | `tools_names` lists `agent.tools`, the tools of the agent being run, in every managed agent's summary | an agent with tool `web_search` managing an agent with tool `python` | the managed agent's own tools, `["python"]` | medium; not executed | RunWrapper.ManagedSummaryAsWritten, RunProperties.RunManagedAgents, RunProperties.AsWrittenListsParentTools, RunProperties.AsWrittenExample | RunWrapper.ManagedSummary, RunProperties.CorrectedExample, RunProperties.SummaryMatchesOwnRun |
| python/instrumentation/openinference-instrumentation-smolagents/src/openinference/instrumentation/smolagents/_wrappers.py:54-58 | `_get_input_value` and `_bind_arguments` (line 228) take the wrapped callable as a parameter named `method`, so a keyword argument `method` meant for the wrapped function collides with it and the helper raises `TypeError` | a tool `http(method)` called as `http(method="GET")`, which `Signature.bind` accepts | the same input value and binding as for `http("GET")`, as the docstring at lines 55-58 promises for positional and keyword arguments | high; not executed | Binding.InputArguments, Binding.BindArguments, InputProperties.MethodKeywordRejected, InputProperties.InputArgumentsSucceedsIff, InputProperties.BindArgumentsSucceedsIff | Binding.InputDictionary, Binding.BindWithDefaults, BindingProperties.InputKeywordsInAnyOrder, BindingProperties.KeywordsInAnyOrder |

`RunWrapper.Run` records the summaries as the source builds them, as `RunProperties.RunManagedAgents` states. `RunWrapper.ManagedSummary` is the corrected definition; `RunProperties.SummaryMatchesOwnRun` proves the intended property about it.
`RunProperties.CorrectedAgreesWhenDefectsAbsent` shows that the correction changes nothing when neither defect applies.
The wrappers call the helpers as the source does: `RunWrapper.Run`, `ModelWrapper.Model` and `ToolWrapper.ToolCall` raise the collision `TypeError` before any span, as their contracts state. `Binding.InputDictionary` and `Binding.BindWithDefaults` are what the helpers compute once entered, and they are invariant under the positional/keyword choice for every parameter name.

=== FILE: binding.dfy ===
/** Argument binding (`_bind_arguments`, `_get_input_value`).

    A signature is what the wrappers rely on from `inspect.signature`: an
    ordered list of positional-or-keyword parameters, each with an optional
    default, and optionally a `**kwargs` catch-all (named `kwargs`, the name
    both functions look up). Binding follows `Signature.bind`: positional
    arguments go to the parameters in order, keyword arguments to the
    parameters of the same name, the remaining keyword arguments into the
    `**kwargs` dictionary; each mismatch is a `TypeError`. */
module Binding {
  import opened Values
  import opened Results
  import opened Dicts

  datatype Param = Param(name: string, default: Option<Value>)

  datatype Signature = Signature(params: seq<Param>, varKeyword: bool)

  /** The receiver parameter `__call__` signatures start with. */
  const SelfName: string := "self"

  /** The name of the `**kwargs` parameter. */
  const VarKeywordName: string := "kwargs"

  /** The name under which `_bind_arguments` and `_get_input_value` take
      the wrapped callable, ahead of `*args` and `**kwargs`: a keyword
      argument of that name is a second value for it. */
  const HelperParameter: string := "method"

  /** The `TypeError`s raised while binding: by `Signature.bind`, or by
      the call of a helper that takes the wrapped callable as its own
      parameter `method` (`HelperCollision`). */
  datatype BindingError =
    | TooManyPositional
    | MultipleValues(name: string)
    | MissingArgument(name: string)
    | UnexpectedKeyword(name: string)
    | HelperCollision(helper: string)

  function ParamNames(params: seq<Param>): set<string> {
    set i | 0 <= i < |params| :: params[i].name
  }

  /** Python refuses a signature that repeats a parameter name, the
      `**kwargs` name included. */
  predicate WellFormed(sig: Signature) {
    && (forall i, j :: 0 <= i < j < |sig.params| ==> sig.params[i].name != sig.params[j].name)
    && (sig.varKeyword ==> VarKeywordName !in ParamNames(sig.params))
  }

  /** The entries binding `values` to the first `|values|` parameters. */
  function Named(params: seq<Param>, values: seq<Value>): (r: seq<Entry>)
    requires |values| <= |params|
    ensures |r| == |values|
  {
    seq(|values|, i requires 0 <= i < |values| => Entry(params[i].name, values[i]))
  }

  /** The positional half of `Signature.bind`: argument `i` goes to parameter
      `i`, and naming that parameter again as a keyword is an error. */
  function BindPositional(params: seq<Param>, args: seq<Value>, kwargs: seq<Entry>): (r: Result<seq<Entry>, BindingError>)
    ensures r.Success? <==>
              |args| <= |params| && forall i :: 0 <= i < |args| ==> params[i].name !in Keys(kwargs)
    ensures r.Success? ==> r.value == Named(params, args)
    decreases |args|
  {
    if args == [] then Success([])
    else if params == [] then Failure(TooManyPositional)
    else if params[0].name in Keys(kwargs) then Failure(MultipleValues(params[0].name))
    else
      match BindPositional(params[1..], args[1..], kwargs)
      case Failure(e) => Failure(e)
      case Success(rest) =>
        assert forall i :: 0 < i < |args| ==> params[1..][i - 1] == params[i];
        Success([Entry(params[0].name, args[0])] + rest)
  }

  /** The keyword half: each remaining parameter takes the keyword argument
      of its name, or keeps its default, or is missing. Returns the bound
      entries and the keyword arguments left over. */
  function BindKeywords(params: seq<Param>, kwargs: seq<Entry>): Result<(seq<Entry>, seq<Entry>), BindingError>
    decreases |params|
  {
    if params == [] then Success(([], kwargs))
    else
      var p := params[0];
      if p.name in Keys(kwargs) then
        match BindKeywords(params[1..], Remove(kwargs, p.name))
        case Failure(e) => Failure(e)
        case Success((named, leftover)) =>
          Success(([Entry(p.name, Lookup(kwargs, p.name).value)] + named, leftover))
      else if p.default.Some? then BindKeywords(params[1..], kwargs)
      else Failure(MissingArgument(p.name))
  }

  /** `signature.bind(*args, **kwargs).arguments`. */
  function Bind(sig: Signature, args: seq<Value>, kwargs: seq<Entry>): Result<seq<Entry>, BindingError> {
    match BindPositional(sig.params, args, kwargs)
    case Failure(e) => Failure(e)
    case Success(positional) =>
      match BindKeywords(sig.params[|args|..], kwargs)
      case Failure(e) => Failure(e)
      case Success((named, leftover)) =>
        if leftover == [] then Success(positional + named)
        else if sig.varKeyword then Success(positional + named + [Entry(VarKeywordName, VMap(leftover))])
        else Failure(UnexpectedKeyword(leftover[0].key))
  }

  function DefaultsApplied(params: seq<Param>, bound: seq<Entry>): seq<Entry> {
    if params == [] then []
    else
      var p := params[0];
      (if p.name in Keys(bound) then [Entry(p.name, Lookup(bound, p.name).value)]
       else if p.default.Some? then [Entry(p.name, p.default.value)]
       else [])
      + DefaultsApplied(params[1..], bound)
  }

  /** `BoundArguments.apply_defaults`: every parameter in declaration order,
      with its bound value or its default, and `kwargs` as `{}` when nothing
      went into it. */
  function ApplyDefaults(sig: Signature, bound: seq<Entry>): seq<Entry> {
    DefaultsApplied(sig.params, bound)
    + (if sig.varKeyword then [Entry(VarKeywordName, Get(bound, VarKeywordName, VMap([])))] else [])
  }

  /** `signature.bind(*args, **kwargs)` then `apply_defaults()`. */
  function BindWithDefaults(sig: Signature, args: seq<Value>, kwargs: seq<Entry>): Result<seq<Entry>, BindingError> {
    match Bind(sig, args, kwargs)
    case Failure(e) => Failure(e)
    case Success(bound) => Success(ApplyDefaults(sig, bound))
  }

  /** `_bind_arguments(method, *args, **kwargs)`: a keyword argument named
      `method` makes the call of the helper itself raise; otherwise bind,
      then apply the defaults. No receiver placeholder is passed. */
  function BindArguments(sig: Signature, args: seq<Value>, kwargs: seq<Entry>): Result<seq<Entry>, BindingError> {
    if HelperParameter in Keys(kwargs) then Failure(HelperCollision("_bind_arguments"))
    else BindWithDefaults(sig, args, kwargs)
  }

  /** Why `_get_input_value` can raise: the binding failed, or the value
      found under `kwargs` cannot be unpacked with `**`. */
  datatype InputError = BindFailed(error: BindingError) | NotAMapping(value: Value)

  predicate HasReceiver(sig: Signature) {
    |sig.params| > 0 && sig.params[0].name == SelfName
  }

  /** The `None` passed for a leading `self` parameter. */
  function Placeholder(sig: Signature): seq<Value> {
    if HasReceiver(sig) then [VNone] else []
  }

  /** The parameters a caller supplies, the receiver left out. */
  function Declared(sig: Signature): seq<Param> {
    if HasReceiver(sig) then sig.params[1..] else sig.params
  }

  /** The dictionary `_get_input_value` serialises: the bound arguments
      without `self` and `kwargs`, then the entries of the `kwargs`
      dictionary merged in at the top level. */
  function InputDictionary(sig: Signature, args: seq<Value>, kwargs: seq<Entry>): Result<seq<Entry>, InputError> {
    match Bind(sig, Placeholder(sig) + args, kwargs)
    case Failure(e) => Failure(BindFailed(e))
    case Success(bound) =>
      match Get(bound, VarKeywordName, VMap([]))
      case VMap(extra) => Success(Update(Without(bound, {SelfName, VarKeywordName}), extra))
      case other => Failure(NotAMapping(other))
  }

  /** `_get_input_value(method, *args, **kwargs)` up to the serialisation:
      a keyword argument named `method` makes the call of the helper itself
      raise; otherwise the dictionary above. */
  function InputArguments(sig: Signature, args: seq<Value>, kwargs: seq<Entry>): Result<seq<Entry>, InputError> {
    if HelperParameter in Keys(kwargs) then Failure(BindFailed(HelperCollision("_get_input_value")))
    else InputDictionary(sig, args, kwargs)
  }

  /** `_get_input_value`: the input dictionary through `safe_json_dumps`. */
  function GetInputValue(dumps: Value -> string, sig: Signature, args: seq<Value>, kwargs: seq<Entry>): Result<string, InputError> {
    match InputArguments(sig, args, kwargs)
    case Failure(e) => Failure(e)
    case Success(d) => Success(dumps(VMap(d)))
  }
}

=== FILE: binding_properties.dfy ===
/** What binding promises: when it succeeds and with what, which error it
    raises, and that the bound arguments do not depend on whether a parameter
    was passed positionally or by keyword. */
module BindingProperties {
  import opened Values
  import opened Results
  import opened Dicts
  import opened Binding

  predicate DistinctNames(params: seq<Param>) {
    forall i, j :: 0 <= i < j < |params| ==> params[i].name != params[j].name
  }

  /** The keyword arguments no parameter takes: what `**kwargs` receives. */
  function Leftover(sig: Signature, kwargs: seq<Entry>): seq<Entry> {
    Without(kwargs, ParamNames(sig.params))
  }

  /** When `Signature.bind` accepts a call, stated without its algorithm:
      no more positional arguments than parameters, no parameter given both
      positionally and by keyword, every other parameter given by keyword or
      defaulted, and no unknown keyword unless there is a `**kwargs`. */
  predicate Accepts(sig: Signature, args: seq<Value>, kwargs: seq<Entry>) {
    && |args| <= |sig.params|
    && (forall i :: 0 <= i < |args| ==> sig.params[i].name !in Keys(kwargs))
    && (forall i :: |args| <= i < |sig.params| ==>
          sig.params[i].name in Keys(kwargs) || sig.params[i].default.Some?)
    && (sig.varKeyword || Keys(kwargs) <= ParamNames(sig.params))
  }

  /** Each error names a genuine mismatch between the call and the signature. */
  predicate Justified(sig: Signature, args: seq<Value>, kwargs: seq<Entry>, e: BindingError) {
    match e
    case TooManyPositional => |args| > |sig.params|
    case MultipleValues(n) =>
      exists i :: 0 <= i < |args| && i < |sig.params| && sig.params[i].name == n && n in Keys(kwargs)
    case MissingArgument(n) =>
      exists i :: |args| <= i < |sig.params| && sig.params[i].name == n
                  && n !in Keys(kwargs) && sig.params[i].default.None?
    case UnexpectedKeyword(n) =>
      !sig.varKeyword && n in Keys(kwargs) && n !in ParamNames(sig.params)
    case HelperCollision(_) => HelperParameter in Keys(kwargs)
  }

  lemma ParamNamesTail(params: seq<Param>)
    requires params != []
    ensures ParamNames(params) == ParamNames(params[1..]) + {params[0].name}
  {
    forall n | n in ParamNames(params)
      ensures n in ParamNames(params[1..]) + {params[0].name}
    {
      var i :| 0 <= i < |params| && params[i].name == n;
      if i > 0 {
        assert params[1..][i - 1] == params[i];
      }
    }
    forall n | n in ParamNames(params[1..])
      ensures n in ParamNames(params)
    {
      var i :| 0 <= i < |params[1..]| && params[1..][i].name == n;
      assert params[i + 1] == params[1..][i];
    }
  }

  lemma DistinctTail(params: seq<Param>)
    requires params != []
    requires DistinctNames(params)
    ensures DistinctNames(params[1..])
    ensures params[0].name !in ParamNames(params[1..])
    ensures ParamNames(params) == ParamNames(params[1..]) + {params[0].name}
  {
    assert forall i :: 0 < i < |params| ==> params[i] == params[1..][i - 1];
    ParamNamesTail(params);
  }

  lemma DistinctSuffix(params: seq<Param>, n: nat)
    requires n <= |params|
    requires DistinctNames(params)
    ensures DistinctNames(params[n..])
  {
    assert forall i :: 0 <= i < |params| - n ==> params[n..][i] == params[n + i];
  }

  /** The keyword half succeeds iff every parameter is named or defaulted. */
  lemma {:induction false} BindKeywordsSucceedsIff(params: seq<Param>, kwargs: seq<Entry>)
    requires DistinctNames(params)
    ensures BindKeywords(params, kwargs).Success?
        <==> forall i :: 0 <= i < |params| ==> params[i].name in Keys(kwargs) || params[i].default.Some?
    decreases |params|
  {
    if params != [] {
      var p := params[0];
      var tail := params[1..];
      DistinctTail(params);
      assert forall i :: 0 < i < |params| ==> params[i] == tail[i - 1];
      if p.name in Keys(kwargs) {
        BindKeywordsSucceedsIff(tail, Remove(kwargs, p.name));
      } else {
        BindKeywordsSucceedsIff(tail, kwargs);
      }
    }
  }

  /** Its error is the first parameter that is neither named nor defaulted. */
  lemma {:induction false} BindKeywordsMissing(params: seq<Param>, kwargs: seq<Entry>)
    requires DistinctNames(params)
    ensures BindKeywords(params, kwargs).Failure? ==>
              exists i :: 0 <= i < |params| && BindKeywords(params, kwargs).error == MissingArgument(params[i].name)
                          && params[i].name !in Keys(kwargs) && params[i].default.None?
    decreases |params|
  {
    if params != [] {
      var p := params[0];
      var tail := params[1..];
      DistinctTail(params);
      if p.name in Keys(kwargs) {
        BindKeywordsMissing(tail, Remove(kwargs, p.name));
        if BindKeywords(params, kwargs).Failure? {
          var i :| 0 <= i < |tail| && BindKeywords(tail, Remove(kwargs, p.name)).error == MissingArgument(tail[i].name)
                   && tail[i].name !in Keys(Remove(kwargs, p.name)) && tail[i].default.None?;
          assert tail[i] == params[i + 1];
          assert tail[i].name != p.name;
        }
      } else if p.default.Some? {
        BindKeywordsMissing(tail, kwargs);
        if BindKeywords(params, kwargs).Failure? {
          var i :| 0 <= i < |tail| && BindKeywords(tail, kwargs).error == MissingArgument(tail[i].name)
                   && tail[i].name !in Keys(kwargs) && tail[i].default.None?;
          assert tail[i] == params[i + 1];
        }
      }
    }
  }

  /** What is left over is every keyword argument no parameter is named after. */
  lemma {:induction false} BindKeywordsLeftover(params: seq<Param>, kwargs: seq<Entry>)
    requires DistinctNames(params)
    requires BindKeywords(params, kwargs).Success?
    ensures BindKeywords(params, kwargs).value.1 == Without(kwargs, ParamNames(params))
    decreases |params|
  {
    if params == [] {
      assert ParamNames(params) == {};
      WithoutNothing(kwargs);
      return;
    }
    var p := params[0];
    var tail := params[1..];
    DistinctTail(params);
    var names := ParamNames(tail) + {p.name};
    assert ParamNames(params) == names;
    if p.name in Keys(kwargs) {
      var kw := Remove(kwargs, p.name);
      BindKeywordsLeftover(tail, kw);
      WithoutRemove(kwargs, p.name, ParamNames(tail));
      calc {
        BindKeywords(params, kwargs).value.1;
        BindKeywords(tail, kw).value.1;
        Without(kw, ParamNames(tail));
        Without(kwargs, names);
      }
    } else {
      assert p.default.Some?;
      BindKeywordsLeftover(tail, kwargs);
      WithoutAbsent(kwargs, ParamNames(tail), {p.name});
      calc {
        BindKeywords(params, kwargs).value.1;
        BindKeywords(tail, kwargs).value.1;
        Without(kwargs, ParamNames(tail));
        Without(kwargs, names);
      }
    }
  }

  /** Each parameter is bound to the keyword argument of its name, if any,
      and nothing else is bound. */
  lemma {:induction false} BindKeywordsValues(params: seq<Param>, kwargs: seq<Entry>)
    requires DistinctNames(params)
    requires BindKeywords(params, kwargs).Success?
    ensures Keys(BindKeywords(params, kwargs).value.0) <= ParamNames(params)
    ensures forall i :: 0 <= i < |params| ==>
              Lookup(BindKeywords(params, kwargs).value.0, params[i].name) == Lookup(kwargs, params[i].name)
    decreases |params|
  {
    if params == [] {
      return;
    }
    var p := params[0];
    var tail := params[1..];
    DistinctTail(params);
    assert forall i :: 0 < i < |params| ==> params[i] == tail[i - 1];
    if p.name in Keys(kwargs) {
      var kw := Remove(kwargs, p.name);
      BindKeywordsValues(tail, kw);
      var named := BindKeywords(tail, kw).value.0;
      var e := Entry(p.name, Lookup(kwargs, p.name).value);
      assert BindKeywords(params, kwargs).value.0 == [e] + named;
      KeysAppend([e], named);
      forall i | 0 <= i < |params|
        ensures Lookup([e] + named, params[i].name) == Lookup(kwargs, params[i].name)
      {
        LookupAppend([e], named, params[i].name);
      }
    } else {
      BindKeywordsValues(tail, kwargs);
      forall i | 0 <= i < |params|
        ensures Lookup(BindKeywords(params, kwargs).value.0, params[i].name) == Lookup(kwargs, params[i].name)
      {
        if i == 0 {
          assert p.name !in Keys(BindKeywords(tail, kwargs).value.0);
        }
      }
    }
  }

  lemma ParamNamesSplit(params: seq<Param>, n: nat)
    requires n <= |params|
    ensures ParamNames(params) == ParamNames(params[..n]) + ParamNames(params[n..])
  {
    forall x | x in ParamNames(params)
      ensures x in ParamNames(params[..n]) + ParamNames(params[n..])
    {
      var i :| 0 <= i < |params| && params[i].name == x;
      if i < n {
        assert params[..n][i] == params[i];
      } else {
        assert params[n..][i - n] == params[i];
      }
    }
    forall x | x in ParamNames(params[..n]) + ParamNames(params[n..])
      ensures x in ParamNames(params)
    {
      if x in ParamNames(params[..n]) {
        var i :| 0 <= i < n && params[..n][i].name == x;
        assert params[..n][i] == params[i];
      } else {
        var i :| 0 <= i < |params| - n && params[n..][i].name == x;
        assert params[n..][i] == params[n + i];
      }
    }
  }

  /** Once the positional arguments are bound, the keyword half sees the
      remaining parameters, and what it leaves over is `Leftover`. */
  lemma AfterPositional(sig: Signature, args: seq<Value>, kwargs: seq<Entry>)
    requires WellFormed(sig)
    requires BindPositional(sig.params, args, kwargs).Success?
    ensures |args| <= |sig.params|
    ensures DistinctNames(sig.params[|args|..])
    ensures BindKeywords(sig.params[|args|..], kwargs).Success? ==>
              BindKeywords(sig.params[|args|..], kwargs).value.1 == Leftover(sig, kwargs)
  {
    var n := |args|;
    var suffix := sig.params[n..];
    DistinctNames1(sig);
    DistinctSuffix(sig.params, n);
    PositionalNotKeywords(sig.params, args, kwargs);
    if BindKeywords(suffix, kwargs).Success? {
      SuffixLeftover(sig, n, kwargs);
    }
  }

  /** A positional binding that succeeded: no keyword names a parameter
      it filled. */
  lemma PositionalNotKeywords(params: seq<Param>, args: seq<Value>, kwargs: seq<Entry>)
    requires BindPositional(params, args, kwargs).Success?
    ensures Keys(kwargs) !! ParamNames(params[..|args|])
  {
    var n := |args|;
    forall x | x in ParamNames(params[..n])
      ensures x !in Keys(kwargs)
    {
      var i :| 0 <= i < n && params[..n][i].name == x;
      assert params[..n][i] == params[i];
    }
  }

  lemma SuffixLeftover(sig: Signature, n: nat, kwargs: seq<Entry>)
    requires n <= |sig.params|
    requires DistinctNames(sig.params[n..])
    requires Keys(kwargs) !! ParamNames(sig.params[..n])
    requires BindKeywords(sig.params[n..], kwargs).Success?
    ensures BindKeywords(sig.params[n..], kwargs).value.1 == Leftover(sig, kwargs)
  {
    var suffix := sig.params[n..];
    ParamNamesSplit(sig.params, n);
    BindKeywordsLeftover(suffix, kwargs);
    WithoutAbsent(kwargs, ParamNames(suffix), ParamNames(sig.params[..n]));
    assert ParamNames(suffix) + ParamNames(sig.params[..n]) == ParamNames(sig.params);
  }

  lemma LeftoverEmptyIff(sig: Signature, kwargs: seq<Entry>)
    ensures Leftover(sig, kwargs) == [] <==> Keys(kwargs) <= ParamNames(sig.params)
  {
    KeysEmpty(Leftover(sig, kwargs));
  }

  /** `Signature.bind` accepts exactly the calls `Accepts` describes. */
  lemma BindSucceedsIff(sig: Signature, args: seq<Value>, kwargs: seq<Entry>)
    requires WellFormed(sig)
    ensures Bind(sig, args, kwargs).Success? <==> Accepts(sig, args, kwargs)
  {
    if BindPositional(sig.params, args, kwargs).Success? {
      var n := |args|;
      AfterPositional(sig, args, kwargs);
      var suffix := sig.params[n..];
      BindKeywordsSucceedsIff(suffix, kwargs);
      assert (forall i :: 0 <= i < |suffix| ==> suffix[i].name in Keys(kwargs) || suffix[i].default.Some?)
         <==> (forall i :: n <= i < |sig.params| ==> sig.params[i].name in Keys(kwargs) || sig.params[i].default.Some?) by {
        assert forall i :: 0 <= i < |suffix| ==> suffix[i] == sig.params[n + i];
        assert forall i :: n <= i < |sig.params| ==> sig.params[i] == suffix[i - n];
      }
      LeftoverEmptyIff(sig, kwargs);
    }
  }

  /** Every error `Signature.bind` raises names a real mismatch. */
  lemma BindErrorJustified(sig: Signature, args: seq<Value>, kwargs: seq<Entry>)
    requires WellFormed(sig)
    requires Bind(sig, args, kwargs).Failure?
    ensures Justified(sig, args, kwargs, Bind(sig, args, kwargs).error)
  {
    var e := Bind(sig, args, kwargs).error;
    var positional := BindPositional(sig.params, args, kwargs);
    if positional.Failure? {
      PositionalErrorJustified(sig.params, args, kwargs);
    } else {
      var n := |args|;
      AfterPositional(sig, args, kwargs);
      var suffix := sig.params[n..];
      var keywords := BindKeywords(suffix, kwargs);
      if keywords.Failure? {
        BindKeywordsMissing(suffix, kwargs);
        var i :| 0 <= i < |suffix| && keywords.error == MissingArgument(suffix[i].name)
                 && suffix[i].name !in Keys(kwargs) && suffix[i].default.None?;
        assert suffix[i] == sig.params[n + i];
      } else {
        var leftover := keywords.value.1;
        assert leftover == Without(kwargs, ParamNames(sig.params));
        assert e == UnexpectedKeyword(leftover[0].key);
        KeysIndex(leftover, leftover[0].key);
      }
    }
  }

  lemma {:induction false} PositionalErrorJustified(params: seq<Param>, args: seq<Value>, kwargs: seq<Entry>)
    requires BindPositional(params, args, kwargs).Failure?
    ensures var e := BindPositional(params, args, kwargs).error;
      || (e == TooManyPositional && |args| > |params|)
      || (exists i :: 0 <= i < |args| && i < |params| && e == MultipleValues(params[i].name) && params[i].name in Keys(kwargs))
    decreases |args|
  {
    if args != [] && params != [] && params[0].name !in Keys(kwargs) {
      PositionalErrorJustified(params[1..], args[1..], kwargs);
      var e := BindPositional(params[1..], args[1..], kwargs).error;
      if e != TooManyPositional {
        var i :| 0 <= i < |args[1..]| && i < |params[1..]| && e == MultipleValues(params[1..][i].name) && params[1..][i].name in Keys(kwargs);
        assert params[1..][i] == params[i + 1];
      }
    }
  }

  lemma KeysNamed(params: seq<Param>, values: seq<Value>)
    requires |values| <= |params|
    ensures Keys(Named(params, values)) == ParamNames(params[..|values|])
  {
    var d := Named(params, values);
    forall x
      ensures x in Keys(d) <==> x in ParamNames(params[..|values|])
    {
      KeysIndex(d, x);
      if x in ParamNames(params[..|values|]) {
        var i :| 0 <= i < |values| && params[..|values|][i].name == x;
        assert d[i].key == x;
      }
      if x in Keys(d) {
        var i :| 0 <= i < |d| && d[i].key == x;
        assert params[..|values|][i] == params[i];
      }
    }
  }

  /** Positional argument `i` is what `Named` binds to parameter `i`. */
  lemma LookupNamed(params: seq<Param>, values: seq<Value>, i: nat)
    requires |values| <= |params|
    requires DistinctNames(params)
    requires i < |values|
    ensures Lookup(Named(params, values), params[i].name) == Some(values[i])
  {
    var d := Named(params, values);
    UniqueKeysIndex(d);
    LookupIndex(d, i);
  }

  /** The bound dictionary before `**kwargs` is added: the positional
      entries then the keyword entries. */
  lemma BoundParts(sig: Signature, args: seq<Value>, kwargs: seq<Entry>)
    requires WellFormed(sig)
    requires Bind(sig, args, kwargs).Success?
    ensures |args| <= |sig.params|
    ensures BindKeywords(sig.params[|args|..], kwargs).Success?
    ensures var named := BindKeywords(sig.params[|args|..], kwargs).value.0;
            var leftover := BindKeywords(sig.params[|args|..], kwargs).value.1;
      && leftover == Leftover(sig, kwargs)
      && Bind(sig, args, kwargs).value
         == Named(sig.params, args) + named
            + (if leftover == [] then [] else [Entry(VarKeywordName, VMap(leftover))])
      && Keys(Named(sig.params, args)) == ParamNames(sig.params[..|args|])
      && Keys(named) <= ParamNames(sig.params[|args|..])
      && (forall i :: |args| <= i < |sig.params| ==>
            Lookup(named, sig.params[i].name) == Lookup(kwargs, sig.params[i].name))
  {
    AfterPositional(sig, args, kwargs);
    var suffix := sig.params[|args|..];
    BindKeywordsValues(suffix, kwargs);
    KeysNamed(sig.params, args);
    forall i | |args| <= i < |sig.params|
      ensures Lookup(BindKeywords(suffix, kwargs).value.0, sig.params[i].name) == Lookup(kwargs, sig.params[i].name)
    {
      assert suffix[i - |args|] == sig.params[i];
    }
  }

  lemma BindLookupParam(sig: Signature, args: seq<Value>, kwargs: seq<Entry>, i: nat)
    requires WellFormed(sig)
    requires Bind(sig, args, kwargs).Success?
    requires i < |sig.params|
    ensures Lookup(Bind(sig, args, kwargs).value, sig.params[i].name)
         == if i < |args| then Some(args[i]) else Lookup(kwargs, sig.params[i].name)
  {
    BoundParts(sig, args, kwargs);
    DistinctNames1(sig);
    var named := BindKeywords(sig.params[|args|..], kwargs).value.0;
    var leftover := BindKeywords(sig.params[|args|..], kwargs).value.1;
    var tail := if leftover == [] then [] else [Entry(VarKeywordName, VMap(leftover))];
    assert sig.params[i].name in ParamNames(sig.params);
    assert tail != [] ==> sig.varKeyword;
    LookupBound(sig.params, args, named, tail, kwargs, i);
  }

  /** A parameter's entry in positional entries, keyword entries and a
      tail that does not name it. */
  lemma LookupBound(ps: seq<Param>, args: seq<Value>, named: seq<Entry>, tail: seq<Entry>, kwargs: seq<Entry>, i: nat)
    requires DistinctNames(ps) && |args| <= |ps| && i < |ps|
    requires Keys(named) <= ParamNames(ps[|args|..])
    requires ps[i].name !in Keys(tail)
    requires |args| <= i ==> Lookup(named, ps[i].name) == Lookup(kwargs, ps[i].name)
    ensures Lookup(Named(ps, args) + named + tail, ps[i].name)
         == if i < |args| then Some(args[i]) else Lookup(kwargs, ps[i].name)
  {
    var n := |args|;
    var x := ps[i].name;
    var positional := Named(ps, args);
    KeysNamed(ps, args);
    LookupAppend(positional + named, tail, x);
    LookupAppend(positional, named, x);
    if i < n {
      LookupNamed(ps, args, i);
    }
  }

  lemma BindLookupVarKeyword(sig: Signature, args: seq<Value>, kwargs: seq<Entry>)
    requires WellFormed(sig)
    requires Bind(sig, args, kwargs).Success?
    requires sig.varKeyword
    ensures Lookup(Bind(sig, args, kwargs).value, VarKeywordName)
         == if Leftover(sig, kwargs) == [] then None else Some(VMap(Leftover(sig, kwargs)))
    ensures Keys(Bind(sig, args, kwargs).value) <= ParamNames(sig.params) + {VarKeywordName}
  {
    BoundParts(sig, args, kwargs);
    var n := |args|;
    var positional := Named(sig.params, args);
    var named := BindKeywords(sig.params[n..], kwargs).value.0;
    var leftover := Leftover(sig, kwargs);
    ParamNamesSplit(sig.params, n);
    var tail := if leftover == [] then [] else [Entry(VarKeywordName, VMap(leftover))];
    assert Bind(sig, args, kwargs).value == (positional + named) + tail;
    LookupAppend(positional + named, tail, VarKeywordName);
    KeysAppend(positional, named);
    KeysAppend(positional + named, tail);
  }

  /** What `Signature.bind` binds: each parameter the value given for it
      (positionally or by keyword), nothing for a parameter left to its
      default, and the leftover keyword arguments under `kwargs`. */
  lemma BindValues(sig: Signature, args: seq<Value>, kwargs: seq<Entry>)
    requires WellFormed(sig)
    requires Bind(sig, args, kwargs).Success?
    ensures var r := Bind(sig, args, kwargs).value;
      && (forall i :: 0 <= i < |sig.params| ==>
            Lookup(r, sig.params[i].name) == if i < |args| then Some(args[i]) else Lookup(kwargs, sig.params[i].name))
      && (sig.varKeyword ==>
            Lookup(r, VarKeywordName) == if Leftover(sig, kwargs) == [] then None else Some(VMap(Leftover(sig, kwargs))))
      && Keys(r) <= ParamNames(sig.params) + {VarKeywordName}
  {
    forall i | 0 <= i < |sig.params|
      ensures Lookup(Bind(sig, args, kwargs).value, sig.params[i].name)
           == if i < |args| then Some(args[i]) else Lookup(kwargs, sig.params[i].name)
    {
      BindLookupParam(sig, args, kwargs, i);
    }
    BoundParts(sig, args, kwargs);
    ParamNamesSplit(sig.params, |args|);
    KeysAppend(Named(sig.params, args), BindKeywords(sig.params[|args|..], kwargs).value.0);
    if sig.varKeyword {
      BindLookupVarKeyword(sig, args, kwargs);
    }
  }

  /** The keyword-half result with `bound` put before its bound entries. */
  function Prepend(bound: seq<Entry>, r: Result<(seq<Entry>, seq<Entry>), BindingError>): Result<(seq<Entry>, seq<Entry>), BindingError> {
    match r
    case Failure(e) => Failure(e)
    case Success((named, leftover)) => Success((bound + named, leftover))
  }

  lemma PrependTwice(a: seq<Entry>, b: seq<Entry>, r: Result<(seq<Entry>, seq<Entry>), BindingError>)
    ensures Prepend(a, Prepend(b, r)) == Prepend(a + b, r)
  {
    match r
    case Failure(_) =>
    case Success((named, leftover)) =>
      assert a + (b + named) == (a + b) + named;
  }

  /** One step of the keyword half on a parameter given by keyword. */
  lemma KeywordsStep(ps: seq<Param>, kwargs: seq<Entry>)
    requires ps != []
    requires ps[0].name in Keys(kwargs)
    ensures BindKeywords(ps, kwargs)
         == Prepend([Entry(ps[0].name, Lookup(kwargs, ps[0].name).value)], BindKeywords(ps[1..], Remove(kwargs, ps[0].name)))
  {
  }

  lemma NamedHead(ps: seq<Param>, vals: seq<Value>)
    requires 0 < |vals| <= |ps|
    ensures Named(ps, vals) == [Entry(ps[0].name, vals[0])] + Named(ps[1..], vals[1..])
  {
  }

  lemma ParamNamesPrefix(ps: seq<Param>, n: nat)
    requires n <= |ps|
    ensures ParamNames(ps[..n]) <= ParamNames(ps)
  {
    ParamNamesSplit(ps, n);
  }

  /** The keyword half, when the first parameters are given by keyword in
      order: it binds them to those values and goes on with the rest. */
  lemma {:induction false} KeywordsOnNamed(ps: seq<Param>, vals: seq<Value>, extra: seq<Entry>)
    requires |vals| <= |ps|
    requires DistinctNames(ps)
    requires Keys(extra) !! ParamNames(ps)
    ensures BindKeywords(ps, Named(ps, vals) + extra) == Prepend(Named(ps, vals), BindKeywords(ps[|vals|..], extra))
    decreases |vals|
  {
    if vals == [] {
      assert Named(ps, vals) + extra == extra;
      assert ps[|vals|..] == ps;
      PrependNothing(BindKeywords(ps, extra));
    } else {
      var p := ps[0];
      var tail := ps[1..];
      DistinctTail(ps);
      var e := Entry(p.name, vals[0]);
      var rest := Named(tail, vals[1..]);
      NamedHead(ps, vals);
      var kw := Named(ps, vals) + extra;
      assert kw == [e] + (rest + extra);
      KeysNamed(tail, vals[1..]);
      ParamNamesPrefix(tail, |vals| - 1);
      KeysAppend([e], rest + extra);
      KeysAppend(rest, extra);
      LookupAppend([e], rest + extra, p.name);
      RemoveAppend([e], rest + extra, p.name);
      RemoveAppend(rest, extra, p.name);
      assert Remove([e], p.name) == [];
      assert Remove(kw, p.name) == rest + extra;
      KeywordsStep(ps, kw);
      KeywordsOnNamed(tail, vals[1..], extra);
      assert tail[|vals| - 1..] == ps[|vals|..];
      PrependTwice([e], rest, BindKeywords(ps[|vals|..], extra));
    }
  }

  lemma PrependNothing(r: Result<(seq<Entry>, seq<Entry>), BindingError>)
    ensures Prepend([], r) == r
  {
    match r
    case Failure(_) =>
    case Success((named, leftover)) =>
      assert [] + named == named;
  }

  /** The end of `Bind`: the positional entries, the keyword entries, and
      `**kwargs` when anything is left over. */
  function Finish(sig: Signature, positional: seq<Entry>, r: Result<(seq<Entry>, seq<Entry>), BindingError>): Result<seq<Entry>, BindingError> {
    match r
    case Failure(e) => Failure(e)
    case Success((named, leftover)) =>
      if leftover == [] then Success(positional + named)
      else if sig.varKeyword then Success(positional + named + [Entry(VarKeywordName, VMap(leftover))])
      else Failure(UnexpectedKeyword(leftover[0].key))
  }

  lemma FinishPrepend(sig: Signature, a: seq<Entry>, b: seq<Entry>, r: Result<(seq<Entry>, seq<Entry>), BindingError>)
    ensures Finish(sig, a, Prepend(b, r)) == Finish(sig, a + b, r)
  {
    match r
    case Failure(_) =>
    case Success((named, leftover)) =>
      assert a + (b + named) == (a + b) + named;
  }

  lemma BindIsFinish(sig: Signature, args: seq<Value>, kwargs: seq<Entry>)
    requires BindPositional(sig.params, args, kwargs).Success?
    ensures |args| <= |sig.params|
    ensures Bind(sig, args, kwargs)
         == Finish(sig, BindPositional(sig.params, args, kwargs).value, BindKeywords(sig.params[|args|..], kwargs))
  {
  }

  lemma NamedSplit(ps: seq<Param>, values: seq<Value>, n: nat)
    requires n <= |values| <= |ps|
    ensures Named(ps, values[..n]) + Named(ps[n..], values[n..]) == Named(ps, values)
  {
  }

  /** The positional halves of both bindings succeed. */
  lemma PositionalHalves(ps: seq<Param>, values: seq<Value>, n: nat, extra: seq<Entry>)
    requires DistinctNames(ps)
    requires n <= |values| <= |ps|
    requires Keys(extra) !! ParamNames(ps)
    ensures BindPositional(ps, values[..n], Named(ps[n..], values[n..]) + extra) == Success(Named(ps, values[..n]))
    ensures BindPositional(ps, values, extra) == Success(Named(ps, values))
  {
    PositionalFirstHalf(ps, values, n, extra);
    PositionalAll(ps, values, extra);
  }

  lemma PositionalAll(ps: seq<Param>, values: seq<Value>, extra: seq<Entry>)
    requires |values| <= |ps|
    requires Keys(extra) !! ParamNames(ps)
    ensures BindPositional(ps, values, extra) == Success(Named(ps, values))
  {
    forall i | 0 <= i < |values|
      ensures ps[i].name !in Keys(extra)
    {
      assert ps[i].name in ParamNames(ps);
    }
  }

  lemma PositionalFirstHalf(ps: seq<Param>, values: seq<Value>, n: nat, extra: seq<Entry>)
    requires DistinctNames(ps)
    requires n <= |values| <= |ps|
    requires Keys(extra) !! ParamNames(ps)
    ensures BindPositional(ps, values[..n], Named(ps[n..], values[n..]) + extra) == Success(Named(ps, values[..n]))
  {
    var m := |values|;
    var byName := Named(ps[n..], values[n..]);
    var kw := byName + extra;
    KeysNamed(ps[n..], values[n..]);
    KeysAppend(byName, extra);
    assert ps[n..][..m - n] == ps[n..m];
    assert forall j :: 0 <= j < m - n ==> ps[n..m][j] == ps[n + j];
    forall i | 0 <= i < n
      ensures ps[i].name !in Keys(kw)
    {
      assert ps[i].name in ParamNames(ps);
    }
  }

  /** The keyword halves: binding the later parameters by name first binds
      them, then goes on as the all-positional binding does. */
  lemma KeywordHalves(ps: seq<Param>, values: seq<Value>, n: nat, extra: seq<Entry>)
    requires DistinctNames(ps)
    requires n <= |values| <= |ps|
    requires Keys(extra) !! ParamNames(ps)
    ensures BindKeywords(ps[n..], Named(ps[n..], values[n..]) + extra)
         == Prepend(Named(ps[n..], values[n..]), BindKeywords(ps[|values|..], extra))
  {
    DistinctSuffix(ps, n);
    ParamNamesSplit(ps, n);
    KeywordsOnNamed(ps[n..], values[n..], extra);
    assert ps[n..][|values| - n..] == ps[|values|..];
  }

  /** Binding does not depend on how the arguments were passed: giving the
      parameters after the first `n` by keyword binds exactly what giving all
      of them positionally binds, extra keyword arguments included. */
  lemma PositionalKeywordInvariant(sig: Signature, values: seq<Value>, n: nat, extra: seq<Entry>)
    requires WellFormed(sig)
    requires n <= |values| <= |sig.params|
    requires Keys(extra) !! ParamNames(sig.params)
    ensures Bind(sig, values[..n], Named(sig.params[n..], values[n..]) + extra) == Bind(sig, values, extra)
    ensures BindWithDefaults(sig, values[..n], Named(sig.params[n..], values[n..]) + extra)
         == BindWithDefaults(sig, values, extra)
  {
    var ps := sig.params;
    var byName := Named(ps[n..], values[n..]);
    var kw := byName + extra;
    DistinctNames1(sig);
    PositionalHalves(ps, values, n, extra);
    KeywordHalves(ps, values, n, extra);
    BindIsFinish(sig, values[..n], kw);
    BindIsFinish(sig, values, extra);
    FinishPrepend(sig, Named(ps, values[..n]), byName, BindKeywords(ps[|values|..], extra));
    NamedSplit(ps, values, n);
  }

  lemma DistinctNames1(sig: Signature)
    requires WellFormed(sig)
    ensures DistinctNames(sig.params)
  {
  }

  /** The same for the dictionary `_get_input_value` builds: positional or keyword
      makes no difference, and a leading `self` does not shift the
      positions, since the caller's first positional argument still goes to
      the first declared parameter after it. */
  lemma InputArgumentsPositionalKeyword(sig: Signature, values: seq<Value>, n: nat, extra: seq<Entry>)
    requires WellFormed(sig)
    requires n <= |values| <= |Declared(sig)|
    requires Keys(extra) !! ParamNames(sig.params)
    ensures InputDictionary(sig, values[..n], Named(Declared(sig)[n..], values[n..]) + extra)
         == InputDictionary(sig, values, extra)
  {
    var pre := Placeholder(sig);
    var k := |pre|;
    var all := pre + values;
    PlaceholderSplit(sig, values, n);
    PositionalKeywordInvariant(sig, all, k + n, extra);
    var kw := Named(Declared(sig)[n..], values[n..]) + extra;
    assert Named(sig.params[k + n..], all[k + n..]) + extra == kw;
    assert Bind(sig, pre + values[..n], kw) == Bind(sig, all, extra);
    InputFromBind(sig, values[..n], Named(Declared(sig)[n..], values[n..]) + extra, values, extra);
  }

  /** With the receiver placeholder in front, the first `n` declared
      parameters are the first `|pre| + n` parameters. */
  lemma PlaceholderSplit(sig: Signature, values: seq<Value>, n: nat)
    requires n <= |values| <= |Declared(sig)|
    ensures var pre := Placeholder(sig);
            var all := pre + values;
      && |all| <= |sig.params|
      && all[..|pre| + n] == pre + values[..n]
      && all[|pre| + n..] == values[n..]
      && sig.params[|pre| + n..] == Declared(sig)[n..]
  {
    var pre := Placeholder(sig);
    var all := pre + values;
    assert Declared(sig) == sig.params[|pre|..];
    assert all[..|pre| + n] == pre + values[..n];
    assert all[|pre| + n..] == values[n..];
  }

  lemma InputFromBind(sig: Signature, a: seq<Value>, kwa: seq<Entry>, b: seq<Value>, kwb: seq<Entry>)
    requires Bind(sig, Placeholder(sig) + a, kwa) == Bind(sig, Placeholder(sig) + b, kwb)
    ensures InputDictionary(sig, a, kwa) == InputDictionary(sig, b, kwb)
  {
  }

  // Keyword arguments in any order.

  /** The keyword half binds the same whenever each parameter is passed the
      same value (or nothing) and the keywords no parameter takes are the
      same, in the same order: the order of the keyword arguments matters
      only among the ones left over. */
  lemma {:induction false} KeywordsAgree(ps: seq<Param>, k1: seq<Entry>, k2: seq<Entry>)
    requires DistinctNames(ps)
    requires forall i :: 0 <= i < |ps| ==> Lookup(k1, ps[i].name) == Lookup(k2, ps[i].name)
    requires Without(k1, ParamNames(ps)) == Without(k2, ParamNames(ps))
    ensures BindKeywords(ps, k1) == BindKeywords(ps, k2)
    decreases |ps|
  {
    if ps == [] {
      assert ParamNames(ps) == {};
      WithoutNothing(k1);
      WithoutNothing(k2);
    } else {
      var p := ps[0];
      var tail := ps[1..];
      DistinctTail(ps);
      assert Lookup(k1, p.name) == Lookup(k2, p.name);
      if p.name in Keys(k1) {
        var r1 := Remove(k1, p.name);
        var r2 := Remove(k2, p.name);
        forall i | 0 <= i < |tail|
          ensures Lookup(r1, tail[i].name) == Lookup(r2, tail[i].name)
        {
          assert tail[i] == ps[i + 1];
          assert Lookup(k1, ps[i + 1].name) == Lookup(k2, ps[i + 1].name);
        }
        WithoutRemove(k1, p.name, ParamNames(tail));
        WithoutRemove(k2, p.name, ParamNames(tail));
        KeywordsAgree(tail, r1, r2);
      } else {
        forall i | 0 <= i < |tail|
          ensures Lookup(k1, tail[i].name) == Lookup(k2, tail[i].name)
        {
          assert tail[i] == ps[i + 1];
        }
        WithoutAbsent(k1, ParamNames(tail), {p.name});
        WithoutAbsent(k2, ParamNames(tail), {p.name});
        KeywordsAgree(tail, k1, k2);
      }
    }
  }

  /** The positional half depends only on which parameter names are given
      by keyword. */
  lemma {:induction false} PositionalAgree(ps: seq<Param>, args: seq<Value>, k1: seq<Entry>, k2: seq<Entry>)
    requires forall i :: 0 <= i < |ps| ==> (ps[i].name in Keys(k1) <==> ps[i].name in Keys(k2))
    ensures BindPositional(ps, args, k1) == BindPositional(ps, args, k2)
    decreases |args|
  {
    if args != [] && ps != [] {
      assert ps[0].name in Keys(k1) <==> ps[0].name in Keys(k2);
      forall i | 0 <= i < |ps[1..]|
        ensures ps[1..][i].name in Keys(k1) <==> ps[1..][i].name in Keys(k2)
      {
        assert ps[1..][i] == ps[i + 1];
      }
      PositionalAgree(ps[1..], args[1..], k1, k2);
    }
  }

  /** Binding sees the keyword arguments only through what each parameter
      is passed and through the keywords left over, in order: two keyword
      dictionaries that agree on those bind alike, whatever the order of
      the parameters' own entries. */
  lemma BindAgree(sig: Signature, args: seq<Value>, k1: seq<Entry>, k2: seq<Entry>)
    requires WellFormed(sig)
    requires forall i :: 0 <= i < |sig.params| ==> Lookup(k1, sig.params[i].name) == Lookup(k2, sig.params[i].name)
    requires Without(k1, ParamNames(sig.params)) == Without(k2, ParamNames(sig.params))
    ensures Bind(sig, args, k1) == Bind(sig, args, k2)
    ensures BindWithDefaults(sig, args, k1) == BindWithDefaults(sig, args, k2)
    ensures BindArguments(sig, args, k1) == BindArguments(sig, args, k2)
  {
    SameHelperKeyword(sig.params, k1, k2);
    var ps := sig.params;
    forall i | 0 <= i < |ps|
      ensures ps[i].name in Keys(k1) <==> ps[i].name in Keys(k2)
    {
      assert Lookup(k1, ps[i].name) == Lookup(k2, ps[i].name);
    }
    PositionalAgree(ps, args, k1, k2);
    if BindPositional(ps, args, k1).Success? {
      PositionalNotKeywords(ps, args, k1);
      PositionalNotKeywords(ps, args, k2);
      SuffixAgree(sig, |args|, k1, k2);
    }
  }

  /** Two keyword dicts that agree on the parameters and on the leftovers
      both pass `method` or neither does. */
  lemma SameHelperKeyword(ps: seq<Param>, k1: seq<Entry>, k2: seq<Entry>)
    requires forall i :: 0 <= i < |ps| ==> Lookup(k1, ps[i].name) == Lookup(k2, ps[i].name)
    requires Without(k1, ParamNames(ps)) == Without(k2, ParamNames(ps))
    ensures HelperParameter in Keys(k1) <==> HelperParameter in Keys(k2)
  {
    if HelperParameter in ParamNames(ps) {
      var i :| 0 <= i < |ps| && ps[i].name == HelperParameter;
      assert Lookup(k1, ps[i].name) == Lookup(k2, ps[i].name);
    } else {
      assert Keys(Without(k1, ParamNames(ps))) == Keys(Without(k2, ParamNames(ps)));
    }
  }

  /** Past positional arguments that no keyword names again, the keyword
      half agrees as well. */
  lemma SuffixAgree(sig: Signature, m: nat, k1: seq<Entry>, k2: seq<Entry>)
    requires WellFormed(sig)
    requires m <= |sig.params|
    requires Keys(k1) !! ParamNames(sig.params[..m]) && Keys(k2) !! ParamNames(sig.params[..m])
    requires forall i :: 0 <= i < |sig.params| ==> Lookup(k1, sig.params[i].name) == Lookup(k2, sig.params[i].name)
    requires Without(k1, ParamNames(sig.params)) == Without(k2, ParamNames(sig.params))
    ensures BindKeywords(sig.params[m..], k1) == BindKeywords(sig.params[m..], k2)
  {
    DistinctNames1(sig);
    DistinctSuffix(sig.params, m);
    WithoutSuffix(sig.params, m, k1);
    WithoutSuffix(sig.params, m, k2);
    LookupsSuffix(sig.params, m, k1, k2);
    KeywordsAgree(sig.params[m..], k1, k2);
  }

  lemma LookupsSuffix(ps: seq<Param>, m: nat, k1: seq<Entry>, k2: seq<Entry>)
    requires m <= |ps|
    requires forall i :: 0 <= i < |ps| ==> Lookup(k1, ps[i].name) == Lookup(k2, ps[i].name)
    ensures forall j :: 0 <= j < |ps[m..]| ==> Lookup(k1, ps[m..][j].name) == Lookup(k2, ps[m..][j].name)
  {
    forall j | 0 <= j < |ps[m..]|
      ensures Lookup(k1, ps[m..][j].name) == Lookup(k2, ps[m..][j].name)
    {
      assert ps[m..][j] == ps[m + j];
    }
  }

  /** Dropping the names of all parameters or of those past the first `m`
      is the same, when no keyword names one of the first `m`. */
  lemma WithoutSuffix(ps: seq<Param>, m: nat, kw: seq<Entry>)
    requires m <= |ps|
    requires Keys(kw) !! ParamNames(ps[..m])
    ensures Without(kw, ParamNames(ps[m..])) == Without(kw, ParamNames(ps))
  {
    ParamNamesSplit(ps, m);
    assert ParamNames(ps[m..]) + ParamNames(ps[..m]) == ParamNames(ps);
    WithoutAbsent(kw, ParamNames(ps[m..]), ParamNames(ps[..m]));
  }

  /** What the parameters after the first `n` are passed when they are
      given by keyword in declaration order, followed by `extra`. */
  lemma InOrderKeywords(sig: Signature, values: seq<Value>, n: nat, extra: seq<Entry>)
    requires WellFormed(sig)
    requires n <= |values| <= |sig.params|
    requires Keys(extra) !! ParamNames(sig.params)
    ensures var kw := Named(sig.params[n..], values[n..]) + extra;
      && (forall i :: 0 <= i < |sig.params| ==>
            Lookup(kw, sig.params[i].name) == if n <= i < |values| then Some(values[i]) else None)
      && Without(kw, ParamNames(sig.params)) == extra
  {
    DistinctNames1(sig);
    forall i | 0 <= i < |sig.params|
      ensures Lookup(Named(sig.params[n..], values[n..]) + extra, sig.params[i].name)
           == if n <= i < |values| then Some(values[i]) else None
    {
      InOrderLookup(sig.params, values, n, extra, i);
    }
    InOrderLeftover(sig, values, n, extra);
  }

  lemma InOrderLookup(ps: seq<Param>, values: seq<Value>, n: nat, extra: seq<Entry>, i: nat)
    requires DistinctNames(ps)
    requires n <= |values| <= |ps|
    requires Keys(extra) !! ParamNames(ps)
    requires i < |ps|
    ensures Lookup(Named(ps[n..], values[n..]) + extra, ps[i].name)
         == if n <= i < |values| then Some(values[i]) else None
  {
    var named := Named(ps[n..], values[n..]);
    assert ps[i].name in ParamNames(ps);
    LookupAppend(named, extra, ps[i].name);
    if n <= i < |values| {
      NamedAt(ps, values, n, i);
    } else {
      NotNamed(ps, values, n, i);
    }
  }

  lemma NamedAt(ps: seq<Param>, values: seq<Value>, n: nat, i: nat)
    requires DistinctNames(ps)
    requires n <= i < |values| <= |ps|
    ensures Lookup(Named(ps[n..], values[n..]), ps[i].name) == Some(values[i])
  {
    DistinctSuffix(ps, n);
    LookupNamed(ps[n..], values[n..], i - n);
    assert ps[n..][i - n] == ps[i];
  }

  /** A parameter outside `n..|values|` is not among the keywords naming
      that range. */
  lemma NotNamed(ps: seq<Param>, values: seq<Value>, n: nat, i: nat)
    requires DistinctNames(ps)
    requires n <= |values| <= |ps|
    requires i < |ps| && !(n <= i < |values|)
    ensures ps[i].name !in Keys(Named(ps[n..], values[n..]))
  {
    var m := |values| - n;
    KeysNamed(ps[n..], values[n..]);
    forall j | 0 <= j < m
      ensures ps[n..][..m][j].name != ps[i].name
    {
      assert ps[n..][..m][j] == ps[n + j];
    }
  }

  lemma InOrderLeftover(sig: Signature, values: seq<Value>, n: nat, extra: seq<Entry>)
    requires n <= |values| <= |sig.params|
    requires Keys(extra) !! ParamNames(sig.params)
    ensures Without(Named(sig.params[n..], values[n..]) + extra, ParamNames(sig.params)) == extra
  {
    var named := Named(sig.params[n..], values[n..]);
    NamedWithout(sig.params, values, n);
    WithoutAppend(named, extra, ParamNames(sig.params));
    WithoutDisjoint(extra, ParamNames(sig.params));
  }

  /** The entries naming parameters are all dropped with the parameter
      names. */
  lemma NamedWithout(ps: seq<Param>, values: seq<Value>, n: nat)
    requires n <= |values| <= |ps|
    ensures Without(Named(ps[n..], values[n..]), ParamNames(ps)) == []
  {
    var named := Named(ps[n..], values[n..]);
    KeysNamed(ps[n..], values[n..]);
    ParamNamesPrefix(ps[n..], |values| - n);
    ParamNamesSplit(ps, n);
    assert Keys(Without(named, ParamNames(ps))) == {};
    KeysEmpty(Without(named, ParamNames(ps)));
  }

  lemma WithoutDisjoint(d: seq<Entry>, ks: set<string>)
    requires Keys(d) !! ks
    ensures Without(d, ks) == d
  {
    WithoutAbsent(d, {}, ks);
    assert {} + ks == ks;
    WithoutNothing(d);
  }

  /** Binding does not depend on how or in what order the arguments were
      passed: giving the parameters after the first `n` by keyword, in any
      order and interleaved with the extra keywords, binds exactly what
      giving all of them positionally binds, the extra keywords going to
      `**kwargs` in their own order. `_bind_arguments` keeps this unless a
      keyword is named `method`, which makes the helper's own call raise. */
  lemma KeywordsInAnyOrder(sig: Signature, values: seq<Value>, n: nat, kw: seq<Entry>, extra: seq<Entry>)
    requires WellFormed(sig)
    requires n <= |values| <= |sig.params|
    requires Keys(extra) !! ParamNames(sig.params)
    requires forall i :: 0 <= i < |sig.params| ==>
               Lookup(kw, sig.params[i].name) == if n <= i < |values| then Some(values[i]) else None
    requires Without(kw, ParamNames(sig.params)) == extra
    ensures Bind(sig, values[..n], kw) == Bind(sig, values, extra)
    ensures BindWithDefaults(sig, values[..n], kw) == BindWithDefaults(sig, values, extra)
    ensures HelperParameter !in Keys(kw) ==> BindArguments(sig, values[..n], kw) == BindArguments(sig, values, extra)
    ensures HelperParameter in Keys(kw) ==> BindArguments(sig, values[..n], kw) == Failure(HelperCollision("_bind_arguments"))
  {
    InOrderKeywords(sig, values, n, extra);
    BindAgree(sig, values[..n], kw, Named(sig.params[n..], values[n..]) + extra);
    PositionalKeywordInvariant(sig, values, n, extra);
    assert Keys(extra) <= Keys(kw);
  }

  /** The same for the dictionary `_get_input_value` builds, with the
      positions counted among the declared parameters after any `self`,
      which the caller does not pass by keyword; and the same exception for
      a keyword named `method`. */
  lemma InputKeywordsInAnyOrder(sig: Signature, values: seq<Value>, n: nat, kw: seq<Entry>, extra: seq<Entry>)
    requires WellFormed(sig)
    requires n <= |values| <= |Declared(sig)|
    requires Keys(extra) !! ParamNames(sig.params)
    requires HasReceiver(sig) ==> SelfName !in Keys(kw)
    requires forall i :: 0 <= i < |Declared(sig)| ==>
               Lookup(kw, Declared(sig)[i].name) == if n <= i < |values| then Some(values[i]) else None
    requires Without(kw, ParamNames(sig.params)) == extra
    ensures InputDictionary(sig, values[..n], kw) == InputDictionary(sig, values, extra)
    ensures HelperParameter !in Keys(kw) ==> InputArguments(sig, values[..n], kw) == InputArguments(sig, values, extra)
    ensures HelperParameter in Keys(kw) ==>
              InputArguments(sig, values[..n], kw) == Failure(BindFailed(HelperCollision("_get_input_value")))
  {
    var pre := Placeholder(sig);
    PlaceholderSplit(sig, values, n);
    ShiftedLookups(sig, values, n, kw);
    KeywordsInAnyOrder(sig, pre + values, |pre| + n, kw, extra);
    InputFromBind(sig, values[..n], kw, values, extra);
    assert Keys(extra) <= Keys(kw);
  }

  /** Counted among all the parameters, with the receiver placeholder in
      front of the values, parameter `i` is passed `(pre + values)[i]` from
      position `|pre| + n` on, and nothing elsewhere. */
  lemma ShiftedLookups(sig: Signature, values: seq<Value>, n: nat, kw: seq<Entry>)
    requires n <= |values| <= |Declared(sig)|
    requires HasReceiver(sig) ==> SelfName !in Keys(kw)
    requires forall i :: 0 <= i < |Declared(sig)| ==>
               Lookup(kw, Declared(sig)[i].name) == if n <= i < |values| then Some(values[i]) else None
    ensures var all := Placeholder(sig) + values;
            forall i :: 0 <= i < |sig.params| ==>
              Lookup(kw, sig.params[i].name) == if |Placeholder(sig)| + n <= i < |all| then Some(all[i]) else None
  {
    forall i | 0 <= i < |sig.params|
      ensures Lookup(kw, sig.params[i].name)
           == if |Placeholder(sig)| + n <= i < |Placeholder(sig) + values| then Some((Placeholder(sig) + values)[i]) else None
    {
      ShiftedLookup(sig, values, n, kw, i);
    }
  }

  lemma ShiftedLookup(sig: Signature, values: seq<Value>, n: nat, kw: seq<Entry>, i: nat)
    requires n <= |values| <= |Declared(sig)|
    requires HasReceiver(sig) ==> SelfName !in Keys(kw)
    requires i < |sig.params|
    requires var j := i - |Placeholder(sig)|;
             0 <= j ==> Lookup(kw, Declared(sig)[j].name) == if n <= j < |values| then Some(values[j]) else None
    ensures var all := Placeholder(sig) + values;
            Lookup(kw, sig.params[i].name) == if |Placeholder(sig)| + n <= i < |all| then Some(all[i]) else None
  {
    if HasReceiver(sig) {
      ReceiverLookup(sig, values, n, kw, i);
    } else {
      assert Placeholder(sig) + values == values && Declared(sig) == sig.params;
    }
  }

  lemma ReceiverLookup(sig: Signature, values: seq<Value>, n: nat, kw: seq<Entry>, i: nat)
    requires HasReceiver(sig)
    requires n <= |values| < |sig.params|
    requires SelfName !in Keys(kw)
    requires i < |sig.params|
    requires 0 < i ==> Lookup(kw, sig.params[1..][i - 1].name) == if n < i <= |values| then Some(values[i - 1]) else None
    ensures Lookup(kw, sig.params[i].name) == if 1 + n <= i < 1 + |values| then Some(([VNone] + values)[i]) else None
  {
    if i == 0 {
      assert sig.params[0].name == SelfName;
    } else {
      assert sig.params[1..][i - 1] == sig.params[i];
      if i - 1 < |values| {
        assert ([VNone] + values)[i] == values[i - 1];
      }
    }
  }

}

=== FILE: dicts.dfy ===
/** Python dictionaries of string keys, modelled as entry sequences in
    insertion order (the order `json.dumps` writes them in).

    `Lookup` reads the LAST entry for a key, which is what `dict(pairs)` keeps
    when the pairs repeat a key; on a dictionary with unique keys it is the
    one entry. `Update` is `{**d, **e}` / `d | e`: an existing key keeps its
    position and takes the new value, a new key is appended. Every definition
    peels the last entry, so that their proofs share one induction. */
module Dicts {
  import opened Values
  import opened Results

  function Keys(d: seq<Entry>): set<string>
    decreases |d|
  {
    if d == [] then {} else Keys(d[..|d| - 1]) + {d[|d| - 1].key}
  }

  predicate UniqueKeys(d: seq<Entry>)
    decreases |d|
  {
    d == [] || (UniqueKeys(d[..|d| - 1]) && d[|d| - 1].key !in Keys(d[..|d| - 1]))
  }

  function Lookup(d: seq<Entry>, k: string): (r: Option<Value>)
    ensures r.Some? <==> k in Keys(d)
    ensures r.Some? ==> Entry(k, r.value) in d
    decreases |d|
  {
    if d == [] then None
    else if d[|d| - 1].key == k then Some(d[|d| - 1].value)
    else Lookup(d[..|d| - 1], k)
  }

  /** `d.get(k, default)`. */
  function Get(d: seq<Entry>, k: string, default: Value): Value {
    Lookup(d, k).GetOr(default)
  }

  lemma {:induction false} KeysAppend(d: seq<Entry>, e: seq<Entry>)
    ensures Keys(d + e) == Keys(d) + Keys(e)
    decreases |e|
  {
    if e == [] {
      assert d + e == d;
    } else {
      assert (d + e)[..|d + e| - 1] == d + e[..|e| - 1];
      KeysAppend(d, e[..|e| - 1]);
    }
  }

  lemma {:induction false} KeysIndex(d: seq<Entry>, k: string)
    ensures k in Keys(d) <==> exists i :: 0 <= i < |d| && d[i].key == k
    decreases |d|
  {
    if d != [] {
      var init := d[..|d| - 1];
      KeysIndex(init, k);
      if k in Keys(init) {
        var i :| 0 <= i < |init| && init[i].key == k;
        assert d[i] == init[i];
      }
      if exists i :: 0 <= i < |d| && d[i].key == k {
        var i :| 0 <= i < |d| && d[i].key == k;
        if i < |d| - 1 {
          assert init[i] == d[i];
        }
      }
    }
  }

  /** The entries whose key is not `k`, in order (`d.pop(k)` on a dict). */
  function Remove(d: seq<Entry>, k: string): (r: seq<Entry>)
    ensures Keys(r) == Keys(d) - {k}
    ensures forall k' :: k' != k ==> Lookup(r, k') == Lookup(d, k')
    ensures UniqueKeys(d) ==> UniqueKeys(r)
    ensures k !in Keys(d) ==> r == d
    decreases |d|
  {
    if d == [] then []
    else
      var init := d[..|d| - 1];
      var last := d[|d| - 1];
      if last.key == k then Remove(init, k)
      else
        var r := Remove(init, k) + [last];
        assert r[..|r| - 1] == Remove(init, k);
        r
  }

  /** `d[k] = v` on a key the dictionary holds: the value changes in place. */
  function Replace(d: seq<Entry>, k: string, v: Value): (r: seq<Entry>)
    ensures Keys(r) == Keys(d)
    ensures k in Keys(d) ==> Lookup(r, k) == Some(v)
    ensures forall k' :: k' != k ==> Lookup(r, k') == Lookup(d, k')
    ensures UniqueKeys(d) ==> UniqueKeys(r)
    decreases |d|
  {
    if d == [] then []
    else
      var init := d[..|d| - 1];
      var last := d[|d| - 1];
      var r := Replace(init, k, v) + [if last.key == k then Entry(k, v) else last];
      assert r[..|r| - 1] == Replace(init, k, v);
      r
  }

  /** `d[k] = v`. */
  function Set(d: seq<Entry>, k: string, v: Value): (r: seq<Entry>)
    ensures Lookup(r, k) == Some(v)
    ensures forall k' :: k' != k ==> Lookup(r, k') == Lookup(d, k')
    ensures Keys(r) == Keys(d) + {k}
    ensures UniqueKeys(d) ==> UniqueKeys(r)
  {
    if k in Keys(d) then Replace(d, k, v)
    else
      var r := d + [Entry(k, v)];
      assert r[..|r| - 1] == d;
      r
  }

  /** `{**d, **e}`: the entries of `e` applied to `d` from left to right. */
  function Update(d: seq<Entry>, e: seq<Entry>): (r: seq<Entry>)
    ensures forall k :: Lookup(r, k) == if k in Keys(e) then Lookup(e, k) else Lookup(d, k)
    ensures Keys(r) == Keys(d) + Keys(e)
    ensures UniqueKeys(d) ==> UniqueKeys(r)
    decreases |e|
  {
    if e == [] then d
    else
      var last := e[|e| - 1];
      Set(Update(d, e[..|e| - 1]), last.key, last.value)
  }

  /** The entries whose key is not in `ks`, in order. */
  function Without(d: seq<Entry>, ks: set<string>): (r: seq<Entry>)
    ensures Keys(r) == Keys(d) - ks
    ensures forall k :: k !in ks ==> Lookup(r, k) == Lookup(d, k)
    ensures UniqueKeys(d) ==> UniqueKeys(r)
    decreases |d|
  {
    if d == [] then []
    else
      var init := d[..|d| - 1];
      var last := d[|d| - 1];
      if last.key in ks then Without(init, ks)
      else
        var r := Without(init, ks) + [last];
        assert r[..|r| - 1] == Without(init, ks);
        r
  }

  lemma {:induction false} LookupAppend(a: seq<Entry>, b: seq<Entry>, k: string)
    ensures Lookup(a + b, k) == if k in Keys(b) then Lookup(b, k) else Lookup(a, k)
    decreases |b|
  {
    if b == [] {
      assert a + b == a;
    } else {
      assert (a + b)[..|a + b| - 1] == a + b[..|b| - 1];
      LookupAppend(a, b[..|b| - 1], k);
    }
  }

  lemma {:induction false} RemoveAppend(a: seq<Entry>, b: seq<Entry>, k: string)
    ensures Remove(a + b, k) == Remove(a, k) + Remove(b, k)
    decreases |b|
  {
    if b == [] {
      assert a + b == a;
      assert Remove(a, k) + [] == Remove(a, k);
    } else {
      assert (a + b)[..|a + b| - 1] == a + b[..|b| - 1];
      assert (a + b)[|a + b| - 1] == b[|b| - 1];
      RemoveAppend(a, b[..|b| - 1], k);
    }
  }

  lemma {:induction false} UniqueKeysAppend(a: seq<Entry>, b: seq<Entry>)
    ensures UniqueKeys(a + b) <==> UniqueKeys(a) && UniqueKeys(b) && Keys(a) !! Keys(b)
    decreases |b|
  {
    if b == [] {
      assert a + b == a;
    } else {
      var b' := b[..|b| - 1];
      assert (a + b)[..|a + b| - 1] == a + b';
      assert (a + b)[|a + b| - 1] == b[|b| - 1];
      UniqueKeysAppend(a, b');
      KeysAppend(a, b');
    }
  }

  lemma {:induction false} WithoutAppend(a: seq<Entry>, b: seq<Entry>, ks: set<string>)
    ensures Without(a + b, ks) == Without(a, ks) + Without(b, ks)
    decreases |b|
  {
    if b == [] {
      assert a + b == a;
      assert Without(a, ks) + [] == Without(a, ks);
    } else {
      assert (a + b)[..|a + b| - 1] == a + b[..|b| - 1];
      assert (a + b)[|a + b| - 1] == b[|b| - 1];
      WithoutAppend(a, b[..|b| - 1], ks);
    }
  }

  /** Removing keys the dictionary does not hold changes nothing. */
  lemma {:induction false} WithoutAbsent(d: seq<Entry>, ks: set<string>, absent: set<string>)
    requires Keys(d) !! absent
    ensures Without(d, ks + absent) == Without(d, ks)
    decreases |d|
  {
    if d != [] {
      WithoutAbsent(d[..|d| - 1], ks, absent);
    }
  }

  lemma {:induction false} WithoutRemove(d: seq<Entry>, k: string, ks: set<string>)
    ensures Without(Remove(d, k), ks) == Without(d, ks + {k})
    decreases |d|
  {
    if d != [] {
      var init := d[..|d| - 1];
      var last := d[|d| - 1];
      WithoutRemove(init, k, ks);
      if last.key != k {
        var r := Remove(init, k) + [last];
        assert r[..|r| - 1] == Remove(init, k);
      }
    }
  }

  lemma KeysEmpty(d: seq<Entry>)
    ensures Keys(d) == {} <==> d == []
  {
  }

  lemma {:induction false} UniqueKeysIndex(d: seq<Entry>)
    ensures UniqueKeys(d) <==> forall i, j :: 0 <= i < j < |d| ==> d[i].key != d[j].key
    decreases |d|
  {
    if d != [] {
      var init := d[..|d| - 1];
      UniqueKeysIndex(init);
      KeysIndex(init, d[|d| - 1].key);
      if UniqueKeys(d) {
        forall i, j | 0 <= i < j < |d|
          ensures d[i].key != d[j].key
        {
          if j < |d| - 1 {
            assert init[i] == d[i] && init[j] == d[j];
          } else {
            assert init[i] == d[i];
          }
        }
      }
      if forall i, j :: 0 <= i < j < |d| ==> d[i].key != d[j].key {
        forall i, j | 0 <= i < j < |init|
          ensures init[i].key != init[j].key
        {
          assert init[i] == d[i] && init[j] == d[j];
        }
      }
    }
  }

  /** In a dictionary with unique keys, looking up the key of entry `i`
      finds entry `i`. */
  lemma {:induction false} LookupIndex(d: seq<Entry>, i: nat)
    requires UniqueKeys(d)
    requires i < |d|
    ensures Lookup(d, d[i].key) == Some(d[i].value)
    decreases |d|
  {
    var init := d[..|d| - 1];
    if i < |d| - 1 {
      UniqueKeysIndex(d);
      assert d[|d| - 1].key != d[i].key;
      assert init[i] == d[i];
      LookupIndex(init, i);
    }
  }

  lemma {:induction false} WithoutNothing(d: seq<Entry>)
    ensures Without(d, {}) == d
    decreases |d|
  {
    if d != [] {
      WithoutNothing(d[..|d| - 1]);
      assert d == d[..|d| - 1] + [d[|d| - 1]];
    }
  }
}

=== FILE: flatten.dfy ===
/** The attribute flattener (`_flatten`): a nested mapping becomes a flat
    sequence of `(dotted key, value)` attributes.

    For each entry of a mapping, in order: a `None` value is skipped; a nested
    mapping is flattened and its keys prefixed with `key.`; a list holding at
    least one mapping has each element flattened as a mapping, keys prefixed
    with `key.<index>.`; an enum member is replaced by its value; anything
    else is emitted unchanged. A list element that is falsy yields nothing,
    and one that is truthy but not a mapping makes `.items()` raise, which is
    the `Failure` result here. */
module Flatten {
  import opened Values
  import opened Results
  import Text

  /** `.items()` was called on a truthy value that is not a mapping. */
  datatype FlattenError = NoItems(value: Value)

  type Flat = Result<seq<Entry>, FlattenError>

  /** The values that can come out of the flattener: nothing absent, nested
      or still wrapped in an enum. */
  predicate IsLeaf(v: Value) {
    && !v.VNone?
    && !v.VMap?
    && !v.VEnum?
    && !(v.VList? && HasMapping(v.items))
  }

  predicate AllLeaves(attrs: seq<Entry>) {
    forall i :: 0 <= i < |attrs| ==> IsLeaf(attrs[i].value)
  }

  function Prefixed(prefix: string, attrs: seq<Entry>): seq<Entry> {
    seq(|attrs|, i requires 0 <= i < |attrs| => Entry(prefix + attrs[i].key, attrs[i].value))
  }

  /** Prefix every key of a successful result. */
  function PrefixedResult(prefix: string, r: Flat): Flat {
    match r
    case Success(attrs) => Success(Prefixed(prefix, attrs))
    case Failure(e) => Failure(e)
  }

  /** The output of one generator followed by the output of the next; the
      first error stops the whole iteration. */
  function Then(a: Flat, b: Flat): Flat {
    match a
    case Failure(e) => Failure(e)
    case Success(x) =>
      match b
      case Failure(e) => Failure(e)
      case Success(y) => Success(x + y)
  }

  /** The key prefix of list element `index` under `key`. */
  function IndexPrefix(key: string, index: nat): string {
    key + "." + Text.NatToString(index) + "."
  }

  /** `_flatten(mapping)`: nothing for a falsy argument, the entries of a
      mapping otherwise. */
  function FlattenValue(v: Value): (r: Flat)
    ensures r.Success? ==> AllLeaves(r.value)
    decreases v, 0
  {
    if !Truthy(v) then Success([])
    else match v
      case VMap(entries) => FlattenEntries(entries)
      case _ => Failure(NoItems(v))
  }

  /** The loop over `mapping.items()`. */
  function FlattenEntries(entries: seq<Entry>): (r: Flat)
    ensures r.Success? ==> AllLeaves(r.value)
    decreases entries, 0
  {
    if entries == [] then Success([])
    else Then(FlattenEntry(entries[0].key, entries[0].value), FlattenEntries(entries[1..]))
  }

  /** The attributes one `key: value` entry contributes. */
  function FlattenEntry(key: string, v: Value): (r: Flat)
    ensures r.Success? ==> AllLeaves(r.value)
    decreases v, 1
  {
    match v
    case VNone => Success([])
    case VMap(_) => PrefixedResult(key + ".", FlattenValue(v))
    case VList(items) =>
      if HasMapping(items) then FlattenItems(key, items, 0) else Success([Entry(key, v)])
    case VEnum(member) => Success([Entry(key, ScalarValue(member))])
    case _ => Success([Entry(key, v)])
  }

  /** The loop over `enumerate(value)`; `from` is the index of `items[0]`
      in the original list. */
  function FlattenItems(key: string, items: seq<Value>, from: nat): (r: Flat)
    ensures r.Success? ==> AllLeaves(r.value)
    decreases items, 0
  {
    if items == [] then Success([])
    else Then(PrefixedResult(IndexPrefix(key, from), FlattenValue(items[0])),
              FlattenItems(key, items[1..], from + 1))
  }
}

=== FILE: flatten_properties.dfy ===
/** What the flattener promises, proved over all inputs. */
module FlattenProperties {
  import opened Values
  import opened Results
  import opened Flatten

  lemma ThenAssociative(a: Flat, b: Flat, c: Flat)
    ensures Then(Then(a, b), c) == Then(a, Then(b, c))
  {
    match a
    case Failure(_) =>
    case Success(x) =>
      match b
      case Failure(_) =>
      case Success(y) =>
        match c
        case Failure(_) =>
        case Success(z) =>
          assert (x + y) + z == x + (y + z);
  }

  lemma ThenEmpty(a: Flat)
    ensures Then(a, Success([])) == a
    ensures Then(Success([]), a) == a
  {
    match a
    case Failure(_) =>
    case Success(x) =>
      assert x + [] == x;
      assert [] + x == x;
  }

  /** Flattening a mapping is flattening its entries one after another: the
      output of `a + b` is the output of `a` followed by that of `b`. */
  lemma {:induction false} FlattenEntriesAppend(a: seq<Entry>, b: seq<Entry>)
    ensures FlattenEntries(a + b) == Then(FlattenEntries(a), FlattenEntries(b))
    decreases |a|
  {
    if a == [] {
      assert a + b == b;
      ThenEmpty(FlattenEntries(b));
    } else {
      assert (a + b)[0] == a[0];
      assert (a + b)[1..] == a[1..] + b;
      FlattenEntriesAppend(a[1..], b);
      ThenAssociative(FlattenEntry(a[0].key, a[0].value), FlattenEntries(a[1..]), FlattenEntries(b));
    }
  }

  lemma FlattenSingleEntry(e: Entry)
    ensures FlattenEntries([e]) == FlattenEntry(e.key, e.value)
  {
    assert [e][1..] == [];
    ThenEmpty(FlattenEntry(e.key, e.value));
  }

  /** The output for `pre + [e] + post` is that of `pre`, then that of the
      entry `e` alone, then that of `post`. */
  lemma FlattenAround(pre: seq<Entry>, e: Entry, post: seq<Entry>)
    ensures FlattenEntries(pre + [e] + post)
         == Then(Then(FlattenEntries(pre), FlattenEntry(e.key, e.value)), FlattenEntries(post))
  {
    FlattenEntriesAppend(pre + [e], post);
    FlattenEntriesAppend(pre, [e]);
    FlattenSingleEntry(e);
  }

  /** A key whose value is `None` contributes nothing: the mapping flattens
      exactly as if the entry were not there. */
  lemma NoneEntrySkipped(pre: seq<Entry>, k: string, post: seq<Entry>)
    ensures FlattenEntries(pre + [Entry(k, VNone)] + post) == FlattenEntries(pre + post)
  {
    FlattenAround(pre, Entry(k, VNone), post);
    ThenEmpty(FlattenEntries(pre));
    FlattenEntriesAppend(pre, post);
  }

  /** A nested mapping under `k` contributes exactly the flattening of that
      mapping, in its order, each key prefixed with `k.`; an empty nested
      mapping contributes nothing. */
  lemma NestedMappingPrefixed(pre: seq<Entry>, k: string, sub: seq<Entry>, post: seq<Entry>)
    ensures FlattenEntries(pre + [Entry(k, VMap(sub))] + post)
         == Then(Then(FlattenEntries(pre), PrefixedResult(k + ".", FlattenEntries(sub))), FlattenEntries(post))
  {
    FlattenAround(pre, Entry(k, VMap(sub)), post);
  }

  lemma {:induction false} FlattenItemsAppend(key: string, a: seq<Value>, b: seq<Value>, from: nat)
    ensures FlattenItems(key, a + b, from)
         == Then(FlattenItems(key, a, from), FlattenItems(key, b, from + |a|))
    decreases |a|
  {
    if a == [] {
      assert a + b == b;
      ThenEmpty(FlattenItems(key, b, from));
    } else {
      assert (a + b)[0] == a[0];
      assert (a + b)[1..] == a[1..] + b;
      FlattenItemsAppend(key, a[1..], b, from + 1);
      ThenAssociative(PrefixedResult(IndexPrefix(key, from), FlattenValue(a[0])),
                      FlattenItems(key, a[1..], from + 1), FlattenItems(key, b, from + |a|));
    }
  }

  /** In a list that holds a mapping, the element at position `i` contributes
      its own flattening with keys prefixed `key.<i>.`, between the
      contributions of the elements before it and after it: positions are the
      original ones, whatever the earlier elements produced. */
  lemma ListElementAtOriginalIndex(key: string, items: seq<Value>, i: nat)
    requires i < |items|
    ensures FlattenItems(key, items, 0)
         == Then(Then(FlattenItems(key, items[..i], 0),
                      PrefixedResult(IndexPrefix(key, i), FlattenValue(items[i]))),
                 FlattenItems(key, items[i + 1..], i + 1))
  {
    assert items == items[..i] + ([items[i]] + items[i + 1..]);
    FlattenItemsAppend(key, items[..i], [items[i]] + items[i + 1..], 0);
    FlattenItemsAppend(key, [items[i]], items[i + 1..], i);
    assert [items[i]][1..] == [];
    ThenEmpty(PrefixedResult(IndexPrefix(key, i), FlattenValue(items[i])));
    ThenAssociative(FlattenItems(key, items[..i], 0),
                    PrefixedResult(IndexPrefix(key, i), FlattenValue(items[i])),
                    FlattenItems(key, items[i + 1..], i + 1));
  }

  /** Inside such a list, a falsy element (`None`, `""`, `0`, `[]`, `{}`)
      yields nothing and a truthy element that is not a mapping fails. */
  lemma ListElementShapes(x: Value)
    ensures !Truthy(x) ==> FlattenValue(x) == Success([])
    ensures Truthy(x) && !x.VMap? ==> FlattenValue(x) == Failure(NoItems(x))
  {
  }

  /** The attribute an already-flat entry stands for: none for `None`, the
      enum's value for an enum member, the value itself otherwise. */
  function ScalarAttributes(entries: seq<Entry>): seq<Entry> {
    if entries == [] then []
    else
      var e := entries[0];
      (match e.value
       case VNone => []
       case VEnum(m) => [Entry(e.key, ScalarValue(m))]
       case _ => [e])
      + ScalarAttributes(entries[1..])
  }

  predicate IsFlatValue(v: Value) {
    v.VNone? || v.VEnum? || IsLeaf(v)
  }

  /** On a mapping with nothing nested in it, the flattener keeps every entry
      in order with its own key, drops the `None` ones and unwraps enum
      members. */
  lemma {:induction false} FlatMappingKept(entries: seq<Entry>)
    requires forall i :: 0 <= i < |entries| ==> IsFlatValue(entries[i].value)
    ensures FlattenEntries(entries) == Success(ScalarAttributes(entries))
    decreases |entries|
  {
    if entries != [] {
      FlatMappingKept(entries[1..]);
    }
  }

  // Where flattening fails, stated without the generator structure.

  predicate FlattenableValue(v: Value)
    decreases v, 0
  {
    !Truthy(v) || (v.VMap? && FlattenableEntries(v.entries))
  }

  predicate FlattenableEntries(entries: seq<Entry>)
    decreases entries, 0
  {
    forall i :: 0 <= i < |entries| ==> FlattenableEntry(entries[i].value)
  }

  /** A value is flattenable under a key unless, somewhere inside it, a list
      that holds a mapping also holds a truthy element that is not one. */
  predicate FlattenableEntry(v: Value)
    decreases v, 1
  {
    match v
    case VMap(entries) => FlattenableEntries(entries)
    case VList(items) => HasMapping(items) ==> FlattenableItems(items)
    case _ => true
  }

  predicate FlattenableItems(items: seq<Value>)
    decreases items, 0
  {
    forall i :: 0 <= i < |items| ==> FlattenableValue(items[i])
  }

  lemma {:induction false} ValueSucceedsIff(v: Value)
    ensures FlattenValue(v).Success? <==> FlattenableValue(v)
    decreases v, 0
  {
    if Truthy(v) && v.VMap? {
      EntriesSucceedIff(v.entries);
    }
  }

  lemma {:induction false} EntriesSucceedIff(entries: seq<Entry>)
    ensures FlattenEntries(entries).Success? <==> FlattenableEntries(entries)
    decreases entries, 0
  {
    if entries != [] {
      EntrySucceedsIff(entries[0].key, entries[0].value);
      EntriesSucceedIff(entries[1..]);
      assert FlattenableEntries(entries)
         <==> FlattenableEntry(entries[0].value) && FlattenableEntries(entries[1..]) by {
        if FlattenableEntry(entries[0].value) && FlattenableEntries(entries[1..]) {
          forall i | 0 <= i < |entries|
            ensures FlattenableEntry(entries[i].value)
          {
            if i > 0 {
              assert entries[i] == entries[1..][i - 1];
            }
          }
        }
        if FlattenableEntries(entries) {
          forall i | 0 <= i < |entries[1..]|
            ensures FlattenableEntry(entries[1..][i].value)
          {
            assert entries[1..][i] == entries[i + 1];
          }
        }
      }
    }
  }

  lemma {:induction false} EntrySucceedsIff(key: string, v: Value)
    ensures FlattenEntry(key, v).Success? <==> FlattenableEntry(v)
    decreases v, 1
  {
    match v
    case VMap(entries) =>
      ValueSucceedsIff(v);
      if |entries| == 0 {
        assert FlattenableEntries(entries);
      } else {
        assert FlattenableValue(v) <==> FlattenableEntries(entries);
      }
    case VList(items) =>
      if HasMapping(items) {
        ItemsSucceedIff(key, items, 0);
      }
    case _ =>
  }

  lemma {:induction false} ItemsSucceedIff(key: string, items: seq<Value>, from: nat)
    ensures FlattenItems(key, items, from).Success? <==> FlattenableItems(items)
    decreases items, 0
  {
    if items != [] {
      ValueSucceedsIff(items[0]);
      ItemsSucceedIff(key, items[1..], from + 1);
      assert FlattenableItems(items)
         <==> FlattenableValue(items[0]) && FlattenableItems(items[1..]) by {
        if FlattenableValue(items[0]) && FlattenableItems(items[1..]) {
          forall i | 0 <= i < |items|
            ensures FlattenableValue(items[i])
          {
            if i > 0 {
              assert items[i] == items[1..][i - 1];
            }
          }
        }
      }
    }
  }
}

=== FILE: input_properties.dfy ===
/** What `_bind_arguments` and `_get_input_value` record about a call: every
    parameter with the value it was given or its default, and a dictionary
    in which the `**kwargs` entries sit at the top level beside the
    declared parameters. */
module InputProperties {
  import opened Values
  import opened Results
  import opened Dicts
  import opened Binding
  import opened BindingProperties

  /** `apply_defaults` looks each parameter up in the bound arguments and
      falls back to its default. */
  lemma {:induction false} DefaultsAppliedLookup(params: seq<Param>, bound: seq<Entry>)
    requires DistinctNames(params)
    ensures Keys(DefaultsApplied(params, bound)) <= ParamNames(params)
    ensures forall i :: 0 <= i < |params| ==>
              Lookup(DefaultsApplied(params, bound), params[i].name)
              == if params[i].name in Keys(bound) then Lookup(bound, params[i].name) else params[i].default
    decreases |params|
  {
    if params != [] {
      var p := params[0];
      var tail := params[1..];
      DistinctTail(params);
      DefaultsAppliedLookup(tail, bound);
      var head := if p.name in Keys(bound) then [Entry(p.name, Lookup(bound, p.name).value)]
                  else if p.default.Some? then [Entry(p.name, p.default.value)]
                  else [];
      var rest := DefaultsApplied(tail, bound);
      assert DefaultsApplied(params, bound) == head + rest;
      KeysAppend(head, rest);
      forall i | 0 <= i < |params|
        ensures Lookup(head + rest, params[i].name)
             == if params[i].name in Keys(bound) then Lookup(bound, params[i].name) else params[i].default
      {
        LookupAppend(head, rest, params[i].name);
        if i > 0 {
          assert params[i] == tail[i - 1];
        }
      }
    }
  }

  /** The `kwargs` entry of a successful binding is the dictionary of
      leftover keyword arguments (`{}` when there are none, or when the
      signature has no `**kwargs`), and nothing else is bound beside the
      parameters. */
  lemma KwargsEntry(sig: Signature, args: seq<Value>, kwargs: seq<Entry>)
    requires WellFormed(sig)
    requires VarKeywordName !in ParamNames(sig.params)
    requires Bind(sig, args, kwargs).Success?
    ensures Get(Bind(sig, args, kwargs).value, VarKeywordName, VMap([])) == VMap(Leftover(sig, kwargs))
    ensures Keys(Bind(sig, args, kwargs).value) <= ParamNames(sig.params) + {VarKeywordName}
  {
    BindValues(sig, args, kwargs);
    if !sig.varKeyword {
      BindSucceedsIff(sig, args, kwargs);
      LeftoverEmptyIff(sig, kwargs);
      BoundParts(sig, args, kwargs);
      var named := BindKeywords(sig.params[|args|..], kwargs).value.0;
      KeysAppend(Named(sig.params, args), named);
      ParamNamesSplit(sig.params, |args|);
    }
  }

  /** What `_bind_arguments` returns: every parameter, in declaration
      order, with the value passed for it (positionally or by keyword) or
      else its default, and `kwargs` holding exactly the leftover keyword
      arguments. */
  lemma BindArgumentsValues(sig: Signature, args: seq<Value>, kwargs: seq<Entry>)
    requires WellFormed(sig)
    requires BindArguments(sig, args, kwargs).Success?
    ensures var r := BindArguments(sig, args, kwargs).value;
      && (forall i :: 0 <= i < |sig.params| ==>
            Lookup(r, sig.params[i].name)
            == if i < |args| then Some(args[i])
               else if sig.params[i].name in Keys(kwargs) then Lookup(kwargs, sig.params[i].name)
               else sig.params[i].default)
      && (forall i :: 0 <= i < |sig.params| ==> sig.params[i].name in Keys(r))
      && (sig.varKeyword ==> Lookup(r, VarKeywordName) == Some(VMap(Leftover(sig, kwargs))))
      && Keys(r) == ParamNames(sig.params) + (if sig.varKeyword then {VarKeywordName} else {})
  {
    BindArgumentsParams(sig, args, kwargs);
    BindArgumentsRest(sig, args, kwargs);
  }

  /** The bound arguments, with defaults applied, then the `kwargs` entry. */
  lemma AppliedShape(sig: Signature, args: seq<Value>, kwargs: seq<Entry>)
    requires BindArguments(sig, args, kwargs).Success?
    ensures Bind(sig, args, kwargs).Success?
    ensures var bound := Bind(sig, args, kwargs).value;
            BindArguments(sig, args, kwargs).value
            == DefaultsApplied(sig.params, bound)
               + (if sig.varKeyword then [Entry(VarKeywordName, Get(bound, VarKeywordName, VMap([])))] else [])
  {
  }

  lemma BindArgumentsParams(sig: Signature, args: seq<Value>, kwargs: seq<Entry>)
    requires WellFormed(sig)
    requires BindArguments(sig, args, kwargs).Success?
    ensures var r := BindArguments(sig, args, kwargs).value;
      && (forall i :: 0 <= i < |sig.params| ==>
            Lookup(r, sig.params[i].name)
            == if i < |args| then Some(args[i])
               else if sig.params[i].name in Keys(kwargs) then Lookup(kwargs, sig.params[i].name)
               else sig.params[i].default)
      && (forall i :: 0 <= i < |sig.params| ==> sig.params[i].name in Keys(r))
  {
    AppliedShape(sig, args, kwargs);
    var bound := Bind(sig, args, kwargs).value;
    var r := BindArguments(sig, args, kwargs).value;
    var applied := DefaultsApplied(sig.params, bound);
    var tail := if sig.varKeyword then [Entry(VarKeywordName, Get(bound, VarKeywordName, VMap([])))] else [];
    DistinctNames1(sig);
    BindValues(sig, args, kwargs);
    BindSucceedsIff(sig, args, kwargs);
    DefaultsAppliedLookup(sig.params, bound);
    forall i | 0 <= i < |sig.params|
      ensures Lookup(r, sig.params[i].name)
           == if i < |args| then Some(args[i])
              else if sig.params[i].name in Keys(kwargs) then Lookup(kwargs, sig.params[i].name)
              else sig.params[i].default
      ensures sig.params[i].name in Keys(r)
    {
      var x := sig.params[i].name;
      assert x in ParamNames(sig.params);
      LookupAppend(applied, tail, x);
    }
  }

  lemma BindArgumentsRest(sig: Signature, args: seq<Value>, kwargs: seq<Entry>)
    requires WellFormed(sig)
    requires BindArguments(sig, args, kwargs).Success?
    requires forall i :: 0 <= i < |sig.params| ==> sig.params[i].name in Keys(BindArguments(sig, args, kwargs).value)
    ensures var r := BindArguments(sig, args, kwargs).value;
      && (sig.varKeyword ==> Lookup(r, VarKeywordName) == Some(VMap(Leftover(sig, kwargs))))
      && Keys(r) == ParamNames(sig.params) + (if sig.varKeyword then {VarKeywordName} else {})
  {
    AppliedShape(sig, args, kwargs);
    var bound := Bind(sig, args, kwargs).value;
    var r := BindArguments(sig, args, kwargs).value;
    var applied := DefaultsApplied(sig.params, bound);
    var tail := if sig.varKeyword then [Entry(VarKeywordName, Get(bound, VarKeywordName, VMap([])))] else [];
    DistinctNames1(sig);
    BindValues(sig, args, kwargs);
    DefaultsAppliedLookup(sig.params, bound);
    KeysAppend(applied, tail);
    assert ParamNames(sig.params) <= Keys(r);
    if sig.varKeyword {
      LookupAppend(applied, tail, VarKeywordName);
      KwargsEntry(sig, args, kwargs);
    }
  }

  /** `_get_input_value` raises exactly when a keyword argument is named
      `method` or `Signature.bind` would raise, as long as no ordinary
      parameter is called `kwargs`. */
  lemma InputArgumentsSucceedsIff(sig: Signature, args: seq<Value>, kwargs: seq<Entry>)
    requires WellFormed(sig)
    requires VarKeywordName !in ParamNames(sig.params)
    ensures InputArguments(sig, args, kwargs).Success?
        <==> HelperParameter !in Keys(kwargs) && Accepts(sig, Placeholder(sig) + args, kwargs)
    ensures InputDictionary(sig, args, kwargs).Success? <==> Accepts(sig, Placeholder(sig) + args, kwargs)
  {
    BindSucceedsIff(sig, Placeholder(sig) + args, kwargs);
    if Bind(sig, Placeholder(sig) + args, kwargs).Success? {
      KwargsEntry(sig, Placeholder(sig) + args, kwargs);
    }
  }

  /** `_bind_arguments` raises exactly when a keyword argument is named
      `method`, which its own call rejects, or when `Signature.bind` would
      raise. */
  lemma BindArgumentsSucceedsIff(sig: Signature, args: seq<Value>, kwargs: seq<Entry>)
    requires WellFormed(sig)
    ensures BindArguments(sig, args, kwargs).Success? <==> HelperParameter !in Keys(kwargs) && Accepts(sig, args, kwargs)
    ensures HelperParameter in Keys(kwargs) ==> BindArguments(sig, args, kwargs) == Failure(HelperCollision("_bind_arguments"))
  {
    BindSucceedsIff(sig, args, kwargs);
  }

  /** A tool with an input called `method`, passed by keyword as in
      `http(method="GET")`: both helpers raise, although `Signature.bind`
      accepts the call and the same value passed positionally binds. */
  lemma MethodKeywordRejected()
    ensures var sig := Signature([Param(HelperParameter, None)], false);
            var byName := [Entry(HelperParameter, VStr("GET"))];
      && BindArguments(sig, [], byName) == Failure(HelperCollision("_bind_arguments"))
      && InputArguments(sig, [], byName) == Failure(BindFailed(HelperCollision("_get_input_value")))
      && BindWithDefaults(sig, [], byName).Success?
      && InputDictionary(sig, [], byName).Success?
      && BindArguments(sig, [VStr("GET")], []).Success?
      && InputArguments(sig, [VStr("GET")], []).Success?
  {
    var sig := Signature([Param(HelperParameter, None)], false);
    var byName := [Entry(HelperParameter, VStr("GET"))];
    assert Keys(byName) == {HelperParameter} by {
      assert byName[..0] == [];
    }
    assert Keys([]) == {};
    assert Placeholder(sig) == [];
    assert ParamNames(sig.params) == {HelperParameter};
    assert Accepts(sig, [], byName);
    assert Accepts(sig, [VStr("GET")], []);
    BindArgumentsSucceedsIff(sig, [], byName);
    BindArgumentsSucceedsIff(sig, [VStr("GET")], []);
    InputArgumentsSucceedsIff(sig, [], byName);
    InputArgumentsSucceedsIff(sig, [VStr("GET")], []);
    BindSucceedsIff(sig, [], byName);
  }

  /** The caller's arguments line up with the declared parameters: the
      `None` placeholder takes a leading `self`, so positional argument `i`
      lands on declared parameter `i`. */
  lemma PlaceholderAligns(sig: Signature, args: seq<Value>, i: nat)
    requires i < |Declared(sig)|
    ensures Declared(sig)[i] == sig.params[|Placeholder(sig)| + i]
    ensures i < |args| ==> (Placeholder(sig) + args)[|Placeholder(sig)| + i] == args[i]
  {
  }

  /** The dictionary `_get_input_value` serialises, entry by entry: each
      declared parameter (other than one called `self`) with the value the
      caller passed for it, or nothing when it was left to its default; a
      parameter called `self` never; and every other name exactly as the
      caller passed it by keyword, since those are the `**kwargs` entries
      merged in at the top level. A keyword named `method` makes the
      helper's own call raise instead. */
  lemma InputArgumentsContents(sig: Signature, args: seq<Value>, kwargs: seq<Entry>)
    requires WellFormed(sig)
    requires VarKeywordName !in ParamNames(sig.params)
    requires Accepts(sig, Placeholder(sig) + args, kwargs)
    ensures HelperParameter in Keys(kwargs) ==>
              InputArguments(sig, args, kwargs) == Failure(BindFailed(HelperCollision("_get_input_value")))
    ensures HelperParameter !in Keys(kwargs) ==> InputArguments(sig, args, kwargs) == InputDictionary(sig, args, kwargs)
    ensures InputDictionary(sig, args, kwargs).Success?
    ensures var r := InputDictionary(sig, args, kwargs).value;
      && (forall i :: 0 <= i < |Declared(sig)| && Declared(sig)[i].name != SelfName ==>
            Lookup(r, Declared(sig)[i].name)
            == if i < |args| then Some(args[i]) else Lookup(kwargs, Declared(sig)[i].name))
      && (SelfName in ParamNames(sig.params) ==> Lookup(r, SelfName) == None)
      && (forall k :: k !in ParamNames(sig.params) ==> Lookup(r, k) == Lookup(kwargs, k))
  {
    InputArgumentsDeclared(sig, args, kwargs);
    InputArgumentsOthers(sig, args, kwargs);
  }

  lemma InputArgumentsDeclared(sig: Signature, args: seq<Value>, kwargs: seq<Entry>)
    requires WellFormed(sig)
    requires VarKeywordName !in ParamNames(sig.params)
    requires Accepts(sig, Placeholder(sig) + args, kwargs)
    ensures InputDictionary(sig, args, kwargs).Success?
    ensures var r := InputDictionary(sig, args, kwargs).value;
      forall i :: 0 <= i < |Declared(sig)| && Declared(sig)[i].name != SelfName ==>
        Lookup(r, Declared(sig)[i].name)
        == if i < |args| then Some(args[i]) else Lookup(kwargs, Declared(sig)[i].name)
  {
    var all := Placeholder(sig) + args;
    InputArgumentsSucceedsIff(sig, args, kwargs);
    BindSucceedsIff(sig, all, kwargs);
    KwargsEntry(sig, all, kwargs);
    BindValues(sig, all, kwargs);
    var bound := Bind(sig, all, kwargs).value;
    var extra := Leftover(sig, kwargs);
    var r := InputDictionary(sig, args, kwargs).value;
    assert r == Update(Without(bound, {SelfName, VarKeywordName}), extra);
    forall i | 0 <= i < |Declared(sig)| && Declared(sig)[i].name != SelfName
      ensures Lookup(r, Declared(sig)[i].name)
           == if i < |args| then Some(args[i]) else Lookup(kwargs, Declared(sig)[i].name)
    {
      PlaceholderAligns(sig, args, i);
      var j := |Placeholder(sig)| + i;
      var x := sig.params[j].name;
      assert x in ParamNames(sig.params);
      assert x !in Keys(extra) && x != VarKeywordName;
      assert Lookup(r, x) == Lookup(bound, x);
      assert Lookup(bound, x) == if j < |all| then Some(all[j]) else Lookup(kwargs, x);
    }
  }

  lemma InputArgumentsOthers(sig: Signature, args: seq<Value>, kwargs: seq<Entry>)
    requires WellFormed(sig)
    requires VarKeywordName !in ParamNames(sig.params)
    requires Accepts(sig, Placeholder(sig) + args, kwargs)
    ensures InputDictionary(sig, args, kwargs).Success?
    ensures var r := InputDictionary(sig, args, kwargs).value;
      && (SelfName in ParamNames(sig.params) ==> Lookup(r, SelfName) == None)
      && (forall k :: k !in ParamNames(sig.params) ==> Lookup(r, k) == Lookup(kwargs, k))
  {
    var all := Placeholder(sig) + args;
    InputArgumentsSucceedsIff(sig, args, kwargs);
    BindSucceedsIff(sig, all, kwargs);
    KwargsEntry(sig, all, kwargs);
    BindValues(sig, all, kwargs);
    var bound := Bind(sig, all, kwargs).value;
    var extra := Leftover(sig, kwargs);
    var r := InputDictionary(sig, args, kwargs).value;
    assert r == Update(Without(bound, {SelfName, VarKeywordName}), extra);
    forall k | k !in ParamNames(sig.params)
      ensures Lookup(r, k) == Lookup(kwargs, k)
    {
      if k !in Keys(kwargs) && k != SelfName && k != VarKeywordName {
        assert k !in Keys(bound);
      }
    }
  }

  /** A `kwargs=` keyword is not unpacked: called on `f(x, **kwargs)` as
      `f(1, kwargs={"y": 2})`, the dictionary keeps `{"y": 2}` nested under
      the name `kwargs` and has no entry `y` beside `x`. */
  lemma KwargsKeywordNested()
    ensures var sig := Signature([Param("x", None)], true);
            var inner := VMap([Entry("y", VInt(2))]);
            var r := InputArguments(sig, [VInt(1)], [Entry(VarKeywordName, inner)]);
            && r.Success?
            && Lookup(r.value, "x") == Some(VInt(1))
            && Lookup(r.value, VarKeywordName) == Some(inner)
            && Lookup(r.value, "y") == None
  {
    var sig := Signature([Param("x", None)], true);
    var inner := VMap([Entry("y", VInt(2))]);
    var kw := [Entry(VarKeywordName, inner)];
    assert Keys(kw) == {VarKeywordName} by {
      assert kw[..0] == [];
    }
    assert ParamNames(sig.params) == {"x"} by {
      assert sig.params[0].name == "x";
      assert forall n :: n in ParamNames(sig.params) ==> n == "x";
    }
    assert Placeholder(sig) == [];
    assert [] + [VInt(1)] == [VInt(1)];
    assert Declared(sig)[0].name == "x";
    InputArgumentsContents(sig, [VInt(1)], kw);
    assert Lookup(kw, "y") == None;
    assert Lookup(kw, VarKeywordName) == Some(inner);
  }
}

=== FILE: llm_attributes.dfy ===
/** The attribute helpers of the model wrapper: input and output messages,
    invocation parameters, tool schemas, and the input and output value
    with their mime type. Each yields `(key, value)` pairs, modelled as an
    entry sequence in yield order. */
module LlmAttributes {
  import opened Values
  import opened Results
  import opened Dicts
  import opened Semconv
  import Flatten

  /** The attributes of the elements of a list, element `i`'s own attributes
      keyed under `base.i.`; `i` is the element's position in the list,
      whether or not earlier elements contributed anything. */
  function Enumerated(base: string, items: seq<Value>, each: Value -> seq<Entry>): seq<Entry>
    decreases |items|
  {
    if items == [] then []
    else
      Enumerated(base, items[..|items| - 1], each)
      + Flatten.Prefixed(Flatten.IndexPrefix(base, |items| - 1), each(items[|items| - 1]))
  }

  /** A single attribute when there is a value, none otherwise. */
  function Optional(key: string, v: Option<Value>): seq<Entry> {
    match v
    case Some(x) => [Entry(key, x)]
    case None => []
  }

  /** A value unless it is `None`. */
  function Present(v: Value): Option<Value> {
    if v.VNone? then None else Some(v)
  }

  /** `message.get(field, None)` for a dict message, nothing for anything
      else (`isinstance(message, dict)` fails). */
  function DictField(message: Value, field: string): Option<Value> {
    match message
    case VMap(entries) => Present(Get(entries, field, VNone))
    case _ => None
  }

  /** The role and content attributes of one input message, relative to
      its `llm.input_messages.<i>.` prefix. */
  function MessageFields(message: Value): seq<Entry> {
    Optional(MessageRole, DictField(message, "role"))
    + Optional(MessageContent, DictField(message, "content"))
  }

  /** `_llm_input_messages(arguments)`: a `str` prompt is one user message;
      otherwise each dict of a `messages` list at its own index; otherwise
      nothing. */
  function InputMessages(arguments: seq<Entry>): seq<Entry> {
    match Lookup(arguments, "prompt")
    case Some(VStr(prompt)) =>
      [ Entry(Flatten.IndexPrefix(LlmInputMessages, 0) + MessageRole, VStr("user")),
        Entry(Flatten.IndexPrefix(LlmInputMessages, 0) + MessageContent, VStr(prompt)) ]
    case _ =>
      match Lookup(arguments, "messages")
      case Some(VList(messages)) => Enumerated(LlmInputMessages, messages, MessageFields)
      case _ => []
  }

  /** `_llm_output_messages(output_message)`, given what
      `getattr(output_message, "role", None)` and
      `getattr(output_message, "content", None)` return. */
  function OutputMessages(role: Value, content: Value): seq<Entry> {
    Optional(Flatten.IndexPrefix(LlmOutputMessages, 0) + MessageRole, Present(role))
    + Optional(Flatten.IndexPrefix(LlmOutputMessages, 0) + MessageContent, Present(content))
  }

  /** A value that must be a dict, with anything else read as `{}`. */
  function DictOrEmpty(v: Value): seq<Entry> {
    if v.VMap? then v.entries else []
  }

  /** `model_kwargs | kwargs`: the model's `kwargs` attribute (given as
      `getattr(model, "kwargs", {})`) updated with the call's `kwargs`
      argument. */
  function InvocationParameterMap(modelKwargs: Value, arguments: seq<Entry>): seq<Entry> {
    Update(DictOrEmpty(modelKwargs), DictOrEmpty(Get(arguments, "kwargs", VNone)))
  }

  /** `_llm_invocation_parameters(model, arguments)`. */
  function InvocationParameters(dumps: Value -> string, modelKwargs: Value, arguments: seq<Entry>): seq<Entry> {
    [Entry(LlmInvocationParameters, VStr(dumps(VMap(InvocationParameterMap(modelKwargs, arguments)))))]
  }

  /** `_input_value_and_mime_type(arguments)`. */
  function InputValueAndMimeType(dumps: Value -> string, arguments: seq<Entry>): seq<Entry> {
    [Entry(InputMimeType, VStr(Json)), Entry(InputValue, VStr(dumps(VMap(arguments))))]
  }

  /** `_output_value_and_mime_type(output)`, given what
      `output.model_dump_json()` returns. */
  function OutputValueAndMimeType(dumped: string): seq<Entry> {
    [Entry(OutputMimeType, VStr(Json)), Entry(OutputValue, VStr(dumped))]
  }

  /** The schema attribute of one tool, relative to its `llm.tools.<i>.`
      prefix: present only for instances of the smolagents `Tool` class. */
  function ToolFields(dumps: Value -> string, isTool: Value -> bool, schema: Value -> Value, tool: Value): seq<Entry> {
    if isTool(tool) then [Entry(ToolJsonSchema, VStr(dumps(schema(tool))))] else []
  }

  /** `_llm_tools(tools_to_call_from)`: nothing unless it is a list. */
  function Tools(dumps: Value -> string, isTool: Value -> bool, schema: Value -> Value, tools: Value): seq<Entry> {
    match tools
    case VList(items) => Enumerated(LlmTools, items, t => ToolFields(dumps, isTool, schema, t))
    case _ => []
  }
}

=== FILE: llm_properties.dfy ===
/** What the model-wrapper attribute helpers record, stated key by key:
    which attribute a message field or a tool schema ends up under, and
    which value it has there. */
module LlmProperties {
  import opened Values
  import opened Results
  import opened Dicts
  import opened Semconv
  import opened LlmAttributes
  import Text
  import Flatten

  /** An index key can be read back: `base.i.x` names one index and one
      sub-key. */
  lemma IndexPrefixInjective(base: string, i: nat, j: nat, x: string, y: string)
    requires Flatten.IndexPrefix(base, i) + x == Flatten.IndexPrefix(base, j) + y
    ensures i == j && x == y
  {
    var l := Flatten.IndexPrefix(base, i) + x;
    var r := Flatten.IndexPrefix(base, j) + y;
    assert l == (base + ".") + (Text.NatToString(i) + "." + x);
    assert r == (base + ".") + (Text.NatToString(j) + "." + y);
    assert l[|base| + 1..] == Text.NatToString(i) + "." + x;
    assert r[|base| + 1..] == Text.NatToString(j) + "." + y;
    Text.NumberDotInjective(i, j, x, y);
  }

  lemma {:induction false} PrefixedLookup(p: string, es: seq<Entry>, k: string)
    ensures Lookup(Flatten.Prefixed(p, es), p + k) == Lookup(es, k)
    decreases |es|
  {
    if es != [] {
      var n := |es|;
      assert Flatten.Prefixed(p, es)[..n - 1] == Flatten.Prefixed(p, es[..n - 1]);
      PrefixedLookup(p, es[..n - 1], k);
      var last := es[n - 1].key;
      if p + last == p + k {
        assert last == (p + last)[|p|..];
        assert k == (p + k)[|p|..];
      }
    }
  }

  lemma PrefixedKeys(p: string, es: seq<Entry>)
    ensures forall key :: key in Keys(Flatten.Prefixed(p, es)) ==>
              exists k :: k in Keys(es) && key == p + k
  {
    forall key | key in Keys(Flatten.Prefixed(p, es))
      ensures exists k :: k in Keys(es) && key == p + k
    {
      KeysIndex(Flatten.Prefixed(p, es), key);
      var j :| 0 <= j < |es| && Flatten.Prefixed(p, es)[j].key == key;
      KeysIndex(es, es[j].key);
    }
  }

  /** Every attribute of an enumeration sits under the prefix of an element
      that has that sub-key. */
  lemma {:induction false} EnumeratedKeys(base: string, items: seq<Value>, each: Value -> seq<Entry>)
    ensures forall key :: key in Keys(Enumerated(base, items, each)) ==>
              exists i, k :: 0 <= i < |items| && k in Keys(each(items[i])) && key == Flatten.IndexPrefix(base, i) + k
    decreases |items|
  {
    if items != [] {
      var n := |items|;
      var init := items[..n - 1];
      var a := Enumerated(base, init, each);
      var b := Flatten.Prefixed(Flatten.IndexPrefix(base, n - 1), each(items[n - 1]));
      EnumeratedKeys(base, init, each);
      PrefixedKeys(Flatten.IndexPrefix(base, n - 1), each(items[n - 1]));
      KeysAppend(a, b);
      forall key | key in Keys(a + b)
        ensures exists i, k :: 0 <= i < n && k in Keys(each(items[i])) && key == Flatten.IndexPrefix(base, i) + k
      {
        if key in Keys(a) {
          var i, k :| 0 <= i < n - 1 && k in Keys(each(init[i])) && key == Flatten.IndexPrefix(base, i) + k;
          assert init[i] == items[i];
        }
      }
    }
  }

  /** Element `i`'s own attribute `k` is the enumeration's attribute
      `base.i.k`, whatever the other elements contribute. */
  lemma {:induction false} EnumeratedLookup(base: string, items: seq<Value>, each: Value -> seq<Entry>, i: nat, k: string)
    requires i < |items|
    ensures Lookup(Enumerated(base, items, each), Flatten.IndexPrefix(base, i) + k) == Lookup(each(items[i]), k)
    decreases |items|
  {
    var n := |items|;
    var init := items[..n - 1];
    var a := Enumerated(base, init, each);
    var p := Flatten.IndexPrefix(base, n - 1);
    var b := Flatten.Prefixed(p, each(items[n - 1]));
    var key := Flatten.IndexPrefix(base, i) + k;
    LookupAppend(a, b, key);
    if i == n - 1 {
      PrefixedLookup(p, each(items[n - 1]), k);
      if key !in Keys(b) {
        EnumeratedKeys(base, init, each);
        if key in Keys(a) {
          var j, k' :| 0 <= j < n - 1 && k' in Keys(each(init[j])) && key == Flatten.IndexPrefix(base, j) + k';
          IndexPrefixInjective(base, i, j, k, k');
        }
      }
    } else {
      PrefixedKeys(p, each(items[n - 1]));
      if key in Keys(b) {
        var k' :| k' in Keys(each(items[n - 1])) && key == p + k';
        IndexPrefixInjective(base, i, n - 1, k, k');
      }
      EnumeratedLookup(base, init, each, i, k);
      assert init[i] == items[i];
    }
  }

  /** A `str` prompt is recorded as message 0 with role `"user"`, and it
      is the only thing recorded. */
  lemma InputMessagesPrompt(arguments: seq<Entry>, prompt: string)
    requires Lookup(arguments, "prompt") == Some(VStr(prompt))
    ensures var r := InputMessages(arguments);
            var p := Flatten.IndexPrefix(LlmInputMessages, 0);
      && Lookup(r, p + MessageRole) == Some(VStr("user"))
      && Lookup(r, p + MessageContent) == Some(VStr(prompt))
      && Keys(r) == {p + MessageRole, p + MessageContent}
  {
    var p := Flatten.IndexPrefix(LlmInputMessages, 0);
    var r := InputMessages(arguments);
    assert r[..1] == [Entry(p + MessageRole, VStr("user"))];
    assert (p + MessageRole)[|p|..] != (p + MessageContent)[|p|..];
    KeysAppend(r[..1], [r[1]]);
    assert r == r[..1] + [r[1]];
  }

  /** The prompt wins: with a `str` prompt, the messages are not looked at. */
  lemma PromptWins(a: seq<Entry>, b: seq<Entry>, prompt: string)
    requires Lookup(a, "prompt") == Some(VStr(prompt))
    requires Lookup(b, "prompt") == Some(VStr(prompt))
    ensures InputMessages(a) == InputMessages(b)
  {
  }

  /** Without a `str` prompt, the messages list is enumerated. */
  lemma InputMessagesListed(arguments: seq<Entry>, messages: seq<Value>)
    requires !(Lookup(arguments, "prompt").Some? && Lookup(arguments, "prompt").value.VStr?)
    requires Lookup(arguments, "messages") == Some(VList(messages))
    ensures InputMessages(arguments) == Enumerated(LlmInputMessages, messages, MessageFields)
  {
  }

  /** Without a `str` prompt, message `i` of a `messages` list is recorded
      at index `i`: its role and its content, each only when it is a dict
      with a non-`None` value for it. */
  lemma InputMessagesFromList(arguments: seq<Entry>, messages: seq<Value>, i: nat)
    requires !(Lookup(arguments, "prompt").Some? && Lookup(arguments, "prompt").value.VStr?)
    requires Lookup(arguments, "messages") == Some(VList(messages))
    requires i < |messages|
    ensures Lookup(InputMessages(arguments), Flatten.IndexPrefix(LlmInputMessages, i) + MessageRole)
         == DictField(messages[i], "role")
    ensures Lookup(InputMessages(arguments), Flatten.IndexPrefix(LlmInputMessages, i) + MessageContent)
         == DictField(messages[i], "content")
  {
    InputMessagesListed(arguments, messages);
    EnumeratedLookup(LlmInputMessages, messages, MessageFields, i, MessageRole);
    EnumeratedLookup(LlmInputMessages, messages, MessageFields, i, MessageContent);
    MessageFieldsLookup(messages[i]);
  }

  /** ... and every recorded attribute is such a field of a dict message. */
  lemma InputMessagesOnlyFields(arguments: seq<Entry>, messages: seq<Value>)
    requires !(Lookup(arguments, "prompt").Some? && Lookup(arguments, "prompt").value.VStr?)
    requires Lookup(arguments, "messages") == Some(VList(messages))
    ensures forall key :: key in Keys(InputMessages(arguments)) ==>
              exists i :: 0 <= i < |messages| && messages[i].VMap? &&
                (key == Flatten.IndexPrefix(LlmInputMessages, i) + MessageRole ||
                 key == Flatten.IndexPrefix(LlmInputMessages, i) + MessageContent)
  {
    InputMessagesListed(arguments, messages);
    EnumeratedOnlyFields(messages);
  }

  lemma EnumeratedOnlyFields(messages: seq<Value>)
    ensures forall key :: key in Keys(Enumerated(LlmInputMessages, messages, MessageFields)) ==>
              exists i :: 0 <= i < |messages| && messages[i].VMap? &&
                (key == Flatten.IndexPrefix(LlmInputMessages, i) + MessageRole ||
                 key == Flatten.IndexPrefix(LlmInputMessages, i) + MessageContent)
  {
    EnumeratedKeys(LlmInputMessages, messages, MessageFields);
    forall key | key in Keys(Enumerated(LlmInputMessages, messages, MessageFields))
      ensures exists i :: 0 <= i < |messages| && messages[i].VMap? &&
                (key == Flatten.IndexPrefix(LlmInputMessages, i) + MessageRole ||
                 key == Flatten.IndexPrefix(LlmInputMessages, i) + MessageContent)
    {
      var i, k :| 0 <= i < |messages| && k in Keys(MessageFields(messages[i]))
                  && key == Flatten.IndexPrefix(LlmInputMessages, i) + k;
      FieldKey(messages[i], k);
    }
  }

  /** A sub-key a message contributes is its role or its content, and only
      a dict contributes any. */
  lemma FieldKey(message: Value, k: string)
    requires k in Keys(MessageFields(message))
    ensures message.VMap? && (k == MessageRole || k == MessageContent)
  {
    MessageFieldsLookup(message);
  }

  /** The relative attributes of one message: its role under
      `message.role`, its content under `message.content`, nothing else, and
      nothing at all for a non-dict. */
  lemma MessageFieldsLookup(message: Value)
    ensures Lookup(MessageFields(message), MessageRole) == DictField(message, "role")
    ensures Lookup(MessageFields(message), MessageContent) == DictField(message, "content")
    ensures Keys(MessageFields(message)) <= {MessageRole, MessageContent}
    ensures !message.VMap? ==> MessageFields(message) == []
  {
    var a := Optional(MessageRole, DictField(message, "role"));
    var b := Optional(MessageContent, DictField(message, "content"));
    assert MessageRole[8] != MessageContent[8];
    assert Lookup(b, MessageRole) == None;
    assert Lookup(a, MessageContent) == None;
    LookupAppend(a, b, MessageRole);
    LookupAppend(a, b, MessageContent);
    KeysAppend(a, b);
  }

  /** With neither a `str` prompt nor a `messages` list there is nothing to
      record. */
  lemma InputMessagesNothing(arguments: seq<Entry>)
    requires !(Lookup(arguments, "prompt").Some? && Lookup(arguments, "prompt").value.VStr?)
    requires !(Lookup(arguments, "messages").Some? && Lookup(arguments, "messages").value.VList?)
    ensures InputMessages(arguments) == []
  {
  }

  /** The output message is recorded exactly as an input dict message with
      the same role and content would be, as message 0 of
      `llm.output_messages`. */
  lemma OutputIsMessageZero(role: Value, content: Value)
    ensures OutputMessages(role, content)
         == Flatten.Prefixed(Flatten.IndexPrefix(LlmOutputMessages, 0),
                             MessageFields(VMap([Entry("role", role), Entry("content", content)])))
  {
    var m := [Entry("role", role), Entry("content", content)];
    assert Get(m, "content", VNone) == content;
    assert Get(m, "role", VNone) == role by {
      assert m[..1] == [Entry("role", role)];
    }
  }

  /** A value read as a dict, key by key: nothing for a non-dict. */
  function DictValue(d: Value, k: string): Option<Value> {
    if d.VMap? then Lookup(d.entries, k) else None
  }

  /** `_llm_invocation_parameters` records one attribute, the serialised
      union of the model's `kwargs` and the call's `kwargs` argument, where
      the call's value wins for a key both have and a non-dict on either
      side adds nothing. */
  lemma InvocationParametersUnion(dumps: Value -> string, modelKwargs: Value, arguments: seq<Entry>)
    ensures var r := InvocationParameters(dumps, modelKwargs, arguments);
            var m := InvocationParameterMap(modelKwargs, arguments);
      && |r| == 1
      && r[0] == Entry(LlmInvocationParameters, VStr(dumps(VMap(m))))
      && (forall k :: Lookup(m, k)
            == if DictValue(Get(arguments, "kwargs", VNone), k).Some?
               then DictValue(Get(arguments, "kwargs", VNone), k)
               else DictValue(modelKwargs, k))
  {
  }

  /** Tool `i` of a `tools_to_call_from` list has its schema recorded at
      index `i` exactly when it is a `Tool`; other elements are skipped
      without renumbering, and a non-list records nothing. */
  lemma ToolsLookup(dumps: Value -> string, isTool: Value -> bool, schema: Value -> Value, tools: Value)
    ensures !tools.VList? ==> Tools(dumps, isTool, schema, tools) == []
    ensures tools.VList? ==> forall i :: 0 <= i < |tools.items| ==>
              Lookup(Tools(dumps, isTool, schema, tools), Flatten.IndexPrefix(LlmTools, i) + ToolJsonSchema)
              == if isTool(tools.items[i]) then Some(VStr(dumps(schema(tools.items[i])))) else None
  {
    if tools.VList? {
      var each := t => ToolFields(dumps, isTool, schema, t);
      forall i | 0 <= i < |tools.items|
        ensures Lookup(Tools(dumps, isTool, schema, tools), Flatten.IndexPrefix(LlmTools, i) + ToolJsonSchema)
             == if isTool(tools.items[i]) then Some(VStr(dumps(schema(tools.items[i])))) else None
      {
        EnumeratedLookup(LlmTools, tools.items, each, i, ToolJsonSchema);
      }
    }
  }

  /** Every key of `es` begins with `p`. */
  predicate KeysUnder(es: seq<Entry>, p: string) {
    forall key :: key in Keys(es) ==> |p| <= |key| && key[..|p|] == p
  }

  /** An enumeration under `base` writes only keys under `base.`. */
  lemma EnumeratedUnder(base: string, items: seq<Value>, each: Value -> seq<Entry>)
    ensures KeysUnder(Enumerated(base, items, each), base + ".")
  {
    EnumeratedKeys(base, items, each);
    forall key | key in Keys(Enumerated(base, items, each))
      ensures |base + "."| <= |key| && key[..|base + "."|] == base + "."
    {
      var i, k :| 0 <= i < |items| && k in Keys(each(items[i])) && key == Flatten.IndexPrefix(base, i) + k;
      assert key == (base + ".") + (Text.NatToString(i) + "." + k);
    }
  }

  lemma PromptMessagesUnder(prompt: string)
    ensures var p := Flatten.IndexPrefix(LlmInputMessages, 0);
            KeysUnder([Entry(p + MessageRole, VStr("user")), Entry(p + MessageContent, VStr(prompt))], LlmInputMessages + ".")
  {
    var p := Flatten.IndexPrefix(LlmInputMessages, 0);
    assert p + MessageRole == (LlmInputMessages + ".") + (Text.NatToString(0) + "." + MessageRole);
    assert p + MessageContent == (LlmInputMessages + ".") + (Text.NatToString(0) + "." + MessageContent);
    var role := Entry(p + MessageRole, VStr("user"));
    var content := Entry(p + MessageContent, VStr(prompt));
    KeysAppend([role], [content]);
    assert [role, content] == [role] + [content];
  }

  /** The input messages write only `llm.input_messages.` keys. */
  lemma InputMessagesUnder(arguments: seq<Entry>)
    ensures KeysUnder(InputMessages(arguments), LlmInputMessages + ".")
  {
    match Lookup(arguments, "prompt")
    case Some(VStr(prompt)) => PromptMessagesUnder(prompt);
    case _ =>
      match Lookup(arguments, "messages")
      case Some(VList(messages)) => EnumeratedUnder(LlmInputMessages, messages, MessageFields);
      case _ =>
  }

  /** The output message writes only `llm.output_messages.` keys. */
  lemma OutputMessagesUnder(role: Value, content: Value)
    ensures KeysUnder(OutputMessages(role, content), LlmOutputMessages + ".")
  {
    var p := Flatten.IndexPrefix(LlmOutputMessages, 0);
    assert p + MessageRole == (LlmOutputMessages + ".") + (Text.NatToString(0) + "." + MessageRole);
    assert p + MessageContent == (LlmOutputMessages + ".") + (Text.NatToString(0) + "." + MessageContent);
    KeysAppend(Optional(p + MessageRole, Present(role)), Optional(p + MessageContent, Present(content)));
  }

  /** The tool schemas write only `llm.tools.` keys. */
  lemma ToolsUnder(dumps: Value -> string, isTool: Value -> bool, schema: Value -> Value, tools: Value)
    ensures KeysUnder(Tools(dumps, isTool, schema, tools), LlmTools + ".")
  {
    if tools.VList? {
      EnumeratedUnder(LlmTools, tools.items, t => ToolFields(dumps, isTool, schema, t));
    }
  }
}

=== FILE: model_properties.dfy ===
/** What the LLM span of a model call records, on each way the call can
    end, and which part of the start attributes wins for a key. */
module ModelProperties {
  import opened Values
  import opened Results
  import opened Dicts
  import opened Binding
  import opened Spans
  import opened SpanProperties
  import opened Semconv
  import opened Wrapping
  import opened LlmAttributes
  import opened LlmProperties
  import opened ModelWrapper

  /** The arguments of a call that binds. */
  function Arguments(call: Call): seq<Entry>
    requires BindArguments(call.signature, call.args, call.kwargs).Success?
  {
    BindArguments(call.signature, call.args, call.kwargs).value
  }

  lemma CountsShape(model: ModelInstance)
    ensures Quiet(Counts(model)) && (forall i :: 0 <= i < |Counts(model)| ==> !Counts(model)[i].SetStatus?)
  {
  }

  /** What follows the counts sets OK status once, as its second event. */
  lemma RecordedShape(env: Env, tools: ToolReader, arguments: seq<Entry>, output: Value, message: OutputMessage, total: Value)
    ensures var rec := Recorded(env, tools, arguments, output, message, total);
      && |rec| == 5 && Quiet(rec)
      && rec[1] == SetStatus(StatusOk)
      && (forall i :: 2 <= i < |rec| ==> !rec[i].SetStatus?)
  {
  }

  lemma OutputJsonShape(message: OutputMessage)
    ensures Quiet(OutputJson(message))
    ensures forall i :: 0 <= i < |OutputJson(message)| ==> !OutputJson(message)[i].SetStatus?
  {
  }

  /** The events after the call returned on a bound model, piece by piece. */
  lemma AfterReturnShape(env: Env, tools: ToolReader, model: ModelInstance, arguments: seq<Entry>, output: Value, message: OutputMessage)
    ensures var body := AfterReturn(env, tools, model, arguments, output, message).0;
            var sum := TokenSum(model.lastInputTokens, model.lastOutputTokens);
      && Quiet(body)
      && (sum.Failure? ==> body == Counts(model))
      && (sum.Success? ==> body == Counts(model) + Recorded(env, tools, arguments, output, message, sum.value) + OutputJson(message))
  {
    var sum := TokenSum(model.lastInputTokens, model.lastOutputTokens);
    CountsShape(model);
    if sum.Success? {
      RecordedShape(env, tools, arguments, output, message, sum.value);
      OutputJsonShape(message);
      QuietAppend(Counts(model), Recorded(env, tools, arguments, output, message, sum.value));
      QuietAppend(Counts(model) + Recorded(env, tools, arguments, output, message, sum.value), OutputJson(message));
    }
  }

  /** The events between the start and the end of the span. */
  function Body(env: Env, tools: ToolReader, instance: Option<ModelInstance>, arguments: seq<Entry>,
                outcome: Outcome, message: OutputMessage): seq<Event> {
    match outcome
    case Raised(e) => Handled(e)
    case Returned(output) =>
      match instance
      case None => []
      case Some(model) => AfterReturn(env, tools, model, arguments, output, message).0
  }

  lemma ModelEvents(env: Env, ctx: Context, tools: ToolReader, call: Call, wrappedName: string,
                    instance: Option<ModelInstance>, outcome: Outcome, message: OutputMessage)
    requires !ctx.suppressed && BindArguments(call.signature, call.args, call.kwargs).Success?
    ensures Model(env, ctx, tools, call, wrappedName, instance, outcome, message).events
         == Span(SpanName(instance, wrappedName), StartAttributes(env, ctx, instance, Arguments(call)),
                 Body(env, tools, instance, Arguments(call), outcome, message))
  {
  }

  /** What the caller gets once the model returned `output`. */
  lemma ModelReturnOutcome(env: Env, ctx: Context, tools: ToolReader, call: Call, wrappedName: string,
                           instance: Option<ModelInstance>, output: Value, message: OutputMessage)
    requires !ctx.suppressed && BindArguments(call.signature, call.args, call.kwargs).Success?
    ensures Model(env, ctx, tools, call, wrappedName, instance, Returned(output), message).outcome
         == match instance
            case None => Raised(AttributeError("NoneType", "last_input_token_count"))
            case Some(model) => AfterReturn(env, tools, model, Arguments(call), output, message).1
  {
  }

  lemma BodyRaised(env: Env, tools: ToolReader, instance: Option<ModelInstance>, arguments: seq<Entry>,
                    e: Exception, message: OutputMessage, name: string, attrs: seq<Entry>)
    ensures var events := Span(name, attrs, Body(env, tools, instance, arguments, Raised(e), message));
      && OneSpan(events)
      && (e.isException ==> LastStatus(events) == Some(StatusError(e.message)) && NeverOk(events))
      && (!e.isException ==> LastStatus(events) == None && Unmarked(events))
  {
    assert [] + Handled(e) == Handled(e);
    SpanHandled(name, attrs, [], e);
  }

  /** After the counts, OK is set once and never replaced. */
  lemma OkAfterCounts(env: Env, tools: ToolReader, model: ModelInstance, arguments: seq<Entry>,
                      output: Value, message: OutputMessage, total: Value)
    ensures LastStatus(Counts(model) + Recorded(env, tools, arguments, output, message, total) + OutputJson(message)) == Some(StatusOk)
  {
    var rec := Recorded(env, tools, arguments, output, message, total);
    RecordedShape(env, tools, arguments, output, message, total);
    OutputJsonShape(message);
    var post := rec[2..] + OutputJson(message);
    forall i | 0 <= i < |post|
      ensures !post[i].SetStatus?
    {
      if i < |rec[2..]| {
        assert post[i] == rec[i + 2];
      } else {
        assert post[i] == OutputJson(message)[i - |rec[2..]|];
      }
    }
    assert Counts(model) + rec + OutputJson(message) == (Counts(model) + rec[..1]) + [SetStatus(StatusOk)] + post;
    StatusSetLast(Counts(model) + rec[..1], StatusOk, post);
  }

  lemma BodyReturned(env: Env, tools: ToolReader, instance: Option<ModelInstance>, arguments: seq<Entry>,
                     output: Value, message: OutputMessage, name: string, attrs: seq<Entry>)
    ensures var events := Span(name, attrs, Body(env, tools, instance, arguments, Returned(output), message));
      && OneSpan(events)
      && (instance.Some? && TokenSum(instance.value.lastInputTokens, instance.value.lastOutputTokens).Success? ==>
            LastStatus(events) == Some(StatusOk))
      && (instance.None? || TokenSum(instance.value.lastInputTokens, instance.value.lastOutputTokens).Failure? ==>
            LastStatus(events) == None)
  {
    var body := Body(env, tools, instance, arguments, Returned(output), message);
    SpanStatus(name, attrs, body);
    if instance.Some? {
      var model := instance.value;
      AfterReturnShape(env, tools, model, arguments, output, message);
      var sum := TokenSum(model.lastInputTokens, model.lastOutputTokens);
      if sum.Success? {
        OkAfterCounts(env, tools, model, arguments, output, message, sum.value);
      } else {
        CountsShape(model);
        NoStatus(body);
      }
    } else {
      NoStatus(body);
    }
  }

  lemma BodyLifecycle(env: Env, tools: ToolReader, instance: Option<ModelInstance>, arguments: seq<Entry>,
                      outcome: Outcome, message: OutputMessage, name: string, attrs: seq<Entry>)
    ensures var events := Span(name, attrs, Body(env, tools, instance, arguments, outcome, message));
      && OneSpan(events)
      && (outcome.Raised? && outcome.error.isException ==>
            LastStatus(events) == Some(StatusError(outcome.error.message)) && NeverOk(events))
      && (outcome.Raised? && !outcome.error.isException ==> LastStatus(events) == None && Unmarked(events))
      && (outcome.Returned? && instance.Some? &&
          TokenSum(instance.value.lastInputTokens, instance.value.lastOutputTokens).Success? ==>
            LastStatus(events) == Some(StatusOk))
      && (outcome.Returned? &&
          (instance.None? || TokenSum(instance.value.lastInputTokens, instance.value.lastOutputTokens).Failure?) ==>
            LastStatus(events) == None)
  {
    match outcome
    case Raised(e) => BodyRaised(env, tools, instance, arguments, e, message, name, attrs);
    case Returned(output) => BodyReturned(env, tools, instance, arguments, output, message, name, attrs);
  }

  /** Unless suppressed, a call that binds gets one LLM span. A model that
      raises an `Exception` ends it with ERROR status carrying
      `str(exception)` and no OK; one that raises another `BaseException`
      ends it with no status and nothing recorded; a bound model whose
      token counts add up ends it with OK. */
  lemma ModelLifecycle(env: Env, ctx: Context, tools: ToolReader, call: Call, wrappedName: string,
                       instance: Option<ModelInstance>, outcome: Outcome, message: OutputMessage)
    requires !ctx.suppressed && BindArguments(call.signature, call.args, call.kwargs).Success?
    ensures var r := Model(env, ctx, tools, call, wrappedName, instance, outcome, message);
      && OneSpan(r.events)
      && (outcome.Raised? && outcome.error.isException ==>
            LastStatus(r.events) == Some(StatusError(outcome.error.message)) && NeverOk(r.events))
      && (outcome.Raised? && !outcome.error.isException ==> LastStatus(r.events) == None && Unmarked(r.events))
      && (outcome.Returned? && instance.Some? &&
          TokenSum(instance.value.lastInputTokens, instance.value.lastOutputTokens).Success? ==>
            LastStatus(r.events) == Some(StatusOk))
  {
    ModelEvents(env, ctx, tools, call, wrappedName, instance, outcome, message);
    BodyLifecycle(env, tools, instance, Arguments(call), outcome, message,
                  SpanName(instance, wrappedName), StartAttributes(env, ctx, instance, Arguments(call)));
  }

  /** When the message has no `model_dump_json`, the span ends with OK
      status while the caller gets `AttributeError`: the model call
      succeeded, the wrapper did not. */
  lemma ModelOkYetRaises(env: Env, ctx: Context, tools: ToolReader, call: Call, wrappedName: string,
                         model: ModelInstance, output: Value, message: OutputMessage)
    requires !ctx.suppressed && BindArguments(call.signature, call.args, call.kwargs).Success?
    requires TokenSum(model.lastInputTokens, model.lastOutputTokens).Success?
    requires message.dumpedJson.None?
    ensures var r := Model(env, ctx, tools, call, wrappedName, Some(model), Returned(output), message);
      && LastStatus(r.events) == Some(StatusOk)
      && r.outcome == Raised(AttributeError(TypeName(output), "model_dump_json"))
  {
    ModelLifecycle(env, ctx, tools, call, wrappedName, Some(model), Returned(output), message);
  }

  /** An unbound model makes the wrapper raise `AttributeError` after the
      model returned, and the span ends with no status. */
  lemma ModelUnbound(env: Env, ctx: Context, tools: ToolReader, call: Call, wrappedName: string,
                     output: Value, message: OutputMessage)
    requires !ctx.suppressed && BindArguments(call.signature, call.args, call.kwargs).Success?
    ensures var r := Model(env, ctx, tools, call, wrappedName, None, Returned(output), message);
      && LastStatus(r.events) == None
      && r.outcome == Raised(AttributeError("NoneType", "last_input_token_count"))
  {
    ModelEvents(env, ctx, tools, call, wrappedName, None, Returned(output), message);
    BodyLifecycle(env, tools, None, Arguments(call), Returned(output), message,
                  wrappedName, StartAttributes(env, ctx, None, Arguments(call)));
  }

  /** A token count that is still `None` makes the wrapper raise
      `TypeError` after the model returned, and the span ends with no
      status. */
  lemma ModelTokensUnsummable(env: Env, ctx: Context, tools: ToolReader, call: Call, wrappedName: string,
                              model: ModelInstance, output: Value, message: OutputMessage)
    requires !ctx.suppressed && BindArguments(call.signature, call.args, call.kwargs).Success?
    requires model.lastInputTokens.VNone? || model.lastOutputTokens.VNone?
    ensures var r := Model(env, ctx, tools, call, wrappedName, Some(model), Returned(output), message);
      && LastStatus(r.events) == None
      && r.outcome.Raised? && r.outcome.error.kind == "TypeError"
  {
    ModelEvents(env, ctx, tools, call, wrappedName, Some(model), Returned(output), message);
    ModelReturnOutcome(env, ctx, tools, call, wrappedName, Some(model), output, message);
    BodyLifecycle(env, tools, Some(model), Arguments(call), Returned(output), message,
                  SpanName(Some(model), wrappedName), StartAttributes(env, ctx, Some(model), Arguments(call)));
  }

  lemma NotUnder(es: seq<Entry>, p: string, k: string, i: nat)
    requires KeysUnder(es, p)
    requires i < |p| && i < |k| && k[i] != p[i]
    ensures k !in Keys(es)
  {
  }

  /** A context attribute overrides whatever else the span starts with
      under its key. */
  lemma StartContextWins(env: Env, ctx: Context, instance: Option<ModelInstance>, arguments: seq<Entry>, k: string)
    requires k in Keys(ctx.attributes)
    ensures Lookup(StartAttributes(env, ctx, instance, arguments), k) == Lookup(ctx.attributes, k)
  {
  }

  /** Without the context overriding them, the span starts with the LLM
      kind, the JSON of the bound arguments as input, and the serialised
      invocation parameters: the input messages never write those keys. */
  lemma StartOwnAttributes(env: Env, ctx: Context, instance: Option<ModelInstance>, arguments: seq<Entry>)
    requires OpenInferenceSpanKind !in Keys(ctx.attributes)
    requires InputMimeType !in Keys(ctx.attributes)
    requires InputValue !in Keys(ctx.attributes)
    requires LlmInvocationParameters !in Keys(ctx.attributes)
    ensures var start := StartAttributes(env, ctx, instance, arguments);
      && Lookup(start, OpenInferenceSpanKind) == Some(VStr(LlmKind))
      && Lookup(start, InputMimeType) == Some(VStr(Json))
      && Lookup(start, InputValue) == Some(VStr(env.safeJsonDumps(VMap(arguments))))
      && Lookup(start, LlmInvocationParameters)
         == Some(VStr(env.safeJsonDumps(VMap(InvocationParameterMap(ModelKwargs(instance), arguments)))))
  {
    MessagesAvoidStartKeys(arguments);
    StartBeforeMessages(env, instance, arguments);
  }

  /** The characters that tell the start keys from the input-message
      prefix. */
  lemma KeyCharacters()
    ensures (LlmInputMessages + ".")[0] == 'l' && (LlmInputMessages + ".")[6] == 'p'
    ensures OpenInferenceSpanKind[0] == 'o' && InputMimeType[0] == 'i' && InputValue[0] == 'i'
    ensures LlmInvocationParameters[6] == 'v'
  {
  }

  /** The input messages never write the other start keys. */
  lemma MessagesAvoidStartKeys(arguments: seq<Entry>)
    ensures var keys := Keys(InputMessages(arguments));
      && OpenInferenceSpanKind !in keys && InputMimeType !in keys
      && InputValue !in keys && LlmInvocationParameters !in keys
  {
    var messages := InputMessages(arguments);
    var p := LlmInputMessages + ".";
    KeyCharacters();
    InputMessagesUnder(arguments);
    NotUnder(messages, p, OpenInferenceSpanKind, 0);
    NotUnder(messages, p, InputMimeType, 0);
    NotUnder(messages, p, InputValue, 0);
    NotUnder(messages, p, LlmInvocationParameters, 6);
  }

  /** The start attributes before the input messages and the context. */
  function BeforeMessages(env: Env, instance: Option<ModelInstance>, arguments: seq<Entry>): seq<Entry> {
    Update(Update(
      [Entry(OpenInferenceSpanKind, VStr(LlmKind))],
      InputValueAndMimeType(env.safeJsonDumps, arguments)),
      InvocationParameters(env.safeJsonDumps, ModelKwargs(instance), arguments))
  }

  lemma StartBeforeMessages(env: Env, instance: Option<ModelInstance>, arguments: seq<Entry>)
    ensures var a := BeforeMessages(env, instance, arguments);
      && Lookup(a, OpenInferenceSpanKind) == Some(VStr(LlmKind))
      && Lookup(a, InputMimeType) == Some(VStr(Json))
      && Lookup(a, InputValue) == Some(VStr(env.safeJsonDumps(VMap(arguments))))
      && Lookup(a, LlmInvocationParameters)
         == Some(VStr(env.safeJsonDumps(VMap(InvocationParameterMap(ModelKwargs(instance), arguments)))))
  {
    var io := InputValueAndMimeType(env.safeJsonDumps, arguments);
    KeysAppend([io[0]], [io[1]]);
    assert io == [io[0]] + [io[1]];
  }

  /** The characters that tell the token-count keys from the output-message
      and tool prefixes and from the output keys. */
  lemma TokenKeyCharacters()
    ensures LlmTokenCountPrompt[4] == 't' && LlmTokenCountPrompt[6] == 'k'
    ensures LlmTokenCountCompletion[4] == 't' && LlmTokenCountCompletion[6] == 'k'
    ensures LlmTokenCountTotal[4] == 't' && LlmTokenCountTotal[6] == 'k'
    ensures (LlmOutputMessages + ".")[4] == 'o' && (LlmTools + ".")[6] == 'o'
    ensures OutputValue[0] == 'o' && OutputMimeType[0] == 'o' && LlmTokenCountTotal[0] == 'l'
  {
  }

  lemma OutputJsonKeys(message: OutputMessage)
    ensures forall i :: 0 <= i < |OutputJson(message)| ==>
              OutputJson(message)[i].SetAttributes? && Keys(OutputJson(message)[i].attributes) == {OutputMimeType, OutputValue}
    ensures message.dumpedJson.Some? ==>
              var last := OutputValueAndMimeType(message.dumpedJson.value);
              && Lookup(last, OutputValue) == Some(VStr(message.dumpedJson.value))
              && Lookup(last, OutputMimeType) == Some(VStr(Json))
  {
    if message.dumpedJson.Some? {
      var last := OutputValueAndMimeType(message.dumpedJson.value);
      KeysAppend([last[0]], [last[1]]);
      assert last == [last[0]] + [last[1]];
    }
  }

  /** The output message and the tool schemas never write a key that
      begins like the token counts (`llm.tok`). */
  lemma TokenLikeKeyAvoided(dumps: Value -> string, isTool: Value -> bool, schema: Value -> Value, offered: Value,
                            role: Value, content: Value, k: string)
    requires |k| > 6 && k[4] == 't' && k[6] == 'k'
    ensures k !in Keys(OutputMessages(role, content))
    ensures k !in Keys(Tools(dumps, isTool, schema, offered))
  {
    TokenKeyCharacters();
    OutputMessagesUnder(role, content);
    NotUnder(OutputMessages(role, content), LlmOutputMessages + ".", k, 4);
    ToolsUnder(dumps, isTool, schema, offered);
    NotUnder(Tools(dumps, isTool, schema, offered), LlmTools + ".", k, 6);
  }

  lemma RestAvoids(om: seq<Entry>, ts: seq<Entry>, output: Value, message: OutputMessage, k: string)
    requires k !in Keys(om) && k !in Keys(ts)
    requires |k| > 0 && k[0] == 'l'
    ensures Untouched([SetStatus(StatusOk), SetAttribute(OutputValue, output), SetAttributes(om), SetAttributes(ts)] + OutputJson(message), k)
  {
    TokenKeyCharacters();
    var a := [SetStatus(StatusOk), SetAttribute(OutputValue, output), SetAttributes(om), SetAttributes(ts)];
    assert Untouched(a, k);
    OutputJsonKeys(message);
    assert Untouched(OutputJson(message), k);
    UntouchedAppend(a, OutputJson(message), k);
  }

  /** After the total, the model wrapper never writes a key that begins
      like the token counts again. */
  lemma RestAvoidsTokens(env: Env, tools: ToolReader, arguments: seq<Entry>, output: Value, message: OutputMessage, total: Value, k: string)
    requires |k| > 6 && k[0] == 'l' && k[4] == 't' && k[6] == 'k'
    ensures Untouched(Recorded(env, tools, arguments, output, message, total)[1..] + OutputJson(message), k)
  {
    var offered := Get(arguments, "tools_to_call_from", VList([]));
    var om := OutputMessages(message.role, message.content);
    var ts := Tools(env.safeJsonDumps, tools.isTool, tools.schema, offered);
    TokenLikeKeyAvoided(env.safeJsonDumps, tools.isTool, tools.schema, offered, message.role, message.content, k);
    RestAvoids(om, ts, output, message, k);
    assert Recorded(env, tools, arguments, output, message, total)[1..]
        == [SetStatus(StatusOk), SetAttribute(OutputValue, output), SetAttributes(om), SetAttributes(ts)];
  }

  /** Counts written first and never again are what the span holds. */
  lemma CountsRecorded(name: string, attrs: seq<Entry>, model: ModelInstance, rest: seq<Event>)
    requires IsInteger(model.lastInputTokens) && IsInteger(model.lastOutputTokens)
    requires Untouched(rest, LlmTokenCountPrompt) && Untouched(rest, LlmTokenCountCompletion) && Untouched(rest, LlmTokenCountTotal)
    ensures var held := AttributesOf(Span(name, attrs,
              Counts(model) + [SetAttribute(LlmTokenCountTotal, VInt(IntegerOf(model.lastInputTokens) + IntegerOf(model.lastOutputTokens)))] + rest));
      && LlmTokenCountPrompt in held && held[LlmTokenCountPrompt] == model.lastInputTokens
      && LlmTokenCountCompletion in held && held[LlmTokenCountCompletion] == model.lastOutputTokens
      && LlmTokenCountTotal in held && held[LlmTokenCountTotal] == VInt(IntegerOf(model.lastInputTokens) + IntegerOf(model.lastOutputTokens))
  {
    var c := Counts(model);
    var t := SetAttribute(LlmTokenCountTotal, VInt(IntegerOf(model.lastInputTokens) + IntegerOf(model.lastOutputTokens)));
    TokenKeyCharacters();
    var after0 := [c[1], c[2], t] + rest;
    var after1 := [c[2], t] + rest;
    assert Untouched([c[1], c[2], t], LlmTokenCountPrompt);
    assert Untouched([c[2], t], LlmTokenCountCompletion);
    UntouchedAppend([c[1], c[2], t], rest, LlmTokenCountPrompt);
    UntouchedAppend([c[2], t], rest, LlmTokenCountCompletion);
    assert c + [t] + rest == [] + [c[0]] + after0;
    WrittenInBody(name, attrs, [], c[0], after0, LlmTokenCountPrompt, model.lastInputTokens);
    assert c + [t] + rest == [c[0]] + [c[1]] + after1;
    WrittenInBody(name, attrs, [c[0]], c[1], after1, LlmTokenCountCompletion, model.lastOutputTokens);
    assert c + [t] + rest == c + [t] + rest;
    WrittenInBody(name, attrs, c, t, rest, LlmTokenCountTotal, t.value);
  }

  lemma BodyTokens(env: Env, tools: ToolReader, model: ModelInstance, arguments: seq<Entry>,
                    output: Value, message: OutputMessage, name: string, attrs: seq<Entry>)
    requires IsInteger(model.lastInputTokens) && IsInteger(model.lastOutputTokens)
    ensures var held := AttributesOf(Span(name, attrs, Body(env, tools, Some(model), arguments, Returned(output), message)));
      && LlmTokenCountPrompt in held && held[LlmTokenCountPrompt] == model.lastInputTokens
      && LlmTokenCountCompletion in held && held[LlmTokenCountCompletion] == model.lastOutputTokens
      && LlmTokenCountTotal in held && held[LlmTokenCountTotal] == VInt(IntegerOf(model.lastInputTokens) + IntegerOf(model.lastOutputTokens))
  {
    var total := VInt(IntegerOf(model.lastInputTokens) + IntegerOf(model.lastOutputTokens));
    assert TokenSum(model.lastInputTokens, model.lastOutputTokens) == Success(total);
    AfterReturnShape(env, tools, model, arguments, output, message);
    assert Body(env, tools, Some(model), arguments, Returned(output), message)
        == Counts(model) + Recorded(env, tools, arguments, output, message, total) + OutputJson(message);
    var rec := Recorded(env, tools, arguments, output, message, total);
    var rest := rec[1..] + OutputJson(message);
    assert Counts(model) + rec + OutputJson(message) == Counts(model) + [rec[0]] + rest;
    RecordedAvoidsTokens(env, tools, arguments, output, message, total);
    CountsRecorded(name, attrs, model, rest);
  }

  /** After the total, no event writes a token count. */
  lemma RecordedAvoidsTokens(env: Env, tools: ToolReader, arguments: seq<Entry>, output: Value, message: OutputMessage, total: Value)
    ensures var rest := Recorded(env, tools, arguments, output, message, total)[1..] + OutputJson(message);
      && Untouched(rest, LlmTokenCountPrompt)
      && Untouched(rest, LlmTokenCountCompletion)
      && Untouched(rest, LlmTokenCountTotal)
  {
    TokenKeyCharacters();
    RestAvoidsTokens(env, tools, arguments, output, message, total, LlmTokenCountPrompt);
    RestAvoidsTokens(env, tools, arguments, output, message, total, LlmTokenCountCompletion);
    RestAvoidsTokens(env, tools, arguments, output, message, total, LlmTokenCountTotal);
  }

  /** After a call whose counts add up the span holds the model's token
      counts, the total being their sum, whatever the context says: the
      context attributes are part of the start, and the counts come later. */
  lemma ModelTokenCounts(env: Env, ctx: Context, tools: ToolReader, call: Call, wrappedName: string,
                         model: ModelInstance, output: Value, message: OutputMessage)
    requires !ctx.suppressed && BindArguments(call.signature, call.args, call.kwargs).Success?
    requires IsInteger(model.lastInputTokens) && IsInteger(model.lastOutputTokens)
    ensures var attrs := AttributesOf(Model(env, ctx, tools, call, wrappedName, Some(model), Returned(output), message).events);
      && LlmTokenCountPrompt in attrs && attrs[LlmTokenCountPrompt] == model.lastInputTokens
      && LlmTokenCountCompletion in attrs && attrs[LlmTokenCountCompletion] == model.lastOutputTokens
      && LlmTokenCountTotal in attrs
      && attrs[LlmTokenCountTotal] == VInt(IntegerOf(model.lastInputTokens) + IntegerOf(model.lastOutputTokens))
  {
    ModelEvents(env, ctx, tools, call, wrappedName, Some(model), Returned(output), message);
    BodyTokens(env, tools, model, Arguments(call), output, message,
               SpanName(Some(model), wrappedName), StartAttributes(env, ctx, Some(model), Arguments(call)));
  }

  /** After a fully successful call the span's output is the message's own
      JSON with the JSON mime type, whatever was recorded as output before
      and whatever the context says. */
  lemma ModelOutputIsJson(env: Env, ctx: Context, tools: ToolReader, call: Call, wrappedName: string,
                          model: ModelInstance, output: Value, message: OutputMessage, json: string)
    requires !ctx.suppressed && BindArguments(call.signature, call.args, call.kwargs).Success?
    requires TokenSum(model.lastInputTokens, model.lastOutputTokens).Success?
    requires message.dumpedJson == Some(json)
    ensures var attrs := AttributesOf(Model(env, ctx, tools, call, wrappedName, Some(model), Returned(output), message).events);
      && OutputValue in attrs && attrs[OutputValue] == VStr(json)
      && OutputMimeType in attrs && attrs[OutputMimeType] == VStr(Json)
  {
    ModelEvents(env, ctx, tools, call, wrappedName, Some(model), Returned(output), message);
    var arguments := Arguments(call);
    var name := SpanName(Some(model), wrappedName);
    var attrs := StartAttributes(env, ctx, Some(model), arguments);
    var total := TokenSum(model.lastInputTokens, model.lastOutputTokens).value;
    AfterReturnShape(env, tools, model, arguments, output, message);
    OutputJsonKeys(message);
    var last := OutputValueAndMimeType(json);
    var pre := Counts(model) + Recorded(env, tools, arguments, output, message, total);
    assert OutputJson(message) == [SetAttributes(last)];
    WrittenLast(name, attrs, pre, last, OutputValue);
    WrittenLast(name, attrs, pre, last, OutputMimeType);
  }
}

=== FILE: model_wrapper.dfy ===
/** `_ModelWrapper`: the LLM span around a model call.

    The arguments are bound to the model's signature first; the span starts
    with the span kind, the input value, the invocation parameters, the
    input messages and the context attributes, in that order of precedence
    from last to first. After the call it reads the model's token counts
    and id, then records the output message, the tools offered and the
    output's JSON. */
module ModelWrapper {
  import opened Values
  import opened Results
  import opened Dicts
  import opened Binding
  import opened Spans
  import opened Semconv
  import opened Wrapping
  import opened LlmAttributes

  /** The model the method is bound to: its class name, its `kwargs`
      attribute (`{}` when it has none), its `model_id`, and its
      `last_input_token_count` and `last_output_token_count` once the call
      has returned. */
  datatype ModelInstance = ModelInstance(
    className: string,
    kwargs: Value,
    modelId: Value,
    lastInputTokens: Value,
    lastOutputTokens: Value)

  /** What the wrapper reads from the returned message:
      `getattr(m, "role", None)`, `getattr(m, "content", None)`, and what
      `m.model_dump_json()` returns, `None` when it has no such method. */
  datatype OutputMessage = OutputMessage(role: Value, content: Value, dumpedJson: Option<string>)

  /** `isinstance(tool, Tool)` and `get_json_schema(tool)`. */
  datatype ToolReader = ToolReader(isTool: Value -> bool, schema: Value -> Value)

  /** The model instance, `None` when the wrapped callable is unbound. */
  function SpanName(instance: Option<ModelInstance>, wrappedName: string): string {
    match instance
    case Some(m) => m.className + ".__call__"
    case None => wrappedName
  }

  /** `getattr(instance, "kwargs", {})`. */
  function ModelKwargs(instance: Option<ModelInstance>): Value {
    match instance
    case Some(m) => m.kwargs
    case None => VMap([])
  }

  /** The dict literal the span starts with: later parts override earlier
      ones key by key. */
  function StartAttributes(env: Env, ctx: Context, instance: Option<ModelInstance>, arguments: seq<Entry>): seq<Entry> {
    Update(Update(Update(Update(
      [Entry(OpenInferenceSpanKind, VStr(LlmKind))],
      InputValueAndMimeType(env.safeJsonDumps, arguments)),
      InvocationParameters(env.safeJsonDumps, ModelKwargs(instance), arguments)),
      InputMessages(arguments)),
      ctx.attributes)
  }

  /** The token counts and the model id, read once the call returned. */
  function Counts(model: ModelInstance): seq<Event> {
    [ SetAttribute(LlmTokenCountPrompt, model.lastInputTokens),
      SetAttribute(LlmTokenCountCompletion, model.lastOutputTokens),
      SetAttribute(LlmModelName, model.modelId) ]
  }

  /** The total, the OK status, the output, the output message and the
      tools offered, once the counts add up to `total`. */
  function Recorded(env: Env, tools: ToolReader, arguments: seq<Entry>, output: Value, message: OutputMessage, total: Value): seq<Event> {
    [ SetAttribute(LlmTokenCountTotal, total),
      SetStatus(StatusOk),
      SetAttribute(OutputValue, output),
      SetAttributes(OutputMessages(message.role, message.content)),
      SetAttributes(Tools(env.safeJsonDumps, tools.isTool, tools.schema,
                          Get(arguments, "tools_to_call_from", VList([])))) ]
  }

  /** `_output_value_and_mime_type(output_message)`, when the message can
      be dumped. */
  function OutputJson(message: OutputMessage): seq<Event> {
    match message.dumpedJson
    case None => []
    case Some(json) => [SetAttributes(OutputValueAndMimeType(json))]
  }

  /** The events once the call returned, on a bound model, and what the
      caller gets. */
  function AfterReturn(env: Env, tools: ToolReader, model: ModelInstance, arguments: seq<Entry>,
                       output: Value, message: OutputMessage): (r: (seq<Event>, Outcome))
    ensures r.1.Returned? ==> r.1 == Returned(output)
    ensures TokenSum(model.lastInputTokens, model.lastOutputTokens).Failure? ==>
              r.1 == Raised(TokenSum(model.lastInputTokens, model.lastOutputTokens).error)
    ensures r.1.Returned? <==> TokenSum(model.lastInputTokens, model.lastOutputTokens).Success? && message.dumpedJson.Some?
  {
    match TokenSum(model.lastInputTokens, model.lastOutputTokens)
    case Failure(e) => (Counts(model), Raised(e))
    case Success(total) =>
      var events := Counts(model) + Recorded(env, tools, arguments, output, message, total) + OutputJson(message);
      match message.dumpedJson
      case None => (events, Raised(AttributeError(TypeName(output), "model_dump_json")))
      case Some(_) => (events, Returned(output))
  }

  /** `_ModelWrapper.__call__`. Arguments that do not bind raise
      `TypeError` before any span and the model is not called; otherwise the
      model is called once, and the caller gets what it raised, or what it
      returned unless reading the model or the message fails afterwards. */
  function Model(env: Env, ctx: Context, tools: ToolReader, call: Call, wrappedName: string,
                 instance: Option<ModelInstance>, outcome: Outcome, message: OutputMessage): (r: Interception)
    ensures ctx.suppressed ==> r == Direct(outcome)
    ensures !ctx.suppressed && HelperParameter in Keys(call.kwargs) ==>
              r == Interception([], false, Raised(TypeError(BindingMessage(HelperCollision("_bind_arguments")))))
    ensures !ctx.suppressed && BindArguments(call.signature, call.args, call.kwargs).Failure? ==>
              && r.events == [] && !r.invoked
              && r.outcome == Raised(TypeError(BindingMessage(BindArguments(call.signature, call.args, call.kwargs).error)))
    ensures !ctx.suppressed && BindArguments(call.signature, call.args, call.kwargs).Success? ==>
              && r.invoked
              && |r.events| >= 2
              && r.events[0] == Start(SpanName(instance, wrappedName),
                   StartAttributes(env, ctx, instance, BindArguments(call.signature, call.args, call.kwargs).value))
              && (outcome.Raised? ==> r.outcome == outcome)
              && (r.outcome.Returned? ==> r.outcome == outcome)
  {
    if ctx.suppressed then Direct(outcome)
    else
      match BindArguments(call.signature, call.args, call.kwargs)
      case Failure(b) => Interception([], false, Raised(TypeError(BindingMessage(b))))
      case Success(arguments) =>
        var name := SpanName(instance, wrappedName);
        var attrs := StartAttributes(env, ctx, instance, arguments);
        match outcome
        case Raised(e) => Interception(Span(name, attrs, Handled(e)), true, outcome)
        case Returned(output) =>
          match instance
          case None =>
            Interception(Span(name, attrs, []), true, Raised(AttributeError("NoneType", "last_input_token_count")))
          case Some(model) =>
            var (body, returned) := AfterReturn(env, tools, model, arguments, output, message);
            Interception(Span(name, attrs, body), true, returned)
  }
}

=== FILE: results.dfy ===
/** Failure-carrying wrappers used throughout the model: an optional value and
    a success-or-error result (the model's stand-in for a raised exception). */
module Results {

  datatype Option<+T> = None | Some(value: T) {

    /** The value, or `default` when absent (Python's `d.get(k, default)`). */
    function GetOr(default: T): T {
      match this
      case Some(v) => v
      case None => default
    }
  }

  datatype Result<+T, +E> = Success(value: T) | Failure(error: E) {

    /** The success value, or `default` on failure. */
    function GetOr(default: T): T {
      match this
      case Success(v) => v
      case Failure(_) => default
    }
  }
}

=== FILE: run_properties.dfy ===
/** What the AGENT span of a run records, and the two defects of the
    managed-agent summary. */
module RunProperties {
  import opened Values
  import opened Results
  import opened Dicts
  import opened Spans
  import opened SpanProperties
  import opened Semconv
  import opened Wrapping
  import opened RunWrapper

  /** The events after the description. */
  function Tail(env: Env, ctx: Context, outcome: Outcome, monitor: Monitor): seq<Event> {
    AfterCall(env, ctx, outcome, monitor).0
  }

  lemma RunEvents(env: Env, ctx: Context, call: Call, agent: Agent, outcome: Outcome, monitor: Monitor)
    requires !ctx.suppressed && InputValueOf(env, call).Success?
    ensures var r := Run(env, ctx, call, agent, outcome, monitor);
      && r.events
         == Span(SpanName(agent),
                 [Entry(OpenInferenceSpanKind, VStr(AgentKind)), Entry(InputValue, VStr(InputValueOf(env, call).value))],
                 Description(env, call, agent) + Tail(env, ctx, outcome, monitor))
      && r.outcome == AfterCall(env, ctx, outcome, monitor).1
  {
  }

  /** The description neither starts nor ends a span, never sets a
      status, and writes `input.value`, `model` and `tools_names` once. */
  lemma DescriptionShape(env: Env, call: Call, agent: Agent)
    ensures var d := Description(env, call, agent);
      && |d| == 9
      && Quiet(d) && Unmarked(d) && NeverOk(d)
      && (forall i :: 0 <= i < |d| ==> !d[i].SetStatus?)
      && d[0] == SetAttribute(InputValue, agent.task)
      && d[3] == SetAttribute("additional_args", AdditionalArgs(env, call.kwargs))
      && d[4] == d[3]
      && d[5] == SetAttribute("model", VStr(ModelDescription(env.str, agent.model)))
      && d[7] == SetAttribute("tools_names", NamesValue(agent.toolNames))
      && Untouched(d[1..], InputValue)
      && Untouched(d[6..], "model")
      && Untouched(d[8..], "tools_names")
  {
  }

  lemma CompletedShape(env: Env, ctx: Context, total: Value, v: Value)
    ensures var c := Completed(env, ctx, total, v);
      && |c| == 4
      && Quiet(c)
      && c[1] == SetStatus(StatusOk)
      && (forall i :: 2 <= i < |c| ==> !c[i].SetStatus?)
      && c[3] == SetAttributes(ctx.attributes)
  {
  }

  /** The tail after the description writes nothing but the token counts,
      `output.value` and the context attributes. */
  lemma TailUntouched(env: Env, ctx: Context, outcome: Outcome, monitor: Monitor, k: string)
    requires k != LlmTokenCountPrompt && k != LlmTokenCountCompletion && k != LlmTokenCountTotal && k != OutputValue
    requires k !in Keys(ctx.attributes)
    ensures Untouched(Tail(env, ctx, outcome, monitor), k)
  {
  }

  /** After a description that neither starts a span, sets a status nor
      records an exception, the tail ends the span with ERROR status when
      the caller gets an `Exception`, with no status when it gets another
      `BaseException`, and with OK when it gets the result. */
  lemma TailLifecycle(env: Env, ctx: Context, outcome: Outcome, monitor: Monitor, name: string, attrs: seq<Entry>, d: seq<Event>)
    requires Quiet(d) && Unmarked(d)
    ensures var (tail, returned) := AfterCall(env, ctx, outcome, monitor);
            var events := Span(name, attrs, d + tail);
      && OneSpan(events)
      && (returned.Raised? && returned.error.isException ==>
            && LastStatus(events) == Some(StatusError(returned.error.message))
            && events[|events| - 2] == RecordException(returned.error)
            && NeverOk(events))
      && (returned.Raised? && !returned.error.isException ==> LastStatus(events) == None && Unmarked(events))
      && (returned.Returned? ==> LastStatus(events) == Some(StatusOk))
  {
    match outcome
    case Raised(e) =>
      assert AfterCall(env, ctx, outcome, monitor) == (Handled(e), outcome);
      SpanHandled(name, attrs, d, e);
    case Returned(v) =>
      ReturnedLifecycle(env, ctx, v, monitor, name, attrs, d);
  }

  /** The same after a call that returned: the counts are recorded, then
      either the sum's exception or the OK status. */
  lemma ReturnedLifecycle(env: Env, ctx: Context, v: Value, monitor: Monitor, name: string, attrs: seq<Entry>, d: seq<Event>)
    requires Quiet(d) && Unmarked(d)
    ensures var (tail, returned) := AfterCall(env, ctx, Returned(v), monitor);
            var events := Span(name, attrs, d + tail);
      && OneSpan(events)
      && (returned.Raised? ==>
            && returned.error.isException
            && LastStatus(events) == Some(StatusError(returned.error.message))
            && events[|events| - 2] == RecordException(returned.error)
            && NeverOk(events))
      && (returned.Returned? ==> LastStatus(events) == Some(StatusOk))
  {
    match TokenSum(monitor.inputTokens, monitor.outputTokens)
    case Failure(e) =>
      assert AfterCall(env, ctx, Returned(v), monitor) == (Counted(monitor) + Failed(e), Raised(e));
      CountedFailed(monitor, e, name, attrs, d);
    case Success(total) =>
      assert AfterCall(env, ctx, Returned(v), monitor) == (Counted(monitor) + Completed(env, ctx, total, v), Returned(v));
      CountedCompleted(env, ctx, total, v, monitor, name, attrs, d);
  }

  lemma CountedFailed(monitor: Monitor, e: Exception, name: string, attrs: seq<Entry>, d: seq<Event>)
    requires Quiet(d) && Unmarked(d)
    ensures var events := Span(name, attrs, d + (Counted(monitor) + Failed(e)));
      && OneSpan(events)
      && LastStatus(events) == Some(StatusError(e.message))
      && events[|events| - 2] == RecordException(e)
      && NeverOk(events)
  {
    var counted := Counted(monitor);
    QuietAppend(d, counted);
    NeverOkAppend(d, counted);
    assert d + (counted + Failed(e)) == (d + counted) + Failed(e);
    SpanFailed(name, attrs, d + counted, e);
  }

  lemma CountedCompleted(env: Env, ctx: Context, total: Value, v: Value, monitor: Monitor, name: string, attrs: seq<Entry>, d: seq<Event>)
    requires Quiet(d)
    ensures var events := Span(name, attrs, d + (Counted(monitor) + Completed(env, ctx, total, v)));
      && OneSpan(events)
      && LastStatus(events) == Some(StatusOk)
  {
    var counted := Counted(monitor);
    QuietAppend(d, counted);
    var c := Completed(env, ctx, total, v);
    CompletedShape(env, ctx, total, v);
    assert Quiet(c[..1]) && Quiet(c[2..]);
    QuietAppend(d + counted, c[..1]);
    assert d + (counted + c) == (d + counted + c[..1]) + [SetStatus(StatusOk)] + c[2..];
    SpanSucceeded(name, attrs, d + counted + c[..1], c[2..]);
  }

  /** One AGENT span, started with the span kind and the JSON of the
      arguments, ended once. When the caller gets an `Exception`, from the
      call or from adding the monitor's counts, the span ends with ERROR
      status carrying `str(exception)` and never had OK; when the call
      raised another `BaseException`, the span ends with no status and no
      exception recorded; when the caller gets the result, the span ends
      with OK status. */
  lemma RunLifecycle(env: Env, ctx: Context, call: Call, agent: Agent, outcome: Outcome, monitor: Monitor)
    requires !ctx.suppressed && InputValueOf(env, call).Success?
    ensures var r := Run(env, ctx, call, agent, outcome, monitor);
      && OneSpan(r.events)
      && r.events[0] == Start(SpanName(agent),
           [Entry(OpenInferenceSpanKind, VStr(AgentKind)), Entry(InputValue, VStr(InputValueOf(env, call).value))])
      && (r.outcome.Raised? && r.outcome.error.isException ==>
            && LastStatus(r.events) == Some(StatusError(r.outcome.error.message))
            && r.events[|r.events| - 2] == RecordException(r.outcome.error)
            && NeverOk(r.events))
      && (r.outcome.Raised? && !r.outcome.error.isException ==> LastStatus(r.events) == None && Unmarked(r.events))
      && (r.outcome.Returned? ==> LastStatus(r.events) == Some(StatusOk))
  {
    RunEvents(env, ctx, call, agent, outcome, monitor);
    DescriptionShape(env, call, agent);
    TailLifecycle(env, ctx, outcome, monitor, SpanName(agent),
                  [Entry(OpenInferenceSpanKind, VStr(AgentKind)), Entry(InputValue, VStr(InputValueOf(env, call).value))],
                  Description(env, call, agent));
  }

  /** The task replaces the JSON of the arguments as `input.value`, unless
      the task is `None` or the context overrides it. */
  lemma RunInputIsTask(env: Env, ctx: Context, call: Call, agent: Agent, outcome: Outcome, monitor: Monitor)
    requires !ctx.suppressed && InputValueOf(env, call).Success?
    requires !agent.task.VNone?
    requires InputValue !in Keys(ctx.attributes)
    ensures var attrs := AttributesOf(Run(env, ctx, call, agent, outcome, monitor).events);
            InputValue in attrs && attrs[InputValue] == agent.task
  {
    RunEvents(env, ctx, call, agent, outcome, monitor);
    SpanInputIsTask(env, ctx, call, agent, outcome, monitor, SpanName(agent),
                    [Entry(OpenInferenceSpanKind, VStr(AgentKind)), Entry(InputValue, VStr(InputValueOf(env, call).value))]);
  }

  lemma SpanInputIsTask(env: Env, ctx: Context, call: Call, agent: Agent, outcome: Outcome, monitor: Monitor, name: string, attrs: seq<Entry>)
    requires !agent.task.VNone?
    requires InputValue !in Keys(ctx.attributes)
    ensures var held := AttributesOf(Span(name, attrs, Description(env, call, agent) + Tail(env, ctx, outcome, monitor)));
            InputValue in held && held[InputValue] == agent.task
  {
    DescriptionShape(env, call, agent);
    TailUntouched(env, ctx, outcome, monitor, InputValue);
    WrittenAt(name, attrs, Description(env, call, agent), Tail(env, ctx, outcome, monitor), 0, InputValue, agent.task);
  }

  lemma CountedTokens(env: Env, ctx: Context, monitor: Monitor, total: Value, v: Value, name: string, attrs: seq<Entry>, d: seq<Event>)
    requires !monitor.inputTokens.VNone? && !monitor.outputTokens.VNone? && !total.VNone?
    requires LlmTokenCountPrompt !in Keys(ctx.attributes)
    requires LlmTokenCountCompletion !in Keys(ctx.attributes)
    requires LlmTokenCountTotal !in Keys(ctx.attributes)
    ensures var held := AttributesOf(Span(name, attrs, d + (Counted(monitor) + Completed(env, ctx, total, v))));
      && LlmTokenCountPrompt in held && held[LlmTokenCountPrompt] == monitor.inputTokens
      && LlmTokenCountCompletion in held && held[LlmTokenCountCompletion] == monitor.outputTokens
      && LlmTokenCountTotal in held && held[LlmTokenCountTotal] == total
  {
    var c := Counted(monitor) + Completed(env, ctx, total, v);
    assert d + c == d + [c[0]] + c[1..];
    WrittenInBody(name, attrs, d, c[0], c[1..], LlmTokenCountPrompt, monitor.inputTokens);
    assert d + c == (d + c[..1]) + [c[1]] + c[2..];
    WrittenInBody(name, attrs, d + c[..1], c[1], c[2..], LlmTokenCountCompletion, monitor.outputTokens);
    assert d + c == (d + c[..2]) + [c[2]] + c[3..];
    WrittenInBody(name, attrs, d + c[..2], c[2], c[3..], LlmTokenCountTotal, total);
  }

  lemma TailTokens(env: Env, ctx: Context, monitor: Monitor, v: Value, name: string, attrs: seq<Entry>, d: seq<Event>)
    requires IsInteger(monitor.inputTokens) && IsInteger(monitor.outputTokens)
    requires LlmTokenCountPrompt !in Keys(ctx.attributes)
    requires LlmTokenCountCompletion !in Keys(ctx.attributes)
    requires LlmTokenCountTotal !in Keys(ctx.attributes)
    ensures var held := AttributesOf(Span(name, attrs, d + Tail(env, ctx, Returned(v), monitor)));
      && LlmTokenCountPrompt in held && held[LlmTokenCountPrompt] == monitor.inputTokens
      && LlmTokenCountCompletion in held && held[LlmTokenCountCompletion] == monitor.outputTokens
      && LlmTokenCountTotal in held
      && held[LlmTokenCountTotal] == VInt(IntegerOf(monitor.inputTokens) + IntegerOf(monitor.outputTokens))
  {
    var total := VInt(IntegerOf(monitor.inputTokens) + IntegerOf(monitor.outputTokens));
    assert TokenSum(monitor.inputTokens, monitor.outputTokens) == Success(total);
    assert Tail(env, ctx, Returned(v), monitor) == Counted(monitor) + Completed(env, ctx, total, v);
    CountedTokens(env, ctx, monitor, total, v, name, attrs, d);
  }

  /** After a run that returned with `int` (or `bool`) counts on the
      monitor, the span holds the two counts and their sum, unless the
      context overrides them, and the caller gets the result. */
  lemma RunTokenCounts(env: Env, ctx: Context, call: Call, agent: Agent, v: Value, monitor: Monitor)
    requires !ctx.suppressed && InputValueOf(env, call).Success?
    requires IsInteger(monitor.inputTokens) && IsInteger(monitor.outputTokens)
    requires LlmTokenCountPrompt !in Keys(ctx.attributes)
    requires LlmTokenCountCompletion !in Keys(ctx.attributes)
    requires LlmTokenCountTotal !in Keys(ctx.attributes)
    ensures var r := Run(env, ctx, call, agent, Returned(v), monitor);
            var attrs := AttributesOf(r.events);
      && r.outcome == Returned(v)
      && LlmTokenCountPrompt in attrs && attrs[LlmTokenCountPrompt] == monitor.inputTokens
      && LlmTokenCountCompletion in attrs && attrs[LlmTokenCountCompletion] == monitor.outputTokens
      && LlmTokenCountTotal in attrs
      && attrs[LlmTokenCountTotal] == VInt(IntegerOf(monitor.inputTokens) + IntegerOf(monitor.outputTokens))
  {
    RunEvents(env, ctx, call, agent, Returned(v), monitor);
    TailTokens(env, ctx, monitor, v, SpanName(agent), [Entry(OpenInferenceSpanKind, VStr(AgentKind)), Entry(InputValue, VStr(InputValueOf(env, call).value))], Description(env, call, agent));
  }

  lemma CountsBeforeFailure(monitor: Monitor, e: Exception, name: string, attrs: seq<Entry>, d: seq<Event>)
    ensures var held := AttributesOf(Span(name, attrs, d + (Counted(monitor) + Failed(e))));
      && (!monitor.inputTokens.VNone? ==> LlmTokenCountPrompt in held && held[LlmTokenCountPrompt] == monitor.inputTokens)
      && (!monitor.outputTokens.VNone? ==> LlmTokenCountCompletion in held && held[LlmTokenCountCompletion] == monitor.outputTokens)
  {
    var c := Counted(monitor);
    if !monitor.inputTokens.VNone? {
      assert d + (c + Failed(e)) == d + [c[0]] + ([c[1]] + Failed(e));
      WrittenInBody(name, attrs, d, c[0], [c[1]] + Failed(e), LlmTokenCountPrompt, monitor.inputTokens);
    }
    if !monitor.outputTokens.VNone? {
      assert d + (c + Failed(e)) == (d + [c[0]]) + [c[1]] + Failed(e);
      WrittenInBody(name, attrs, d + [c[0]], c[1], Failed(e), LlmTokenCountCompletion, monitor.outputTokens);
    }
  }

  lemma TailUnsummable(env: Env, ctx: Context, monitor: Monitor, v: Value, name: string, attrs: seq<Entry>, d: seq<Event>)
    requires TokenSum(monitor.inputTokens, monitor.outputTokens).Failure?
    requires LlmTokenCountTotal !in Keys(attrs) && Untouched(d, LlmTokenCountTotal)
    ensures var held := AttributesOf(Span(name, attrs, d + Tail(env, ctx, Returned(v), monitor)));
      && LlmTokenCountTotal !in held
      && (!monitor.inputTokens.VNone? ==> LlmTokenCountPrompt in held && held[LlmTokenCountPrompt] == monitor.inputTokens)
      && (!monitor.outputTokens.VNone? ==> LlmTokenCountCompletion in held && held[LlmTokenCountCompletion] == monitor.outputTokens)
  {
    var e := TokenSum(monitor.inputTokens, monitor.outputTokens).error;
    var c := Counted(monitor);
    assert Tail(env, ctx, Returned(v), monitor) == c + Failed(e);
    assert Untouched(c + Failed(e), LlmTokenCountTotal);
    UntouchedAppend(d, c + Failed(e), LlmTokenCountTotal);
    NeverWritten(name, attrs, d + (c + Failed(e)), LlmTokenCountTotal);
    CountsBeforeFailure(monitor, e, name, attrs, d);
  }

  lemma UnsummableStatus(env: Env, ctx: Context, call: Call, agent: Agent, v: Value, monitor: Monitor)
    requires !ctx.suppressed && InputValueOf(env, call).Success?
    requires TokenSum(monitor.inputTokens, monitor.outputTokens).Failure?
    ensures var r := Run(env, ctx, call, agent, Returned(v), monitor);
            var e := TokenSum(monitor.inputTokens, monitor.outputTokens).error;
      && r.invoked
      && r.outcome == Raised(e)
      && LastStatus(r.events) == Some(StatusError(e.message))
  {
    RunLifecycle(env, ctx, call, agent, Returned(v), monitor);
  }

  lemma StartLacks(input: string, k: string)
    requires k != OpenInferenceSpanKind && k != InputValue
    ensures k !in Keys([Entry(OpenInferenceSpanKind, VStr(AgentKind)), Entry(InputValue, VStr(input))])
  {
    var start := [Entry(OpenInferenceSpanKind, VStr(AgentKind)), Entry(InputValue, VStr(input))];
    assert start[..1][..0] == [];
    assert Keys(start[..1]) == {OpenInferenceSpanKind};
    assert Keys(start) == {OpenInferenceSpanKind, InputValue};
  }

  /** The description writes only its own nine keys. */
  lemma DescriptionUntouched(env: Env, call: Call, agent: Agent, k: string)
    requires k !in {InputValue, "agent_name", "task", "additional_args", "model", "max_steps", "tools_names", "managed_agents"}
    ensures Untouched(Description(env, call, agent), k)
  {
  }

  lemma UnsummableAttributes(env: Env, ctx: Context, call: Call, agent: Agent, v: Value, monitor: Monitor)
    requires !ctx.suppressed && InputValueOf(env, call).Success?
    requires TokenSum(monitor.inputTokens, monitor.outputTokens).Failure?
    ensures var attrs := AttributesOf(Run(env, ctx, call, agent, Returned(v), monitor).events);
      && LlmTokenCountTotal !in attrs
      && (!monitor.inputTokens.VNone? ==> LlmTokenCountPrompt in attrs && attrs[LlmTokenCountPrompt] == monitor.inputTokens)
      && (!monitor.outputTokens.VNone? ==> LlmTokenCountCompletion in attrs && attrs[LlmTokenCountCompletion] == monitor.outputTokens)
  {
    var start := [Entry(OpenInferenceSpanKind, VStr(AgentKind)), Entry(InputValue, VStr(InputValueOf(env, call).value))];
    var d := Description(env, call, agent);
    RunEvents(env, ctx, call, agent, Returned(v), monitor);
    DescriptionUntouched(env, call, agent, LlmTokenCountTotal);
    StartLacks(InputValueOf(env, call).value, LlmTokenCountTotal);
    TailUnsummable(env, ctx, monitor, v, SpanName(agent), start, d);
  }

  /** After a run that returned while the counts on the monitor cannot be
      added, for instance because one is still `None`: the caller gets that
      `TypeError` instead of the result, the span ends with it as ERROR
      status, and it holds the counts that are not `None` but no total. */
  lemma RunTokensUnsummable(env: Env, ctx: Context, call: Call, agent: Agent, v: Value, monitor: Monitor)
    requires !ctx.suppressed && InputValueOf(env, call).Success?
    requires TokenSum(monitor.inputTokens, monitor.outputTokens).Failure?
    ensures var r := Run(env, ctx, call, agent, Returned(v), monitor);
            var attrs := AttributesOf(r.events);
            var e := TokenSum(monitor.inputTokens, monitor.outputTokens).error;
      && r.invoked
      && r.outcome == Raised(e) && e.kind == "TypeError"
      && LastStatus(r.events) == Some(StatusError(e.message))
      && LlmTokenCountTotal !in attrs
      && (!monitor.inputTokens.VNone? ==> LlmTokenCountPrompt in attrs && attrs[LlmTokenCountPrompt] == monitor.inputTokens)
      && (!monitor.outputTokens.VNone? ==> LlmTokenCountCompletion in attrs && attrs[LlmTokenCountCompletion] == monitor.outputTokens)
  {
    UnsummableStatus(env, ctx, call, agent, v, monitor);
    UnsummableAttributes(env, ctx, call, agent, v, monitor);
  }

  lemma CompletedContextLast(env: Env, ctx: Context, monitor: Monitor, total: Value, v: Value, name: string, attrs: seq<Entry>, d: seq<Event>, k: string)
    requires Lookup(ctx.attributes, k).Some? && !Lookup(ctx.attributes, k).value.VNone?
    ensures var held := AttributesOf(Span(name, attrs, d + (Counted(monitor) + Completed(env, ctx, total, v))));
            k in held && held[k] == Lookup(ctx.attributes, k).value
  {
    var c := Counted(monitor) + Completed(env, ctx, total, v);
    assert d + c == (d + c[..5]) + [SetAttributes(ctx.attributes)];
    WrittenLast(name, attrs, d + c[..5], ctx.attributes, k);
  }

  /** After a run that gives the caller its result, every context
      attribute with a value is on the span: they are written last. */
  lemma RunContextLast(env: Env, ctx: Context, call: Call, agent: Agent, v: Value, monitor: Monitor, k: string)
    requires !ctx.suppressed && InputValueOf(env, call).Success?
    requires TokenSum(monitor.inputTokens, monitor.outputTokens).Success?
    requires Lookup(ctx.attributes, k).Some? && !Lookup(ctx.attributes, k).value.VNone?
    ensures var attrs := AttributesOf(Run(env, ctx, call, agent, Returned(v), monitor).events);
            k in attrs && attrs[k] == Lookup(ctx.attributes, k).value
  {
    RunEvents(env, ctx, call, agent, Returned(v), monitor);
    CompletedContextLast(env, ctx, monitor, TokenSum(monitor.inputTokens, monitor.outputTokens).value, v, SpanName(agent),
                         [Entry(OpenInferenceSpanKind, VStr(AgentKind)), Entry(InputValue, VStr(InputValueOf(env, call).value))],
                         Description(env, call, agent), k);
  }

  /** Two equal events in a row inside a span: the span holds what the
      first alone would leave. */
  lemma RepeatInSpan(name: string, attrs: seq<Entry>, d: seq<Event>, t: seq<Event>, k: string, v: Value)
    requires |d| >= 5 && d[3] == SetAttribute(k, v) && d[4] == d[3]
    ensures var events := Span(name, attrs, d + t);
      && events[4] == SetAttribute(k, v) && events[5] == events[4]
      && AttributesOf(events) == AttributesOf(events[..5] + events[6..])
  {
    var a := SetAttribute(k, v);
    var pre := [Start(name, attrs)] + d[..3];
    var post := d[5..] + t + [End];
    var events := Span(name, attrs, d + t);
    assert events == pre + [a, a] + post;
    assert events[..5] + events[6..] == pre + [a] + post;
    SetTwice(map[], pre, k, v, post);
  }

  /** `additional_args` is written twice in a row with the same value: the
      span holds what one write would leave. */
  lemma RunAdditionalArgsOnce(env: Env, ctx: Context, call: Call, agent: Agent, outcome: Outcome, monitor: Monitor)
    requires !ctx.suppressed && InputValueOf(env, call).Success?
    ensures var events := Run(env, ctx, call, agent, outcome, monitor).events;
      && events[4] == SetAttribute("additional_args", AdditionalArgs(env, call.kwargs))
      && events[5] == events[4]
      && AttributesOf(events) == AttributesOf(events[..5] + events[6..])
  {
    RunEvents(env, ctx, call, agent, outcome, monitor);
    DescriptionShape(env, call, agent);
    RepeatInSpan(SpanName(agent), [Entry(OpenInferenceSpanKind, VStr(AgentKind)), Entry(InputValue, VStr(InputValueOf(env, call).value))],
                 Description(env, call, agent), Tail(env, ctx, outcome, monitor), "additional_args", AdditionalArgs(env, call.kwargs));
  }

  // The managed-agent summary.

  /** The span holds, under `managed_agents`, the JSON of one summary per
      managed agent in order, each built as the source builds it, unless
      the context overrides the key. */
  lemma RunManagedAgents(env: Env, ctx: Context, call: Call, agent: Agent, outcome: Outcome, monitor: Monitor)
    requires !ctx.suppressed && InputValueOf(env, call).Success?
    requires "managed_agents" !in Keys(ctx.attributes)
    ensures var attrs := AttributesOf(Run(env, ctx, call, agent, outcome, monitor).events);
            var summaries := ManagedSummaries(env.str, agent);
      && "managed_agents" in attrs && attrs["managed_agents"] == VStr(env.jsonDumps(summaries))
      && |summaries.items| == |agent.managedAgents|
      && (forall i :: 0 <= i < |agent.managedAgents| ==>
            summaries.items[i] == ManagedSummaryAsWritten(env.str, agent, agent.managedAgents[i]))
  {
    RunEvents(env, ctx, call, agent, outcome, monitor);
    TailUntouched(env, ctx, outcome, monitor, "managed_agents");
    var d := Description(env, call, agent);
    assert Untouched(d[9..], "managed_agents");
    WrittenAt(SpanName(agent), [Entry(OpenInferenceSpanKind, VStr(AgentKind)), Entry(InputValue, VStr(InputValueOf(env, call).value))],
              d, Tail(env, ctx, outcome, monitor), 8, "managed_agents", VStr(env.jsonDumps(ManagedSummaries(env.str, agent))));
  }

  /** As written, a managed agent whose model has no `model_id` is
      summarised with an empty `model`, where the agent's own `model`
      attribute names the model's type. */
  lemma AsWrittenDropsModelType(str: Value -> string, agent: Agent, managed: ManagedAgent)
    requires managed.agent.model.modelId.None?
    requires managed.agent.model.typeName != ""
    ensures Lookup(ManagedSummaryAsWritten(str, agent, managed).entries, "model") == Some(VStr(""))
    ensures ModelDescription(str, managed.agent.model) == managed.agent.model.typeName
    ensures VStr(ModelDescription(str, managed.agent.model)) != VStr("")
  {
  }

  lemma NamesValueInjective(a: seq<string>, b: seq<string>)
    requires NamesValue(a) == NamesValue(b)
    ensures a == b
  {
    assert |a| == |NamesValue(a).items|;
    forall i | 0 <= i < |a|
      ensures a[i] == b[i]
    {
      assert NamesValue(a).items[i] == VStr(a[i]);
    }
  }

  /** As written, every managed agent is summarised with the tool names of
      the agent being run, which are not its own whenever the two agents'
      tools differ. */
  lemma AsWrittenListsParentTools(str: Value -> string, agent: Agent, managed: ManagedAgent)
    requires agent.toolNames != managed.agent.toolNames
    ensures Lookup(ManagedSummaryAsWritten(str, agent, managed).entries, "tools_names") == Some(NamesValue(agent.toolNames))
    ensures NamesValue(agent.toolNames) != NamesValue(managed.agent.toolNames)
  {
    if NamesValue(agent.toolNames) == NamesValue(managed.agent.toolNames) {
      NamesValueInjective(agent.toolNames, managed.agent.toolNames);
    }
  }

  /** A search agent managing a coding agent whose model has no `model_id`:
      the summary as written records neither the managed model's type nor
      its tools. */
  lemma AsWrittenExample(str: Value -> string)
    ensures var managed := ManagedAgent(VStr("coder"), VStr("writes code"), VNone,
                             Agent("CodeAgent", VNone, ModelInfo("TransformersModel", None), VInt(6), ["python"], []));
            var agent := Agent("ToolCallingAgent", VStr("task"), ModelInfo("HfApiModel", Some(VStr("m"))), VInt(6), ["web_search"], [managed]);
            var summary := ManagedSummaryAsWritten(str, agent, managed).entries;
      && Lookup(summary, "model") == Some(VStr(""))
      && Lookup(summary, "tools_names") == Some(VList([VStr("web_search")]))
  {
    assert NamesValue(["web_search"]) == VList([VStr("web_search")]);
  }

  /** The same managed agent, summarised as corrected: its model's type and
      its own tool. */
  lemma CorrectedExample(str: Value -> string)
    ensures var managed := ManagedAgent(VStr("coder"), VStr("writes code"), VNone,
                             Agent("CodeAgent", VNone, ModelInfo("TransformersModel", None), VInt(6), ["python"], []));
            var summary := ManagedSummary(str, managed).entries;
      && Lookup(summary, "model") == Some(VStr("TransformersModel"))
      && Lookup(summary, "tools_names") == Some(VList([VStr("python")]))
  {
    assert NamesValue(["python"]) == VList([VStr("python")]);
    assert "TransformersModel" + "" == "TransformersModel";
  }

  /** Where the defects do not bite, the corrected summary is the one the
      source builds. */
  lemma CorrectedAgreesWhenDefectsAbsent(str: Value -> string, agent: Agent, managed: ManagedAgent)
    requires managed.agent.model.modelId.Some?
    requires agent.toolNames == managed.agent.toolNames
    ensures ManagedSummary(str, managed) == ManagedSummaryAsWritten(str, agent, managed)
  {
    var m := managed.agent.model;
    assert m.typeName + (" - " + str(m.modelId.value)) == m.typeName + " - " + str(m.modelId.value);
  }

  lemma SummaryLookups(str: Value -> string, managed: ManagedAgent)
    ensures var summary := ManagedSummary(str, managed).entries;
      && Lookup(summary, "model") == Some(VStr(ModelDescription(str, managed.agent.model)))
      && Lookup(summary, "tools_names") == Some(NamesValue(managed.agent.toolNames))
  {
    var summary := ManagedSummary(str, managed).entries;
    assert summary[..5][..4] == summary[..4];
  }

  /** The description's `model` and `tools_names` are what the span holds,
      unless the context overrides them. */
  lemma DescribedSummary(env: Env, ctx: Context, outcome: Outcome, monitor: Monitor, call: Call, agent: Agent, name: string, attrs: seq<Entry>)
    requires "model" !in Keys(ctx.attributes) && "tools_names" !in Keys(ctx.attributes)
    ensures var held := AttributesOf(Span(name, attrs, Description(env, call, agent) + Tail(env, ctx, outcome, monitor)));
      && "model" in held && held["model"] == VStr(ModelDescription(env.str, agent.model))
      && "tools_names" in held && held["tools_names"] == NamesValue(agent.toolNames)
  {
    DescriptionShape(env, call, agent);
    TailUntouched(env, ctx, outcome, monitor, "model");
    TailUntouched(env, ctx, outcome, monitor, "tools_names");
    var d := Description(env, call, agent);
    var t := Tail(env, ctx, outcome, monitor);
    WrittenAt(name, attrs, d, t, 5, "model", VStr(ModelDescription(env.str, agent.model)));
    WrittenAt(name, attrs, d, t, 7, "tools_names", NamesValue(agent.toolNames));
  }

  /** The corrected summary of a managed agent records the `model` and
      `tools_names` that the managed agent's own run span records. */
  lemma SummaryMatchesOwnRun(env: Env, ctx: Context, call: Call, managed: ManagedAgent, outcome: Outcome, monitor: Monitor)
    requires !ctx.suppressed && InputValueOf(env, call).Success?
    requires "model" !in Keys(ctx.attributes) && "tools_names" !in Keys(ctx.attributes)
    ensures var attrs := AttributesOf(Run(env, ctx, call, managed.agent, outcome, monitor).events);
            var summary := ManagedSummary(env.str, managed).entries;
      && "model" in attrs && Lookup(summary, "model") == Some(attrs["model"])
      && "tools_names" in attrs && Lookup(summary, "tools_names") == Some(attrs["tools_names"])
  {
    RunEvents(env, ctx, call, managed.agent, outcome, monitor);
    SummaryLookups(env.str, managed);
    DescribedSummary(env, ctx, outcome, monitor, call, managed.agent, SpanName(managed.agent),
                     [Entry(OpenInferenceSpanKind, VStr(AgentKind)), Entry(InputValue, VStr(InputValueOf(env, call).value))]);
  }
}

=== FILE: run_wrapper.dfy ===
/** `_RunWrapper`: the AGENT span around `MultiStepAgent.run`.

    Before the call it records the task, the agent's class, the additional
    arguments (twice), the model, the step limit, the tool names and a
    summary of each managed agent; after a successful call the token counts
    of the agent's monitor, OK status, `str` of the result and the context
    attributes. */
module RunWrapper {
  import opened Values
  import opened Results
  import opened Dicts
  import opened Binding
  import opened Spans
  import opened Semconv
  import opened Wrapping

  /** `type(model).__name__`, and `model.model_id` when the model has one. */
  datatype ModelInfo = ModelInfo(typeName: string, modelId: Option<Value>)

  /** What the wrapper reads from the agent: `__class__.__name__`, `task`,
      `model`, `max_steps`, the keys of `tools`, the `managed_agents`
      values. */
  datatype Agent = Agent(
    className: string,
    task: Value,
    model: ModelInfo,
    maxSteps: Value,
    toolNames: seq<string>,
    managedAgents: seq<ManagedAgent>)

  /** A managed agent: its `name`, `description`, `additional_prompting` and
      the agent it wraps. */
  datatype ManagedAgent = ManagedAgent(name: Value, description: Value, additionalPrompting: Value, agent: Agent)

  /** `agent.monitor.total_input_token_count` and
      `total_output_token_count` after the run. */
  datatype Monitor = Monitor(inputTokens: Value, outputTokens: Value)

  /** The `model` attribute: the model's type name, followed by
      ` - <model_id>` when the model has an id. */
  function ModelDescription(str: Value -> string, m: ModelInfo): string {
    m.typeName + (match m.modelId case Some(id) => " - " + str(id) case None => "")
  }

  /** `list(tools.keys())`. */
  function NamesValue(names: seq<string>): Value {
    VList(seq(|names|, i requires 0 <= i < |names| => VStr(names[i])))
  }

  /** The managed-agent summary as the source builds it. The conditional
      expression binds looser than `+`, so without a `model_id` the whole
      `model` string is `""`; and `tools_names` lists the tools of the
      agent being run, not of the managed agent. */
  function ManagedSummaryAsWritten(str: Value -> string, agent: Agent, managed: ManagedAgent): Value {
    var model := managed.agent.model;
    VMap([
      Entry("name", managed.name),
      Entry("description", managed.description),
      Entry("additional_prompting", managed.additionalPrompting),
      Entry("model", VStr(match model.modelId
                          case Some(id) => model.typeName + " - " + str(id)
                          case None => "")),
      Entry("max_steps", managed.agent.maxSteps),
      Entry("tools_names", NamesValue(agent.toolNames))
    ])
  }

  /** The managed-agent summary with the model described as the agent's own
      `model` attribute describes it, and the managed agent's own tools. */
  function ManagedSummary(str: Value -> string, managed: ManagedAgent): Value {
    VMap([
      Entry("name", managed.name),
      Entry("description", managed.description),
      Entry("additional_prompting", managed.additionalPrompting),
      Entry("model", VStr(ModelDescription(str, managed.agent.model))),
      Entry("max_steps", managed.agent.maxSteps),
      Entry("tools_names", NamesValue(managed.agent.toolNames))
    ])
  }

  /** The list the run records under `managed_agents`: one summary per
      managed agent, built as the source builds it. */
  function ManagedSummaries(str: Value -> string, agent: Agent): Value {
    VList(seq(|agent.managedAgents|, i requires 0 <= i < |agent.managedAgents| =>
      ManagedSummaryAsWritten(str, agent, agent.managedAgents[i])))
  }

  /** `json.dumps(additional_args) if additional_args else ""`, with
      `additional_args = kwargs.get("additional_args", None)`. */
  function AdditionalArgs(env: Env, kwargs: seq<Entry>): Value {
    var additional := Get(kwargs, "additional_args", VNone);
    VStr(if Truthy(additional) then env.jsonDumps(additional) else "")
  }

  /** The attributes set between the start of the span and the call. */
  function Description(env: Env, call: Call, agent: Agent): seq<Event> {
    [ SetAttribute(InputValue, agent.task),
      SetAttribute("agent_name", VStr(agent.className)),
      SetAttribute("task", agent.task),
      SetAttribute("additional_args", AdditionalArgs(env, call.kwargs)),
      SetAttribute("additional_args", AdditionalArgs(env, call.kwargs)),
      SetAttribute("model", VStr(ModelDescription(env.str, agent.model))),
      SetAttribute("max_steps", agent.maxSteps),
      SetAttribute("tools_names", NamesValue(agent.toolNames)),
      SetAttribute("managed_agents", VStr(env.jsonDumps(ManagedSummaries(env.str, agent)))) ]
  }

  /** The monitor's two counts, recorded as soon as the call returned. */
  function Counted(monitor: Monitor): seq<Event> {
    [ SetAttribute(LlmTokenCountPrompt, monitor.inputTokens),
      SetAttribute(LlmTokenCountCompletion, monitor.outputTokens) ]
  }

  /** The rest of the `try` body once the counts add up to `total`, and
      what follows the `try`. */
  function Completed(env: Env, ctx: Context, total: Value, result: Value): seq<Event> {
    [ SetAttribute(LlmTokenCountTotal, total),
      SetStatus(StatusOk),
      SetAttribute(OutputValue, VStr(env.str(result))),
      SetAttributes(ctx.attributes) ]
  }

  /** The events after the description, and what the caller gets. The
      `except` branch runs when the call raised an `Exception`, and also
      when adding the monitor's counts raised inside the `try`; any other
      `BaseException` from the call passes through and adds nothing. */
  function AfterCall(env: Env, ctx: Context, outcome: Outcome, monitor: Monitor): (r: (seq<Event>, Outcome))
    ensures outcome.Raised? && outcome.error.isException ==> r == (Failed(outcome.error), outcome)
    ensures outcome.Raised? && !outcome.error.isException ==> r == ([], outcome)
    ensures r.1.Returned? ==> r.1 == outcome
    ensures r.1.Returned? <==> outcome.Returned? && TokenSum(monitor.inputTokens, monitor.outputTokens).Success?
    ensures outcome.Returned? && TokenSum(monitor.inputTokens, monitor.outputTokens).Failure? ==>
              r.1 == Raised(TokenSum(monitor.inputTokens, monitor.outputTokens).error)
  {
    match outcome
    case Raised(e) => (Handled(e), outcome)
    case Returned(v) =>
      match TokenSum(monitor.inputTokens, monitor.outputTokens)
      case Failure(e) => (Counted(monitor) + Failed(e), Raised(e))
      case Success(total) => (Counted(monitor) + Completed(env, ctx, total, v), outcome)
  }

  function SpanName(agent: Agent): string {
    agent.className + ".run"
  }

  /** `_RunWrapper.__call__`. The wrapped call's outcome and the monitor it
      leaves behind are inputs. When suppressed, the call is made and
      nothing recorded; when the arguments do not bind, `TypeError` is
      raised before any span exists and the call is not made; otherwise
      the caller gets what the call raised, or what it returned unless the
      monitor's counts do not add up. */
  function Run(env: Env, ctx: Context, call: Call, agent: Agent, outcome: Outcome, monitor: Monitor): (r: Interception)
    ensures ctx.suppressed ==> r == Interception([], true, outcome)
    ensures !ctx.suppressed && HelperParameter in Keys(call.kwargs) ==>
              r == Interception([], false, Raised(TypeError(BindingMessage(HelperCollision("_get_input_value")))))
    ensures !ctx.suppressed && InputValueOf(env, call).Failure? ==>
              r == Interception([], false, Raised(InputValueOf(env, call).error))
    ensures !ctx.suppressed && InputValueOf(env, call).Success? ==>
              && r.invoked
              && (outcome.Raised? ==> r.outcome == outcome)
              && (r.outcome.Returned? ==> r.outcome == outcome)
    ensures !ctx.suppressed && InputValueOf(env, call).Success? && outcome.Returned? ==>
              (r.outcome.Returned? <==> TokenSum(monitor.inputTokens, monitor.outputTokens).Success?)
  {
    if ctx.suppressed then Direct(outcome)
    else
      match InputValueOf(env, call)
      case Failure(e) => Interception([], false, Raised(e))
      case Success(input) =>
        var attrs := KindAndInput(AgentKind, input).value;
        var (tail, returned) := AfterCall(env, ctx, outcome, monitor);
        Interception(Span(SpanName(agent), attrs, Description(env, call, agent) + tail), true, returned)
  }
}

=== FILE: semconv.dfy ===
/** The OpenInference semantic-convention names the wrappers write: span
    attribute keys, message and tool sub-keys, the JSON mime type and the
    span kinds. They are the published values of the
    `openinference.semconv.trace` constants the wrappers import. */
module Semconv {

  // Span attributes.
  const OpenInferenceSpanKind: string := "openinference.span.kind"
  const InputValue: string := "input.value"
  const InputMimeType: string := "input.mime_type"
  const OutputValue: string := "output.value"
  const OutputMimeType: string := "output.mime_type"
  const LlmInputMessages: string := "llm.input_messages"
  const LlmOutputMessages: string := "llm.output_messages"
  const LlmInvocationParameters: string := "llm.invocation_parameters"
  const LlmModelName: string := "llm.model_name"
  const LlmTokenCountPrompt: string := "llm.token_count.prompt"
  const LlmTokenCountCompletion: string := "llm.token_count.completion"
  const LlmTokenCountTotal: string := "llm.token_count.total"
  const LlmTools: string := "llm.tools"

  // Message, tool and tool-call attributes.
  const MessageRole: string := "message.role"
  const MessageContent: string := "message.content"
  const ToolJsonSchema: string := "tool.json_schema"
  const ToolCallFunctionName: string := "tool_call.function.name"
  const ToolCallFunctionArgumentsJson: string := "tool_call.function.arguments"

  // Mime types.
  const Json: string := "application/json"

  // Span kinds.
  const AgentKind: string := "AGENT"
  const ChainKind: string := "CHAIN"
  const LlmKind: string := "LLM"
  const ToolKind: string := "TOOL"
}

=== FILE: span_properties.dfy ===
/** How the recorded attributes and status follow from the event log: the
    last write of a key wins, later events that do not touch a key leave it
    alone, writing the same attribute twice is writing it once. */
module SpanProperties {
  import opened Values
  import opened Results
  import opened Dicts
  import opened Spans

  lemma {:induction false} ReplayAppend(m: Store, a: seq<Event>, b: seq<Event>)
    ensures Replay(m, a + b) == Replay(Replay(m, a), b)
    decreases |b|
  {
    if b != [] {
      assert (a + b)[..|a + b| - 1] == a + b[..|b| - 1];
      assert (a + b)[|a + b| - 1] == b[|b| - 1];
      ReplayAppend(m, a, b[..|b| - 1]);
    } else {
      assert a + b == a;
    }
  }

  /** Events that do not write `k` leave it as it was. */
  lemma {:induction false} ReplayUntouched(m: Store, events: seq<Event>, k: string)
    requires forall i :: 0 <= i < |events| ==> !Touches(events[i], k)
    ensures k in Replay(m, events) <==> k in m
    ensures k in m ==> Replay(m, events)[k] == m[k]
    decreases |events|
  {
    if events != [] {
      ReplayUntouched(m, events[..|events| - 1], k);
    }
  }

  /** What an event writes to `k`, when it writes a value there. */
  predicate Writes(e: Event, k: string, v: Value) {
    match e
    case Start(_, attrs) => Lookup(attrs, k) == Some(v)
    case SetAttribute(key, value) => key == k && value == v
    case SetAttributes(attrs) => Lookup(attrs, k) == Some(v)
    case _ => false
  }

  /** The last write wins: after an event writes `v` to `k`, `k` holds `v`
      until another event writes `k`. */
  lemma LastWrite(m: Store, pre: seq<Event>, e: Event, post: seq<Event>, k: string, v: Value)
    requires Writes(e, k, v)
    requires !v.VNone?
    requires forall i :: 0 <= i < |post| ==> !Touches(post[i], k)
    ensures k in Replay(m, pre + [e] + post)
    ensures Replay(m, pre + [e] + post)[k] == v
  {
    ReplayAppend(m, pre + [e], post);
    ReplayUntouched(Replay(m, pre + [e]), post, k);
    assert (pre + [e])[..|pre + [e]| - 1] == pre;
  }

  /** `additional_args` is set twice with the same value; the second write
      changes nothing. */
  lemma SetTwice(m: Store, pre: seq<Event>, k: string, v: Value, post: seq<Event>)
    ensures Replay(m, pre + [SetAttribute(k, v), SetAttribute(k, v)] + post)
         == Replay(m, pre + [SetAttribute(k, v)] + post)
  {
    var once := pre + [SetAttribute(k, v)];
    var twice := once + [SetAttribute(k, v)];
    assert pre + [SetAttribute(k, v), SetAttribute(k, v)] + post == twice + post;
    ReplayAppend(m, twice, post);
    ReplayAppend(m, once, post);
    assert twice[..|twice| - 1] == once;
    assert once[..|once| - 1] == pre;
    var s := Replay(m, pre);
    if !v.VNone? {
      assert s[k := v][k := v] == s[k := v];
    }
  }

  /** The status is the last one set. */
  lemma {:induction false} LastStatusAppend(a: seq<Event>, b: seq<Event>)
    ensures LastStatus(a + b) == if LastStatus(b).Some? then LastStatus(b) else LastStatus(a)
    decreases |b|
  {
    if b != [] {
      assert (a + b)[..|a + b| - 1] == a + b[..|b| - 1];
      assert (a + b)[|a + b| - 1] == b[|b| - 1];
      LastStatusAppend(a, b[..|b| - 1]);
    } else {
      assert a + b == a;
    }
  }

  /** A log that never sets a status leaves none. */
  lemma {:induction false} NoStatus(events: seq<Event>)
    requires forall i :: 0 <= i < |events| ==> !events[i].SetStatus?
    ensures LastStatus(events) == None
    decreases |events|
  {
    if events != [] {
      NoStatus(events[..|events| - 1]);
    }
  }

  /** A status set and not replaced is the one the span ends with. */
  lemma StatusSetLast(pre: seq<Event>, s: Status, post: seq<Event>)
    requires forall i :: 0 <= i < |post| ==> !post[i].SetStatus?
    ensures LastStatus(pre + [SetStatus(s)] + post) == Some(s)
  {
    LastStatusAppend(pre + [SetStatus(s)], post);
    NoStatus(post);
  }

  /** The `except` branch leaves ERROR status, with `str(exception)`. */
  lemma FailedStatus(pre: seq<Event>, e: Exception)
    ensures LastStatus(pre + Failed(e)) == Some(StatusError(e.message))
  {
    var f := Failed(e);
    LastStatusAppend(pre, f);
    assert f[..1] == [SetStatus(StatusError(e.message))];
  }

  /** Ending the span does not change its status. */
  lemma SpanStatus(name: string, attrs: seq<Entry>, body: seq<Event>)
    ensures LastStatus(Span(name, attrs, body)) == LastStatus(body)
  {
    LastStatusAppend([Start(name, attrs)], body);
    assert Span(name, attrs, body)[..|body| + 1] == [Start(name, attrs)] + body;
  }

  lemma QuietAppend(a: seq<Event>, b: seq<Event>)
    requires Quiet(a) && Quiet(b)
    ensures Quiet(a + b)
  {
    forall i | 0 <= i < |a + b|
      ensures !(a + b)[i].Start? && !(a + b)[i].End?
    {
      if i >= |a| {
        assert (a + b)[i] == b[i - |a|];
      }
    }
  }

  lemma NeverOkAppend(a: seq<Event>, b: seq<Event>)
    requires NeverOk(a) && NeverOk(b)
    ensures NeverOk(a + b)
  {
    forall i | 0 <= i < |a + b|
      ensures (a + b)[i] != SetStatus(StatusOk)
    {
      if i >= |a| {
        assert (a + b)[i] == b[i - |a|];
      }
    }
  }

  /** The attributes of a span are those of its start and body; ending it
      writes nothing. */
  lemma SpanAttributes(name: string, attrs: seq<Entry>, body: seq<Event>)
    ensures AttributesOf(Span(name, attrs, body)) == Replay(map[], [Start(name, attrs)] + body)
  {
    assert Span(name, attrs, body)[..|body| + 1] == [Start(name, attrs)] + body;
  }

  /** A key neither the span starts with nor its body writes is not on
      the span. */
  lemma NeverWritten(name: string, attrs: seq<Entry>, body: seq<Event>, k: string)
    requires k !in Keys(attrs) && Untouched(body, k)
    ensures k !in AttributesOf(Span(name, attrs, body))
  {
    var events := Span(name, attrs, body);
    forall i | 0 <= i < |events|
      ensures !Touches(events[i], k)
    {
      if 0 < i < |events| - 1 {
        assert events[i] == body[i - 1];
      }
    }
    ReplayUntouched(map[], events, k);
  }

  /** Context attributes written last: every one with a value ends up on
      the span. */
  lemma WrittenLast(name: string, attrs: seq<Entry>, pre: seq<Event>, last: seq<Entry>, k: string)
    requires Lookup(last, k).Some? && !Lookup(last, k).value.VNone?
    ensures k in AttributesOf(Span(name, attrs, pre + [SetAttributes(last)]))
    ensures AttributesOf(Span(name, attrs, pre + [SetAttributes(last)]))[k] == Lookup(last, k).value
  {
    var events := Span(name, attrs, pre + [SetAttributes(last)]);
    assert events == ([Start(name, attrs)] + pre) + [SetAttributes(last)] + [End];
    LastWrite(map[], [Start(name, attrs)] + pre, SetAttributes(last), [End], k, Lookup(last, k).value);
  }

  /** No event of the log writes `k`. */
  predicate Untouched(events: seq<Event>, k: string) {
    forall i :: 0 <= i < |events| ==> !Touches(events[i], k)
  }

  lemma UntouchedAppend(a: seq<Event>, b: seq<Event>, k: string)
    requires Untouched(a, k) && Untouched(b, k)
    ensures Untouched(a + b, k)
  {
    forall i | 0 <= i < |a + b|
      ensures !Touches((a + b)[i], k)
    {
      if i >= |a| {
        assert (a + b)[i] == b[i - |a|];
      }
    }
  }

  /** An attribute written in a span body and not written again afterwards
      is what the span holds. */
  lemma WrittenInBody(name: string, attrs: seq<Entry>, pre: seq<Event>, e: Event, post: seq<Event>, k: string, v: Value)
    requires Writes(e, k, v)
    requires !v.VNone?
    requires Untouched(post, k)
    ensures k in AttributesOf(Span(name, attrs, pre + [e] + post))
    ensures AttributesOf(Span(name, attrs, pre + [e] + post))[k] == v
  {
    var events := Span(name, attrs, pre + [e] + post);
    assert events == ([Start(name, attrs)] + pre) + [e] + (post + [End]);
    UntouchedAppend(post, [End], k);
    LastWrite(map[], [Start(name, attrs)] + pre, e, post + [End], k, v);
  }

  /** An attribute written at position `i` of the body `d + t` and not
      written again is what the span holds. */
  lemma WrittenAt(name: string, attrs: seq<Entry>, d: seq<Event>, t: seq<Event>, i: nat, k: string, v: Value)
    requires i < |d| && Writes(d[i], k, v) && !v.VNone?
    requires Untouched(d[i + 1..], k) && Untouched(t, k)
    ensures k in AttributesOf(Span(name, attrs, d + t))
    ensures AttributesOf(Span(name, attrs, d + t))[k] == v
  {
    UntouchedAppend(d[i + 1..], t, k);
    assert d + t == d[..i] + [d[i]] + (d[i + 1..] + t);
    WrittenInBody(name, attrs, d[..i], d[i], d[i + 1..] + t, k, v);
  }

  /** A body that fails after `pre`: one span, ending with ERROR status
      carrying `str(exception)`, the exception recorded just before the
      end, and OK never set. */
  lemma SpanFailed(name: string, attrs: seq<Entry>, pre: seq<Event>, e: Exception)
    requires Quiet(pre) && NeverOk(pre)
    ensures var events := Span(name, attrs, pre + Failed(e));
      && OneSpan(events)
      && LastStatus(events) == Some(StatusError(e.message))
      && events[|events| - 2] == RecordException(e)
      && NeverOk(events)
  {
    var body := pre + Failed(e);
    assert Quiet(Failed(e)) && NeverOk(Failed(e));
    QuietAppend(pre, Failed(e));
    SpanStatus(name, attrs, body);
    FailedStatus(pre, e);
    NeverOkAppend(pre, Failed(e));
    NeverOkAppend([Start(name, attrs)], body);
    NeverOkAppend([Start(name, attrs)] + body, [End]);
  }

  /** A body that sets no status and records no exception: one span,
      ending with no status and no exception recorded. */
  lemma SpanUnmarked(name: string, attrs: seq<Entry>, body: seq<Event>)
    requires Quiet(body) && Unmarked(body)
    ensures var events := Span(name, attrs, body);
      && OneSpan(events)
      && LastStatus(events) == None
      && Unmarked(events)
  {
    var events := Span(name, attrs, body);
    forall i | 0 <= i < |events|
      ensures !events[i].SetStatus? && !events[i].RecordException?
    {
      if 0 < i < |events| - 1 {
        assert events[i] == body[i - 1];
      }
    }
    NoStatus(events);
  }

  /** The wrapped call raised `e` after `pre`, inside `except Exception`:
      an `Exception` ends the span with ERROR status carrying
      `str(exception)`, recorded just before the end, and OK never set;
      any other `BaseException` leaves the span with no status and nothing
      recorded. */
  lemma SpanHandled(name: string, attrs: seq<Entry>, pre: seq<Event>, e: Exception)
    requires Quiet(pre) && Unmarked(pre)
    ensures var events := Span(name, attrs, pre + Handled(e));
      && OneSpan(events)
      && (e.isException ==>
            && LastStatus(events) == Some(StatusError(e.message))
            && events[|events| - 2] == RecordException(e)
            && NeverOk(events))
      && (!e.isException ==> LastStatus(events) == None && Unmarked(events))
  {
    if e.isException {
      SpanFailed(name, attrs, pre, e);
    } else {
      assert pre + Handled(e) == pre;
      SpanUnmarked(name, attrs, pre);
    }
  }

  /** A body that sets OK and never replaces it: one span, ending with OK
      status. */
  lemma SpanSucceeded(name: string, attrs: seq<Entry>, pre: seq<Event>, post: seq<Event>)
    requires Quiet(pre) && Quiet(post)
    requires forall i :: 0 <= i < |post| ==> !post[i].SetStatus?
    ensures var events := Span(name, attrs, pre + [SetStatus(StatusOk)] + post);
      && OneSpan(events)
      && LastStatus(events) == Some(StatusOk)
  {
    assert Quiet([SetStatus(StatusOk)]);
    QuietAppend(pre, [SetStatus(StatusOk)]);
    QuietAppend(pre + [SetStatus(StatusOk)], post);
    SpanStatus(name, attrs, pre + [SetStatus(StatusOk)] + post);
    StatusSetLast(pre, StatusOk, post);
  }
}

=== FILE: spans.dfy ===
/** What a wrapper does to its span, as a log of events, and what the
    recorded span ends up holding.

    The attribute store is last-write-wins; a `None` value is dropped by
    OpenTelemetry and leaves the previous value in place. The status is the
    last one set. */
module Spans {
  import opened Values
  import opened Results
  import opened Dicts

  /** A Python exception: its class name, `str(exception)`, and whether
      its class derives from `Exception`. `KeyboardInterrupt`, `SystemExit`
      and `GeneratorExit` derive from `BaseException` only. */
  datatype Exception = Exception(kind: string, message: string, isException: bool)

  /** What calling the wrapped function did. */
  datatype Outcome = Returned(value: Value) | Raised(error: Exception)

  datatype Status = StatusOk | StatusError(description: string)

  datatype Event =
    | Start(name: string, attributes: seq<Entry>)
    | SetAttribute(key: string, value: Value)
    | SetAttributes(attributes: seq<Entry>)
    | SetStatus(status: Status)
    | RecordException(error: Exception)
    | End

  /** One wrapped call: the span events in order, whether the wrapped
      function was called, and what the caller of the wrapper gets. */
  datatype Interception = Interception(events: seq<Event>, invoked: bool, outcome: Outcome)

  type Store = map<string, Value>

  /** `span.set_attribute(k, v)` on the attributes so far. */
  function Put(m: Store, k: string, v: Value): Store {
    if v.VNone? then m else m[k := v]
  }

  /** Setting several attributes in order. */
  function PutAll(m: Store, attrs: seq<Entry>): (r: Store)
    ensures forall k :: Lookup(attrs, k).Some? && !Lookup(attrs, k).value.VNone? ==>
              k in r && r[k] == Lookup(attrs, k).value
    ensures forall k :: k !in Keys(attrs) ==> (k in r <==> k in m) && (k in m ==> r[k] == m[k])
    decreases |attrs|
  {
    if attrs == [] then m
    else
      var last := attrs[|attrs| - 1];
      Put(PutAll(m, attrs[..|attrs| - 1]), last.key, last.value)
  }

  /** Whether an event writes attribute `k`. */
  predicate Touches(e: Event, k: string) {
    match e
    case Start(_, attrs) => k in Keys(attrs)
    case SetAttribute(key, _) => key == k
    case SetAttributes(attrs) => k in Keys(attrs)
    case _ => false
  }

  function Apply(m: Store, e: Event): (r: Store)
    ensures forall k :: !Touches(e, k) ==> (k in r <==> k in m) && (k in m ==> r[k] == m[k])
  {
    match e
    case Start(_, attrs) => PutAll(m, attrs)
    case SetAttribute(k, v) => Put(m, k, v)
    case SetAttributes(attrs) => PutAll(m, attrs)
    case _ => m
  }

  function Replay(m: Store, events: seq<Event>): Store
    decreases |events|
  {
    if events == [] then m
    else Apply(Replay(m, events[..|events| - 1]), events[|events| - 1])
  }

  /** The attributes a span holds once its events have happened. */
  function AttributesOf(events: seq<Event>): Store {
    Replay(map[], events)
  }

  /** The status a span ends with, if one was set. */
  function LastStatus(events: seq<Event>): Option<Status>
    decreases |events|
  {
    if events == [] then None
    else if events[|events| - 1].SetStatus? then Some(events[|events| - 1].status)
    else LastStatus(events[..|events| - 1])
  }

  /** Events that neither start nor end a span. */
  predicate Quiet(events: seq<Event>) {
    forall i :: 0 <= i < |events| ==> !events[i].Start? && !events[i].End?
  }

  /** The events of one span: it is started first and ended last, once. */
  predicate OneSpan(events: seq<Event>) {
    && |events| >= 2
    && events[0].Start?
    && events[|events| - 1] == End
    && Quiet(events[1..|events| - 1])
  }

  /** `with tracer.start_as_current_span(name, attributes=attrs) as span:`
      around `body`: the span starts, the body's events happen, and the
      span ends however the block is left. */
  function Span(name: string, attrs: seq<Entry>, body: seq<Event>): (events: seq<Event>)
    ensures |events| == |body| + 2
    ensures Quiet(body) ==> OneSpan(events)
    ensures events[0] == Start(name, attrs)
    ensures events[1..|events| - 1] == body
  {
    [Start(name, attrs)] + body + [End]
  }

  /** The `except` branch: ERROR status with `str(exception)` and the
      exception recorded; the span then ends as the exception leaves the
      `with` block. */
  function Failed(e: Exception): seq<Event> {
    [SetStatus(StatusError(e.message)), RecordException(e)]
  }

  /** `except Exception as exception:` around the wrapped call, with the
      span opened with `record_exception=False` and
      `set_status_on_exception=False`: an `Exception` gets the `except`
      branch; any other `BaseException` passes it by and the span records
      nothing of it. */
  function Handled(e: Exception): seq<Event> {
    if e.isException then Failed(e) else []
  }

  /** No status set and no exception recorded. */
  predicate Unmarked(events: seq<Event>) {
    forall i :: 0 <= i < |events| ==> !events[i].SetStatus? && !events[i].RecordException?
  }

  predicate NeverOk(events: seq<Event>) {
    forall i :: 0 <= i < |events| ==> events[i] != SetStatus(StatusOk)
  }
}

=== FILE: step_properties.dfy ===
/** What the CHAIN span of a step records, on each way the step can end. */
module StepProperties {
  import opened Values
  import opened Results
  import opened Dicts
  import opened Spans
  import opened SpanProperties
  import opened Semconv
  import opened Wrapping
  import opened StepWrapper

  /** Both attributes of the log are there. */
  predicate Complete(log: StepLog) {
    log.error.Some? && log.observations.Some?
  }

  lemma ObservedShape(env: Env, ctx: Context, error: Value, observations: Value)
    ensures var o := Observed(env, ctx, error, observations);
      && Quiet(o)
      && |o| >= 4
      && o[|o| - 3] == SetStatus(StatusOk)
      && !o[|o| - 2].SetStatus? && !o[|o| - 1].SetStatus?
      && o[|o| - 1] == SetAttributes(ctx.attributes)
      && o[|o| - 2] == SetAttribute(OutputValue, observations)
      && o[|o| - 4] == SetAttribute("Observations", observations)
      && (!error.VNone? ==> o[0] == SetAttribute("Error", VStr(env.str(error))) && |o| == 5)
  {
  }

  /** The events between the start and the end of the span. */
  function Body(env: Env, ctx: Context, args: seq<Value>, outcome: Outcome, log: StepLog): seq<Event> {
    match outcome
    case Raised(e) => Handled(e)
    case Returned(result) => AfterReturn(env, ctx, args, result, log).0
  }

  lemma StepEvents(env: Env, ctx: Context, stepNumber: Value, args: seq<Value>, outcome: Outcome, log: StepLog)
    requires !ctx.suppressed
    ensures Step(env, ctx, stepNumber, args, outcome, log).events
         == Span(SpanName(env, stepNumber), StartAttributes(), Body(env, ctx, args, outcome, log))
  {
  }

  /** What follows `Final answer` once the step returned. */
  function Rest(env: Env, ctx: Context, args: seq<Value>, log: StepLog): seq<Event> {
    if |args| == 0 then Failed(IndexError())
    else if log.error.Some? && log.observations.Some? then Observed(env, ctx, log.error.value, log.observations.value)
    else if log.error.Some? && !log.error.value.VNone? then [SetAttribute("Error", VStr(env.str(log.error.value)))]
    else []
  }

  lemma RestShape(env: Env, ctx: Context, args: seq<Value>, result: Value, log: StepLog)
    ensures AfterReturn(env, ctx, args, result, log).0 == FinalAnswer(result) + Rest(env, ctx, args, log)
  {
    if |args| > 0 && log.error.Some? && log.observations.None? && log.error.value.VNone? {
      assert FinalAnswer(result) + [] == FinalAnswer(result);
    } else if |args| > 0 && log.error.None? {
      assert FinalAnswer(result) + [] == FinalAnswer(result);
    }
  }

  /** The body of the span on each path, none of which starts or ends a
      span. */
  lemma RestQuiet(env: Env, ctx: Context, args: seq<Value>, log: StepLog)
    ensures Quiet(Rest(env, ctx, args, log))
  {
    if |args| > 0 && log.error.Some? && log.observations.Some? {
      ObservedShape(env, ctx, log.error.value, log.observations.value);
    }
  }

  lemma AfterReturnQuiet(env: Env, ctx: Context, args: seq<Value>, result: Value, log: StepLog)
    ensures Quiet(AfterReturn(env, ctx, args, result, log).0)
  {
    RestShape(env, ctx, args, result, log);
    RestQuiet(env, ctx, args, log);
    assert Quiet(FinalAnswer(result));
    QuietAppend(FinalAnswer(result), Rest(env, ctx, args, log));
  }

  lemma BodyLifecycle(env: Env, ctx: Context, args: seq<Value>, outcome: Outcome, log: StepLog, name: string, attrs: seq<Entry>)
    ensures var events := Span(name, attrs, Body(env, ctx, args, outcome, log));
      && OneSpan(events)
      && (outcome.Raised? && outcome.error.isException ==>
            LastStatus(events) == Some(StatusError(outcome.error.message)) && NeverOk(events))
      && (outcome.Raised? && !outcome.error.isException ==> LastStatus(events) == None && Unmarked(events))
      && (outcome.Returned? && |args| > 0 && Complete(log) ==> LastStatus(events) == Some(StatusOk))
  {
    match outcome
    case Raised(e) =>
      assert Handled(e) == [] + Handled(e);
      SpanHandled(name, attrs, [], e);
    case Returned(result) =>
      var body := AfterReturn(env, ctx, args, result, log).0;
      AfterReturnQuiet(env, ctx, args, result, log);
      if |args| > 0 && Complete(log) {
        var o := Observed(env, ctx, log.error.value, log.observations.value);
        ObservedShape(env, ctx, log.error.value, log.observations.value);
        RestShape(env, ctx, args, result, log);
        var pre := FinalAnswer(result) + o[..|o| - 3];
        assert body == pre + [SetStatus(StatusOk)] + o[|o| - 2..];
        assert Quiet(o[..|o| - 3]) && Quiet(o[|o| - 2..]) && Quiet(FinalAnswer(result));
        QuietAppend(FinalAnswer(result), o[..|o| - 3]);
        SpanSucceeded(name, attrs, pre, o[|o| - 2..]);
      }
  }

  /** Unless suppressed, one CHAIN span named after the step number. A step
      that raises an `Exception` ends it with ERROR status carrying
      `str(exception)` and no OK; one that raises another `BaseException`
      ends it with no status and nothing recorded; a step that returns with
      a complete log ends it with OK. */
  lemma StepLifecycle(env: Env, ctx: Context, stepNumber: Value, args: seq<Value>, outcome: Outcome, log: StepLog)
    requires !ctx.suppressed
    ensures var r := Step(env, ctx, stepNumber, args, outcome, log);
      && OneSpan(r.events)
      && r.events[0] == Start("Step " + env.str(stepNumber), [Entry(OpenInferenceSpanKind, VStr(ChainKind))])
      && (outcome.Raised? && outcome.error.isException ==>
            LastStatus(r.events) == Some(StatusError(outcome.error.message)) && NeverOk(r.events))
      && (outcome.Raised? && !outcome.error.isException ==> LastStatus(r.events) == None && Unmarked(r.events))
      && (outcome.Returned? && |args| > 0 && Complete(log) ==> LastStatus(r.events) == Some(StatusOk))
  {
    StepEvents(env, ctx, stepNumber, args, outcome, log);
    BodyLifecycle(env, ctx, args, outcome, log, SpanName(env, stepNumber), StartAttributes());
  }

  /** A step called without positional arguments runs, then the wrapper
      fails reading its log: the caller gets `IndexError` and the span
      records it as an error although the step returned. */
  lemma StepWithoutArguments(env: Env, ctx: Context, stepNumber: Value, result: Value, log: StepLog)
    requires !ctx.suppressed
    ensures var r := Step(env, ctx, stepNumber, [], Returned(result), log);
      && r.invoked
      && r.outcome == Raised(Exception("IndexError", "tuple index out of range", true))
      && LastStatus(r.events) == Some(StatusError("tuple index out of range"))
  {
    var body := FinalAnswer(result) + Failed(IndexError());
    SpanStatus(SpanName(env, stepNumber), StartAttributes(), body);
    FailedStatus(FinalAnswer(result), IndexError());
  }

  /** A log lacking `error` or `observations` makes the wrapper raise
      `AttributeError` after the step returned, and the span ends with no
      status at all: neither OK nor ERROR is set. */
  lemma StepIncompleteLog(env: Env, ctx: Context, stepNumber: Value, args: seq<Value>, result: Value, log: StepLog)
    requires !ctx.suppressed
    requires |args| > 0 && !Complete(log)
    ensures var r := Step(env, ctx, stepNumber, args, Returned(result), log);
      && r.outcome.Raised? && r.outcome.error.kind == "AttributeError"
      && LastStatus(r.events) == None
  {
    var body := AfterReturn(env, ctx, args, result, log).0;
    SpanStatus(SpanName(env, stepNumber), StartAttributes(), body);
    assert forall i :: 0 <= i < |body| ==> !body[i].SetStatus?;
    NoStatus(body);
  }

  lemma ErrorRecorded(env: Env, ctx: Context, error: Value, observations: Value, name: string, attrs: seq<Entry>, pre: seq<Event>)
    requires !error.VNone?
    requires "Error" !in Keys(ctx.attributes)
    ensures var held := AttributesOf(Span(name, attrs, pre + Observed(env, ctx, error, observations)));
            "Error" in held && held["Error"] == VStr(env.str(error))
  {
    var o := Observed(env, ctx, error, observations);
    ObservedShape(env, ctx, error, observations);
    assert Untouched(o[1..], "Error");
    assert pre + o == pre + [o[0]] + o[1..];
    WrittenInBody(name, attrs, pre, o[0], o[1..], "Error", VStr(env.str(error)));
  }

  /** An error the step logged is recorded only as the `Error` attribute:
      the span still ends with OK status. */
  lemma StepErrorIsAttribute(env: Env, ctx: Context, stepNumber: Value, args: seq<Value>, result: Value, error: Value, observations: Value)
    requires !ctx.suppressed && |args| > 0
    requires !error.VNone?
    requires "Error" !in Keys(ctx.attributes)
    ensures var r := Step(env, ctx, stepNumber, args, Returned(result), StepLog(Some(error), Some(observations)));
      && r.outcome == Returned(result)
      && LastStatus(r.events) == Some(StatusOk)
      && "Error" in AttributesOf(r.events)
      && AttributesOf(r.events)["Error"] == VStr(env.str(error))
  {
    var log := StepLog(Some(error), Some(observations));
    StepEvents(env, ctx, stepNumber, args, Returned(result), log);
    BodyLifecycle(env, ctx, args, Returned(result), log, SpanName(env, stepNumber), StartAttributes());
    RestShape(env, ctx, args, result, log);
    ErrorRecorded(env, ctx, error, observations, SpanName(env, stepNumber), StartAttributes(), FinalAnswer(result));
  }

  /** With a complete log, the observations are the span's output. */
  lemma StepOutputIsObservations(env: Env, ctx: Context, stepNumber: Value, args: seq<Value>, result: Value, error: Value, observations: Value)
    requires !ctx.suppressed && |args| > 0
    requires !observations.VNone?
    requires OutputValue !in Keys(ctx.attributes)
    ensures var attrs := AttributesOf(Step(env, ctx, stepNumber, args, Returned(result), StepLog(Some(error), Some(observations))).events);
            OutputValue in attrs && attrs[OutputValue] == observations
  {
    var o := Observed(env, ctx, error, observations);
    ObservedShape(env, ctx, error, observations);
    var pre := FinalAnswer(result) + o[..|o| - 2];
    assert FinalAnswer(result) + o == pre + [o[|o| - 2]] + [o[|o| - 1]];
    WrittenInBody(SpanName(env, stepNumber), StartAttributes(), pre, o[|o| - 2], [o[|o| - 1]], OutputValue, observations);
  }

  /** Once written first, `Final answer` is never written again. */
  lemma AnswerNotRewritten(env: Env, ctx: Context, args: seq<Value>, result: Value, log: StepLog)
    requires !result.VNone?
    requires "Final answer" !in Keys(ctx.attributes)
    ensures var body := AfterReturn(env, ctx, args, result, log).0;
      && |body| >= 1 && body[0] == SetAttribute("Final answer", result)
      && Untouched(body[1..], "Final answer")
  {
    RestShape(env, ctx, args, result, log);
    var rest := Rest(env, ctx, args, log);
    if |args| > 0 && log.error.Some? && log.observations.Some? {
      ObservedShape(env, ctx, log.error.value, log.observations.value);
    }
    assert Untouched(rest, "Final answer");
    assert AfterReturn(env, ctx, args, result, log).0[1..] == rest;
  }

  /** A step that returns something has it recorded as `Final answer`,
      whatever happens afterwards, unless the context overrides it. */
  lemma StepFinalAnswer(env: Env, ctx: Context, stepNumber: Value, args: seq<Value>, result: Value, log: StepLog)
    requires !ctx.suppressed && !result.VNone?
    requires "Final answer" !in Keys(ctx.attributes)
    ensures var attrs := AttributesOf(Step(env, ctx, stepNumber, args, Returned(result), log).events);
            "Final answer" in attrs && attrs["Final answer"] == result
  {
    var body := AfterReturn(env, ctx, args, result, log).0;
    AnswerNotRewritten(env, ctx, args, result, log);
    assert body == [] + [body[0]] + body[1..];
    WrittenInBody(SpanName(env, stepNumber), StartAttributes(), [], body[0], body[1..], "Final answer", result);
  }

  /** With a complete log, every context attribute with a value ends up on
      the span. */
  lemma StepContextLast(env: Env, ctx: Context, stepNumber: Value, args: seq<Value>, result: Value, error: Value, observations: Value, k: string)
    requires !ctx.suppressed && |args| > 0
    requires Lookup(ctx.attributes, k).Some? && !Lookup(ctx.attributes, k).value.VNone?
    ensures var attrs := AttributesOf(Step(env, ctx, stepNumber, args, Returned(result), StepLog(Some(error), Some(observations))).events);
            k in attrs && attrs[k] == Lookup(ctx.attributes, k).value
  {
    var o := Observed(env, ctx, error, observations);
    ObservedShape(env, ctx, error, observations);
    assert FinalAnswer(result) + o == (FinalAnswer(result) + o[..|o| - 1]) + [SetAttributes(ctx.attributes)];
    WrittenLast(SpanName(env, stepNumber), StartAttributes(), FinalAnswer(result) + o[..|o| - 1], ctx.attributes, k);
  }
}

=== FILE: step_wrapper.dfy ===
/** `_StepWrapper`: the CHAIN span around one step of an agent.

    The step's log is the first positional argument; what it holds once the
    step has run is read after the `try`, so a log without `error` or
    `observations` ends the span without a status, and a call without
    positional arguments fails inside the `try` after the step has run. */
module StepWrapper {
  import opened Values
  import opened Results
  import opened Spans
  import opened Semconv
  import opened Wrapping

  /** The attributes of `args[0]` read after the step: `error` and
      `observations`, `None` standing for an attribute the log lacks. */
  datatype StepLog = StepLog(error: Option<Value>, observations: Option<Value>)

  function IndexError(): Exception {
    Exception("IndexError", "tuple index out of range", true)
  }

  function SpanName(env: Env, stepNumber: Value): string {
    "Step " + env.str(stepNumber)
  }

  function StartAttributes(): seq<Entry> {
    [Entry(OpenInferenceSpanKind, VStr(ChainKind))]
  }

  /** `span.set_attribute("Final answer", result)` when the step returned
      something. */
  function FinalAnswer(result: Value): seq<Event> {
    if result.VNone? then [] else [SetAttribute("Final answer", result)]
  }

  /** What follows the `try` once the step log has both attributes. */
  function Observed(env: Env, ctx: Context, error: Value, observations: Value): seq<Event> {
    (if error.VNone? then [] else [SetAttribute("Error", VStr(env.str(error)))])
    + [ SetAttribute("Observations", observations),
        SetStatus(StatusOk),
        SetAttribute(OutputValue, observations),
        SetAttributes(ctx.attributes) ]
  }

  /** The events after the span starts and what the caller gets, once the
      step returned `result`. */
  function AfterReturn(env: Env, ctx: Context, args: seq<Value>, result: Value, log: StepLog): (seq<Event>, Outcome) {
    if |args| == 0 then
      (FinalAnswer(result) + Failed(IndexError()), Raised(IndexError()))
    else
      match log.error
      case None => (FinalAnswer(result), Raised(AttributeError(TypeName(args[0]), "error")))
      case Some(error) =>
        var reported := if error.VNone? then [] else [SetAttribute("Error", VStr(env.str(error)))];
        match log.observations
        case None => (FinalAnswer(result) + reported, Raised(AttributeError(TypeName(args[0]), "observations")))
        case Some(observations) => (FinalAnswer(result) + Observed(env, ctx, error, observations), Returned(result))
  }

  /** `_StepWrapper.__call__` on an agent whose `step_number` is
      `stepNumber`. The step always runs unless suppressed; what the caller
      gets is what the step did, except that a step called without
      arguments, or with a log lacking an attribute, makes the wrapper
      raise after the step returned. */
  function Step(env: Env, ctx: Context, stepNumber: Value, args: seq<Value>, outcome: Outcome, log: StepLog): (r: Interception)
    ensures r.invoked
    ensures ctx.suppressed ==> r == Direct(outcome)
    ensures !ctx.suppressed ==> |r.events| >= 2 && r.events[0] == Start(SpanName(env, stepNumber), StartAttributes())
    ensures outcome.Raised? ==> r.outcome == outcome
    ensures r.outcome.Returned? ==> r.outcome == outcome
    ensures !ctx.suppressed && outcome.Returned? && |args| > 0 && log.error.Some? && log.observations.Some? ==>
              r.outcome == outcome
  {
    if ctx.suppressed then Direct(outcome)
    else
      match outcome
      case Raised(e) => Interception(Span(SpanName(env, stepNumber), StartAttributes(), Handled(e)), true, outcome)
      case Returned(result) =>
        var (body, returned) := AfterReturn(env, ctx, args, result, log);
        Interception(Span(SpanName(env, stepNumber), StartAttributes(), body), true, returned)
  }
}

=== FILE: text.dfy ===
/** Decimal rendering of integers, as Python's `str(int)` / f-string formatting does it. */
module Text {

  predicate IsDigit(c: char) {
    '0' <= c <= '9'
  }

  function DigitChar(d: nat): (c: char)
    requires d < 10
    ensures IsDigit(c)
  {
    "0123456789"[d]
  }

  /** `str(n)` for a non-negative `n`: no leading zeros, digits only. */
  function NatToString(n: nat): (s: string)
    ensures |s| > 0
    ensures forall i :: 0 <= i < |s| ==> IsDigit(s[i])
    ensures |s| > 1 ==> s[0] != '0'
    decreases n
  {
    if n < 10 then [DigitChar(n)]
    else NatToString(n / 10) + [DigitChar(n % 10)]
  }

  function DigitOf(c: char): nat
    requires IsDigit(c)
  {
    (c as int) - ('0' as int)
  }

  /** Reading a string of digits back as a number (`int(s)` on digits). */
  function ParseNat(s: string): nat
    requires forall i :: 0 <= i < |s| ==> IsDigit(s[i])
    decreases |s|
  {
    if s == [] then 0
    else ParseNat(s[..|s| - 1]) * 10 + DigitOf(s[|s| - 1])
  }

  lemma DigitValue(d: nat)
    requires d < 10
    ensures DigitOf(DigitChar(d)) == d
  {
  }

  /** `int(str(n)) == n`. */
  lemma {:induction false} ParseNatToString(n: nat)
    ensures ParseNat(NatToString(n)) == n
    decreases n
  {
    var s := NatToString(n);
    if n < 10 {
      DigitValue(n);
    } else {
      ParseNatToString(n / 10);
      DigitValue(n % 10);
      assert s[..|s| - 1] == NatToString(n / 10);
    }
  }

  lemma NatToStringInjective(a: nat, b: nat)
    requires NatToString(a) == NatToString(b)
    ensures a == b
  {
    ParseNatToString(a);
    ParseNatToString(b);
  }

  /** A number followed by a dot can be read back unambiguously: the dot
      ends the digits. */
  lemma NumberDotInjective(a: nat, b: nat, x: string, y: string)
    requires NatToString(a) + "." + x == NatToString(b) + "." + y
    ensures a == b && x == y
  {
    var sa := NatToString(a);
    var sb := NatToString(b);
    var l := sa + "." + x;
    assert l[|sa|] == '.';
    assert l[|sb|] == '.';
    assert |sa| == |sb|;
    assert sa == l[..|sa|];
    assert sb == (sb + "." + y)[..|sb|];
    NatToStringInjective(a, b);
    assert x == l[|sa| + 1..];
    assert y == (sb + "." + y)[|sb| + 1..];
  }

  /** `str(i)` for any integer: a minus sign before the magnitude when negative. */
  function IntToString(i: int): string {
    if i < 0 then "-" + NatToString(-i) else NatToString(i)
  }
}

=== FILE: tool_properties.dfy ===
/** What the TOOL span of a tool call records, on each way the call can
    end. */
module ToolProperties {
  import opened Values
  import opened Results
  import opened Dicts
  import opened Spans
  import opened SpanProperties
  import opened Semconv
  import opened Wrapping
  import opened ToolWrapper

  function StartAttributes(input: string): seq<Entry> {
    [Entry(OpenInferenceSpanKind, VStr(ToolKind)), Entry(InputValue, VStr(input))]
  }

  /** The events between the start and the end of the span. */
  function Body(env: Env, ctx: Context, call: Call, instance: Option<ToolInstance>, outcome: Outcome): seq<Event> {
    var (described, stopped) := Described(env, call, instance);
    if stopped.Some? then described
    else
      match outcome
      case Raised(e) => described + Handled(e)
      case Returned(response) => described + Completed(ctx, response)
  }

  lemma ToolEvents(env: Env, ctx: Context, call: Call, wrappedName: string, instance: Option<ToolInstance>, outcome: Outcome)
    requires !ctx.suppressed && InputValueOf(env, call).Success?
    ensures ToolCall(env, ctx, call, wrappedName, instance, outcome).events
         == Span(SpanName(instance, wrappedName), StartAttributes(InputValueOf(env, call).value),
                 Body(env, ctx, call, instance, outcome))
  {
  }

  /** A tool whose class has a `name`: its name and the JSON of the keyword
      arguments are the first two events. */
  predicate Named(instance: Option<ToolInstance>) {
    instance.Some? && instance.value.name.Some?
  }

  lemma BodyLifecycle(env: Env, ctx: Context, call: Call, instance: Option<ToolInstance>, outcome: Outcome, name: string, attrs: seq<Entry>)
    ensures var events := Span(name, attrs, Body(env, ctx, call, instance, outcome));
      && OneSpan(events)
      && (!Named(instance) ==> LastStatus(events) == None)
      && (Named(instance) && outcome.Raised? && outcome.error.isException ==>
            LastStatus(events) == Some(StatusError(outcome.error.message)) && NeverOk(events))
      && (Named(instance) && outcome.Raised? && !outcome.error.isException ==> LastStatus(events) == None && Unmarked(events))
      && (Named(instance) && outcome.Returned? ==> LastStatus(events) == Some(StatusOk))
  {
    var body := Body(env, ctx, call, instance, outcome);
    var described := Described(env, call, instance).0;
    SpanStatus(name, attrs, body);
    assert Quiet(described) && NeverOk(described) && Unmarked(described);
    assert forall i :: 0 <= i < |described| ==> !described[i].SetStatus?;
    if !Named(instance) {
      NoStatus(body);
    } else {
      match outcome
      case Raised(e) =>
        SpanHandled(name, attrs, described, e);
      case Returned(response) =>
        CompletedLast(ctx, response, described);
    }
  }

  lemma CompletedLast(ctx: Context, response: Value, described: seq<Event>)
    requires Quiet(described)
    ensures Quiet(described + Completed(ctx, response))
    ensures LastStatus(described + Completed(ctx, response)) == Some(StatusOk)
  {
    var c := Completed(ctx, response);
    assert Quiet(c);
    QuietAppend(described, c);
    assert described + c == described + [SetStatus(StatusOk)] + c[1..];
    StatusSetLast(described, StatusOk, c[1..]);
  }

  /** Unless suppressed, a call whose arguments bind gets one TOOL span,
      started with the span kind and the JSON of the arguments. A named
      tool that raises ends it with ERROR status carrying `str(exception)`
      and no OK, or, for another `BaseException`, with no status and
      nothing recorded; one that returns ends it with OK. A tool without a `name`
      never runs and its span ends with no status. */
  lemma ToolLifecycle(env: Env, ctx: Context, call: Call, wrappedName: string, instance: Option<ToolInstance>, outcome: Outcome)
    requires !ctx.suppressed && InputValueOf(env, call).Success?
    ensures var r := ToolCall(env, ctx, call, wrappedName, instance, outcome);
      && OneSpan(r.events)
      && (!Named(instance) ==> !r.invoked && LastStatus(r.events) == None)
      && (Named(instance) && outcome.Raised? && outcome.error.isException ==>
            LastStatus(r.events) == Some(StatusError(outcome.error.message)) && NeverOk(r.events))
      && (Named(instance) && outcome.Raised? && !outcome.error.isException ==>
            LastStatus(r.events) == None && Unmarked(r.events))
      && (Named(instance) && outcome.Returned? ==> LastStatus(r.events) == Some(StatusOk))
  {
    ToolEvents(env, ctx, call, wrappedName, instance, outcome);
    BodyLifecycle(env, ctx, call, instance, outcome, SpanName(instance, wrappedName), StartAttributes(InputValueOf(env, call).value));
  }

  /** What follows the description never writes `k` unless the context,
      applied after a successful call, holds it. */
  lemma TailUntouched(ctx: Context, outcome: Outcome, k: string)
    requires k != OutputValue
    requires outcome.Returned? ==> k !in Keys(ctx.attributes)
    ensures Untouched(match outcome case Raised(e) => Handled(e) case Returned(response) => Completed(ctx, response), k)
  {
    match outcome
    case Raised(e) =>
      assert Untouched(Failed(e), k);
    case Returned(response) =>
      assert Untouched(Completed(ctx, response), k);
  }

  /** Two attributes set first in a span body and never touched again are
      both held at the end. */
  lemma PairRecorded(spanName: string, attrs: seq<Entry>, a: string, va: Value, b: string, vb: Value, tail: seq<Event>)
    requires a != b && !va.VNone? && !vb.VNone?
    requires Untouched(tail, a) && Untouched(tail, b)
    ensures var held := AttributesOf(Span(spanName, attrs, [SetAttribute(a, va), SetAttribute(b, vb)] + tail));
      && a in held && held[a] == va && b in held && held[b] == vb
  {
    var first, second := SetAttribute(a, va), SetAttribute(b, vb);
    assert Untouched([second], a);
    UntouchedAppend([second], tail, a);
    assert [first, second] + tail == [] + [first] + ([second] + tail);
    WrittenInBody(spanName, attrs, [], first, [second] + tail, a, va);
    assert [first, second] + tail == [first] + [second] + tail;
    WrittenInBody(spanName, attrs, [first], second, tail, b, vb);
  }

  lemma BodyCallRecorded(env: Env, ctx: Context, call: Call, t: ToolInstance, name: Value, outcome: Outcome, spanName: string, attrs: seq<Entry>)
    requires t.name == Some(name)
    requires outcome.Returned? ==> ToolCallFunctionName !in Keys(ctx.attributes) && ToolCallFunctionArgumentsJson !in Keys(ctx.attributes)
    ensures var held := AttributesOf(Span(spanName, attrs, Body(env, ctx, call, Some(t), outcome)));
      && ToolCallFunctionName in held && held[ToolCallFunctionName] == VStr(env.str(name))
      && ToolCallFunctionArgumentsJson in held && held[ToolCallFunctionArgumentsJson] == VStr(env.jsonDumps(VMap(call.kwargs)))
  {
    var tail := match outcome case Raised(e) => Handled(e) case Returned(response) => Completed(ctx, response);
    assert Body(env, ctx, call, Some(t), outcome)
        == [SetAttribute(ToolCallFunctionName, VStr(env.str(name))),
            SetAttribute(ToolCallFunctionArgumentsJson, VStr(env.jsonDumps(VMap(call.kwargs))))] + tail;
    TailUntouched(ctx, outcome, ToolCallFunctionName);
    TailUntouched(ctx, outcome, ToolCallFunctionArgumentsJson);
    PairRecorded(spanName, attrs, ToolCallFunctionName, VStr(env.str(name)),
                 ToolCallFunctionArgumentsJson, VStr(env.jsonDumps(VMap(call.kwargs))), tail);
  }

  /** A named tool's span records its `name` and the JSON of the keyword
      arguments it was called with, whether or not it raises, unless the
      context overrides them after a successful call. */
  lemma ToolCallRecorded(env: Env, ctx: Context, call: Call, wrappedName: string, t: ToolInstance, name: Value, outcome: Outcome)
    requires !ctx.suppressed && InputValueOf(env, call).Success?
    requires t.name == Some(name)
    requires outcome.Returned? ==> ToolCallFunctionName !in Keys(ctx.attributes) && ToolCallFunctionArgumentsJson !in Keys(ctx.attributes)
    ensures var attrs := AttributesOf(ToolCall(env, ctx, call, wrappedName, Some(t), outcome).events);
      && ToolCallFunctionName in attrs && attrs[ToolCallFunctionName] == VStr(env.str(name))
      && ToolCallFunctionArgumentsJson in attrs && attrs[ToolCallFunctionArgumentsJson] == VStr(env.jsonDumps(VMap(call.kwargs)))
  {
    ToolEvents(env, ctx, call, wrappedName, Some(t), outcome);
    BodyCallRecorded(env, ctx, call, t, name, outcome, SpanName(Some(t), wrappedName), StartAttributes(InputValueOf(env, call).value));
  }

  lemma BodyOutput(env: Env, ctx: Context, call: Call, t: ToolInstance, response: Value, spanName: string, attrs: seq<Entry>, k: string)
    requires t.name.Some?
    ensures var held := AttributesOf(Span(spanName, attrs, Body(env, ctx, call, Some(t), Returned(response))));
      && (!response.VNone? && OutputValue !in Keys(ctx.attributes) ==>
            OutputValue in held && held[OutputValue] == response)
      && (Lookup(ctx.attributes, k).Some? && !Lookup(ctx.attributes, k).value.VNone? ==>
            k in held && held[k] == Lookup(ctx.attributes, k).value)
  {
    var described := Described(env, call, Some(t)).0;
    var c := Completed(ctx, response);
    var body := Body(env, ctx, call, Some(t), Returned(response));
    assert body == (described + [c[0]]) + [c[1]] + [c[2]];
    if !response.VNone? && OutputValue !in Keys(ctx.attributes) {
      WrittenInBody(spanName, attrs, described + [c[0]], c[1], [c[2]], OutputValue, response);
    }
    if Lookup(ctx.attributes, k).Some? && !Lookup(ctx.attributes, k).value.VNone? {
      WrittenLast(spanName, attrs, described + [c[0]] + [c[1]], ctx.attributes, k);
    }
  }

  /** A named tool that returns has its response as the span's output,
      unless the context overrides it; every context attribute with a value
      ends up on the span. */
  lemma ToolOutput(env: Env, ctx: Context, call: Call, wrappedName: string, t: ToolInstance, response: Value, k: string)
    requires !ctx.suppressed && InputValueOf(env, call).Success?
    requires t.name.Some?
    ensures var attrs := AttributesOf(ToolCall(env, ctx, call, wrappedName, Some(t), Returned(response)).events);
      && (!response.VNone? && OutputValue !in Keys(ctx.attributes) ==>
            OutputValue in attrs && attrs[OutputValue] == response)
      && (Lookup(ctx.attributes, k).Some? && !Lookup(ctx.attributes, k).value.VNone? ==>
            k in attrs && attrs[k] == Lookup(ctx.attributes, k).value)
  {
    ToolEvents(env, ctx, call, wrappedName, Some(t), Returned(response));
    BodyOutput(env, ctx, call, t, response, SpanName(Some(t), wrappedName), StartAttributes(InputValueOf(env, call).value), k);
  }
}

=== FILE: tool_wrapper.dfy ===
/** `_ToolCallWrapper`: the TOOL span around a tool call.

    The span starts with the span kind and the JSON of the call's
    arguments; inside it, before the tool runs, the wrapper records the
    tool's class-level `name` and the JSON of the keyword arguments. */
module ToolWrapper {
  import opened Values
  import opened Results
  import opened Dicts
  import opened Binding
  import opened Spans
  import opened Semconv
  import opened Wrapping

  /** The tool the method is bound to: its class name and its class's
      `name` attribute, `None` when the class has none. */
  datatype ToolInstance = ToolInstance(className: string, name: Option<Value>)

  function SpanName(instance: Option<ToolInstance>, wrappedName: string): string {
    match instance
    case Some(t) => t.className
    case None => wrappedName
  }

  /** Reading a missing attribute of a class (here `instance.__class__`). */
  function ClassAttributeError(owner: string, name: string): Exception {
    Exception("AttributeError", "type object '" + owner + "' has no attribute '" + name + "'", true)
  }

  /** The events inside the span before the tool runs, and the exception
      that stops the wrapper there when the tool's class has no `name`
      (`None.__class__` is `NoneType`, which has none either). */
  function Described(env: Env, call: Call, instance: Option<ToolInstance>): (r: (seq<Event>, Option<Exception>))
    ensures r.1.None? <==> instance.Some? && instance.value.name.Some?
    ensures r.1.Some? ==> r.0 == [] && r.1.value.kind == "AttributeError"
  {
    match instance
    case None => ([], Some(ClassAttributeError("NoneType", "name")))
    case Some(t) =>
      match t.name
      case None => ([], Some(ClassAttributeError(t.className, "name")))
      case Some(name) =>
        ([ SetAttribute(ToolCallFunctionName, VStr(env.str(name))),
           SetAttribute(ToolCallFunctionArgumentsJson, VStr(env.jsonDumps(VMap(call.kwargs)))) ], None)
  }

  /** The rest of the `try` once the tool returned, and what follows it. */
  function Completed(ctx: Context, response: Value): seq<Event> {
    [ SetStatus(StatusOk),
      SetAttribute(OutputValue, response),
      SetAttributes(ctx.attributes) ]
  }

  /** `_ToolCallWrapper.__call__`. Arguments that do not bind raise before
      any span; a tool whose class has no `name` raises inside the span
      before it runs; otherwise the tool runs once and the caller gets
      exactly what it did. */
  function ToolCall(env: Env, ctx: Context, call: Call, wrappedName: string,
                    instance: Option<ToolInstance>, outcome: Outcome): (r: Interception)
    ensures ctx.suppressed ==> r == Direct(outcome)
    ensures !ctx.suppressed && HelperParameter in Keys(call.kwargs) ==>
              r == Interception([], false, Raised(TypeError(BindingMessage(HelperCollision("_get_input_value")))))
    ensures !ctx.suppressed && InputValueOf(env, call).Failure? ==>
              r == Interception([], false, Raised(InputValueOf(env, call).error))
    ensures !ctx.suppressed && InputValueOf(env, call).Success? ==>
              && |r.events| >= 2
              && r.events[0] == Start(SpanName(instance, wrappedName),
                   [Entry(OpenInferenceSpanKind, VStr(ToolKind)), Entry(InputValue, VStr(InputValueOf(env, call).value))])
              && (r.invoked <==> instance.Some? && instance.value.name.Some?)
              && (r.invoked ==> r.outcome == outcome)
              && (!r.invoked ==> r.outcome.Raised? && r.outcome.error.kind == "AttributeError")
  {
    if ctx.suppressed then Direct(outcome)
    else
      match InputValueOf(env, call)
      case Failure(e) => Interception([], false, Raised(e))
      case Success(input) =>
        var attrs := KindAndInput(ToolKind, input).value;
        var name := SpanName(instance, wrappedName);
        var (described, stopped) := Described(env, call, instance);
        match stopped
        case Some(e) => Interception(Span(name, attrs, described), false, Raised(e))
        case None =>
          match outcome
          case Raised(e) => Interception(Span(name, attrs, described + Handled(e)), true, outcome)
          case Returned(response) =>
            Interception(Span(name, attrs, described + Completed(ctx, response)), true, outcome)
  }
}

=== FILE: values.dfy ===
/** The Python values the instrumentation inspects, as an algebraic datatype.

    `VMap` is any `Mapping` (a `dict` in practice) with its entries in
    insertion order; `VList` is a `list`; `VEnum` is a member of a plain
    `Enum` carrying its `.value`; `VOpaque` is any other object (a tuple, an
    agent, a message object), identified only by an id. */
module Values {

  datatype Scalar = SStr(s: string) | SInt(i: int) | SBool(b: bool)

  datatype Value =
    | VNone
    | VStr(s: string)
    | VInt(i: int)
    | VBool(b: bool)
    | VEnum(member: Scalar)
    | VMap(entries: seq<Entry>)
    | VList(items: seq<Value>)
    | VOpaque(id: nat)

  /** One key/value pair of a mapping, of a keyword-argument dict, or of a
      span-attribute dict. */
  datatype Entry = Entry(key: string, value: Value)

  /** `Enum` unwrapping: the attribute value that stands for an enum member. */
  function ScalarValue(s: Scalar): (v: Value)
    ensures !v.VNone? && !v.VMap? && !v.VList? && !v.VEnum?
  {
    match s
    case SStr(x) => VStr(x)
    case SInt(x) => VInt(x)
    case SBool(x) => VBool(x)
  }

  /** Python truthiness (`bool(v)`). Members of a plain `Enum` and arbitrary
      objects are truthy. */
  predicate Truthy(v: Value) {
    match v
    case VNone => false
    case VStr(s) => s != ""
    case VInt(i) => i != 0
    case VBool(b) => b
    case VEnum(_) => true
    case VMap(es) => |es| > 0
    case VList(xs) => |xs| > 0
    case VOpaque(_) => true
  }

  /** True iff some element of the list is a mapping (the `any(isinstance(item, Mapping) ...)` test). */
  predicate HasMapping(items: seq<Value>) {
    exists i :: 0 <= i < |items| && items[i].VMap?
  }
}

=== FILE: wrapping.dfy ===
/** What the four wrappers share: the library calls they make whose
    behaviour lies outside this model, the OpenTelemetry context they read,
    the call they intercept, and the exceptions raised before a span
    exists. */
module Wrapping {
  import opened Values
  import opened Results
  import opened Dicts
  import opened Binding
  import opened Spans
  import opened Semconv
  import Flatten

  /** `safe_json_dumps`, `json.dumps` and `str`, as total functions. */
  datatype Env = Env(safeJsonDumps: Value -> string, jsonDumps: Value -> string, str: Value -> string)

  /** The suppression flag (`_SUPPRESS_INSTRUMENTATION_KEY`) and
      `get_attributes_from_context()`. */
  datatype Context = Context(suppressed: bool, attributes: seq<Entry>)

  /** The intercepted call: the wrapped function's signature and the
      positional and keyword arguments it is called with. */
  datatype Call = Call(signature: Signature, args: seq<Value>, kwargs: seq<Entry>)

  /** `type(v).__name__`, as far as the value model tells it. */
  function TypeName(v: Value): string {
    match v
    case VNone => "NoneType"
    case VStr(_) => "str"
    case VInt(_) => "int"
    case VBool(_) => "bool"
    case VEnum(_) => "Enum"
    case VMap(_) => "dict"
    case VList(_) => "list"
    case VOpaque(_) => "object"
  }

  function TypeError(message: string): Exception {
    Exception("TypeError", message, true)
  }

  /** A `bool` or an `int`: what Python's `+` adds as integers. */
  predicate IsInteger(v: Value) {
    v.VInt? || v.VBool?
  }

  /** The integer an `int` or a `bool` stands for (`True` is 1). */
  function IntegerOf(v: Value): int
    requires IsInteger(v)
  {
    if v.VInt? then v.i else if v.b then 1 else 0
  }

  /** Python's `a + b` on the token counts: `bool`s and `int`s add as
      integers, two `str`s or two `list`s concatenate, any other pair raises
      `TypeError`. Both wrappers that record token counts add them this
      way; a count is `None` before the model has been called. */
  function TokenSum(a: Value, b: Value): (r: Result<Value, Exception>)
    ensures r.Failure? ==> r.error.kind == "TypeError"
    ensures a.VNone? || b.VNone? ==> r.Failure?
    ensures r.Success? ==> TypeName(r.value) == (if a.VBool? then "int" else TypeName(a))
  {
    if IsInteger(a) && IsInteger(b) then Success(VInt(IntegerOf(a) + IntegerOf(b)))
    else if a.VStr? && b.VStr? then Success(VStr(a.s + b.s))
    else if a.VList? && b.VList? then Success(VList(a.items + b.items))
    else if a.VStr? || a.VList? then
      Failure(TypeError("can only concatenate " + TypeName(a) + " (not \"" + TypeName(b) + "\") to " + TypeName(a)))
    else Failure(TypeError("unsupported operand type(s) for +: '" + TypeName(a) + "' and '" + TypeName(b) + "'"))
  }

  /** Reading a missing attribute of an object of class `owner`. */
  function AttributeError(owner: string, name: string): Exception {
    Exception("AttributeError", "'" + owner + "' object has no attribute '" + name + "'", true)
  }

  /** The message a binding `TypeError` carries. */
  function BindingMessage(e: BindingError): string {
    match e
    case TooManyPositional => "too many positional arguments"
    case MultipleValues(n) => "multiple values for argument '" + n + "'"
    case MissingArgument(n) => "missing a required argument: '" + n + "'"
    case UnexpectedKeyword(n) => "got an unexpected keyword argument '" + n + "'"
    case HelperCollision(h) => h + "() got multiple values for argument '" + HelperParameter + "'"
  }

  /** The message when a keyword argument collides with the parameter
      `method` of `helper`. */
  lemma CollisionMessage(helper: string)
    ensures BindingMessage(HelperCollision(helper)) == helper + "() got multiple values for argument 'method'"
  {
    assert HelperParameter + "'" == "method'";
  }

  /** The exception `_get_input_value` raises. */
  function InputFailure(e: InputError): Exception {
    match e
    case BindFailed(b) => TypeError(BindingMessage(b))
    case NotAMapping(v) => TypeError("'" + TypeName(v) + "' object is not a mapping")
  }

  /** `_get_input_value(wrapped, *args, **kwargs)`. A keyword argument
      named `method` collides with the helper's own first parameter. */
  function InputValueOf(env: Env, call: Call): (r: Result<string, Exception>)
    ensures HelperParameter in Keys(call.kwargs) ==>
              r == Failure(TypeError(BindingMessage(HelperCollision("_get_input_value"))))
  {
    match GetInputValue(env.safeJsonDumps, call.signature, call.args, call.kwargs)
    case Success(s) => Success(s)
    case Failure(e) => Failure(InputFailure(e))
  }

  /** The suppressed path: `return wrapped(*args, **kwargs)`, no span. */
  function Direct(outcome: Outcome): Interception {
    Interception([], true, outcome)
  }

  /** `dict(_flatten({OPENINFERENCE_SPAN_KIND: kind, INPUT_VALUE: input}))`,
      the start attributes of the agent and tool spans. Both values are
      strings, so they come out as they went in. */
  function KindAndInput(kind: string, input: string): (r: Result<seq<Entry>, Exception>)
    ensures r == Success([Entry(OpenInferenceSpanKind, VStr(kind)), Entry(InputValue, VStr(input))])
  {
    var entries := [Entry(OpenInferenceSpanKind, VStr(kind)), Entry(InputValue, VStr(input))];
    FlattenStrings(entries);
    match Flatten.FlattenValue(VMap(entries))
    case Success(attrs) => Success(attrs)
    case Failure(e) => Failure(AttributeError(TypeName(e.value), "items"))
  }

  /** Flattening a mapping of strings changes nothing. */
  lemma {:induction false} FlattenStrings(entries: seq<Entry>)
    requires forall i :: 0 <= i < |entries| ==> entries[i].value.VStr?
    ensures Flatten.FlattenEntries(entries) == Success(entries)
    decreases |entries|
  {
    if entries != [] {
      FlattenStrings(entries[1..]);
      assert entries == [entries[0]] + entries[1..];
    }
  }
}
